=== FILE: README.md ===
# ctdx protocol core in Dafny

A model of the protocol logic of ctdx. ctdx is a Go client for TDX ("通达信"), a Chinese market-data server. The model covers:

- **Numbers and layouts.** The legacy variable-length number coding, the little-endian request header and payloads, and the fixed-size reply records.
- **Framing.** How the receive buffer is cut into reply frames, and how a request is put on the wire.
- **Handlers.** The event-id dispatcher, and the reply handlers as functions from client state and reply to new state.
- **Workflows.** The request lists of the download workflows: instrument-list paging, corporate-action ("bonus") batching, and day and minute bar ranges with the closing sentinel.
- **Lookups.** Instrument classification by code prefix, the trading-calendar lookup and its load-once cache.

Sockets, compression, encryption, character sets, dataframes and CSV files are replaced by sequences and by parameters.

The modules follow the source files:

| module | file | contents |
|---|---|---|
| `Bytes` | (helpers) | little-endian reads and writes, Go's integer conversions, `Option`/`Result` |
| `Layout` | (helpers) | `binary.Read`/`binary.Write` of a packed struct, and field offsets |
| `TGear` | comm/tgear.go | `BufferToDouble`, and the reference encoder kept in comments in `DoubleToBuf` |
| `Models` | models.go | record shapes |
| `Request` | packet/request.go | request header and request payloads |
| `Response` | packet/response.go | reply header and reply records |
| `Interceptor` | packet/interceptor.go | `ReadPacket` framing and `BuildPacket` |
| `Dispatcher` | dispatcher.go | the handler table and `HandleProc` routing |
| `Stocks` | comm/stocks.go | `GetFinanceDataFrame` selection, `NextDay`, `DefaultStockCalendar` |
| `Handler` | handler.go | the reply handlers |
| `Client` | client.go | the workflows |

How the source is represented:

- **Integers and bytes.** Integers are unbounded. Go's `uint16(x)`, `uint32(x)` and `byte(x)` are written out as `Wrap16`, `Wrap32` and `Wrap8`.
- **Floats.** Float fields are kept as their raw bit patterns. Day-bar prices are kept as the integer hundredths they are sent as.
- **Text.** Text from the server is kept as the undecoded bytes.
- **Reply streams.** The handlers read a reply through a little-endian stream. A read with enough bytes left yields the value and moves on; otherwise a `ReadUint16` or `ReadUint32` yields 0, a `ReadBuff` yields nothing, and the position stays. A `binary.Read` of too few bytes leaves its record as it was, so a reply that declares more records than it carries repeats the last whole record, or the zero record when there is none.
- **Handlers.** A handler returns the new client state. What it would write to a channel, a file or the log is appended to an output list.
- **Workflows.** A workflow returns the requests it sends, in order. Whatever it would learn from the server, the clock or the file system is a parameter:
  - acknowledged counts;
  - today's date;
  - stored bar files;
  - the instrument list;
  - the cached calendar.

Two facts about the Go framing code shape the model:

- `ReadPacket` takes the frame length from the header's `BodyLength` field alone (packet/interceptor.go:61-69). The `BodyMaxLength` field is decoded but never used.
- The body is inflated exactly when bit 0x10 of the compression byte is set (packet/interceptor.go:75-77). The inflation itself is a function parameter.

## Model

| member | source | states |
|---|---|---|
| Bytes.CopyInto | packet/request.go:198 | `copy` into a zeroed `[n]byte` keeps the first n bytes and zero-pads a shorter source |
| Bytes.ReadU16OfU16 | packet/request.go:36 | a 16-bit little-endian write reads back as the value cut to 16 bits, wherever it sits |
| Bytes.ReadU32OfU32 | packet/request.go:111 | a 32-bit little-endian write reads back as the value cut to 32 bits |
| Bytes.U16OfReadU16 | packet/response.go:6-15 | re-encoding a 16-bit read gives back the two bytes it was read from |
| Bytes.U32OfReadU32 | packet/response.go:6-15 | re-encoding a 32-bit read gives back the four bytes it was read from |
| Bytes.Signed32OfWrap32 | packet/response.go:63 | an int32 date stored as 32 raw bits reads back as the same signed value |
| Bytes.ReadWords | packet/response.go:78-87 | word i of a run of 32-bit words reads back at byte 4i |
| Layout.Read | handler.go:44-46 | `binary.Read` succeeds exactly when the buffer holds the whole struct, and yields values that fit their fields |
| Layout.DecodeFieldsAt | packet/response.go:45-54 | each decoded field is the bytes at its packed offset, read with its own width |
| Layout.DecodeEncode | packet/request.go:36 | decoding what `binary.Write` wrote gives the values back, whatever follows |
| Layout.EncodeDecode | packet/interceptor.go:55-60 | writing what was read gives back exactly the bytes the struct occupied |
| Layout.ReadWrite | packet/request.go:36 | `binary.Read` after `binary.Write` yields the written values |
| Layout.WriteRead | packet/interceptor.go:55-60 | `binary.Write` after a successful `binary.Read` reproduces the buffer's prefix |
| Layout.WriteFieldAt | packet/request.go:36 | each written field reads back at its packed offset |
| TGear.BufferToDouble | comm/tgear.go:6-22 | the source's loop, iterated with invariants over exact integers, computes the closed form `Decode`: consumed bytes, magnitude and sign; it yields nothing on a buffer with no terminating byte |
| TGear.Terminator | comm/tgear.go:11-13 | finds the first byte with 0x80 clear at or after a position, or reports that none exists |
| TGear.DecodeConsumption | comm/tgear.go:11-21 | a number consumes one byte more than its leading bytes with 0x80 set and ends at the first byte with 0x80 clear |
| TGear.DecodeNoneIff | comm/tgear.go:11-13 | decoding fails exactly when no byte has 0x80 clear, which is where the source indexes out of bounds |
| TGear.DecodeAt | comm/tgear.go:8-15 | the magnitude is `(b0 & 0x3F) + 64 * Σ (b_i & 0x7F) * 128^(i-1)` over the continuation bytes |
| TGear.Decode | comm/tgear.go:6-22 | a decoded number takes at least one byte and no more than the buffer holds, and its last byte has 0x80 clear |
| TGear.DecodePastFloat64 | comm/tgear.go:9-14 | the eight bytes 81 80 80 80 80 80 80 20 denote 2^53 + 1, the first magnitude float64 cannot hold exactly |
| TGear.DecodeSingleByte | comm/tgear.go:9-21 | a first byte with 0x80 clear is a whole number of one byte, `±(b & 0x3F)` |
| TGear.DecodeSign | comm/tgear.go:17-19 | the number is non-positive exactly when bit 0x40 of byte 0 is set (or the magnitude is 0) |
| TGear.DecodeFirstSignFlip | comm/tgear.go:17-19 | toggling bit 0x40 of byte 0 negates the number and keeps its length |
| TGear.DecodeLaterBit6IsMagnitude | comm/tgear.go:11-19 | bit 0x40 of a later byte i is a magnitude bit worth `64 * 64 * 128^(i-1)`, never a sign |
| TGear.GroupsFlipBit6 | comm/tgear.go:13 | toggling bit 0x40 of group i moves the group sum by `64 * 128^i` |
| TGear.DoubleToBuf | comm/tgear.go:43-66 | the commented reference encoder on an integer: six low bits with sign 0x40 in byte 0, then 7-bit groups flagged 0x80 |
| TGear.EncodeGroupsShape | comm/tgear.go:49-59 | the encoder's groups carry 0x80 on all but the last and add up to the encoded magnitude |
| TGear.DoubleToBufShape | comm/tgear.go:43-66 | byte 0 holds the low six bits and the sign, and 0x80 marks every byte but the last |
| TGear.DecodeDoubleToBuf | comm/tgear.go:6-66 | decoding the encoder's output returns the original integer and consumes exactly the encoding |
| TGear.DecodeComplete | comm/tgear.go:11-21 | a number whose bytes end with its terminator decodes the same whatever follows |
| TGear.DecodeAllEncodeAll | comm/tgear_test.go:16-20 | decoding a run of encoded numbers one after another returns the numbers in order |
| TGear.DecodeAllCons | comm/tgear_test.go:16-20 | one step of the test's walk consumes one number and continues after it |
| TGear.TestVectorValues | comm/tgear_test.go:14-25 | the test buffer decodes to 940, -16, -12 first and 14999360 sixth |
| TGear.DecodeTestPrefix | comm/tgear_test.go:14-25 | any buffer starting with the test's first ten bytes decodes to 940, -16, -12, 36, -33, 14999360 and then the rest |
| Request.GenerateHeader | packet/request.go:17-38 | 12 bytes: 0x0C, the index (a random value below 0x7fff when 0), command, raw flag, the length plus two twice, and the event, little-endian |
| Request.HeaderWritten | packet/request.go:17-36 | the header struct's fields land at offsets 0, 1, 3, 5, 6, 8 and 10 |
| Request.DeviceInfo | packet/request.go:51-72 | the 278-byte device record: zero padding around the version words and the 12-byte MAC |
| Request.VersionWords | packet/request.go:53-71 | the constant 0x01040000, a zero word, the two version words and a zero word, in order |
| Request.GenerateDeviceNode | packet/request.go:63-79 | event 0x0B, command 0x7B, index 0, and the device record passed through the cipher |
| Request.GenerateMarketInitInfo | packet/request.go:81-89 | event 0x0D, command 0x94, raw flag 1, payload `[0x01]` |
| Request.GenerateMarketStockCount | packet/request.go:91-115 | event 0x044E, command 0x6B for market 0 and 0x6C otherwise, 6-byte payload: market u16 and date u32 |
| Request.GenerateNotice | packet/request.go:118-127 | event 0x0FDB, command 0x99, the 30-byte literal beginning "tdxlevel2" |
| Request.GenerateMarketStockBase | packet/request.go:130-153 | event 0x0450, command 0x6D for market 0 and 0x6E otherwise, 4-byte payload: market and offset |
| Request.EncodeSymbolsLayout | packet/request.go:155-174 | symbol i sits at bytes 7i..7i+7: market byte then 6-byte code |
| Request.EncodeSymbols | packet/request.go:174 | `binary.Write` of the symbol array takes exactly 7 bytes per symbol |
| Request.GenerateStockBonus | packet/request.go:160-178 | event 0x0F, command 0x76, the given index, and a payload of a u16 count plus 7 bytes per symbol |
| Request.HistoryPayload | packet/request.go:181-187 | 18 bytes: market u16, code in 6 bytes (zero-padded or cut), start u32, end u32, trailing u16 |
| Request.GenerateStockDayItem | packet/request.go:189-204 | event 0x0FCD, command 0x87, the given index, trailing word 4 |
| Request.GenerateStockMinsItem | packet/request.go:206-221 | event 0x0FCD, command 0x8D, the given index, trailing word 0 |
| Response.DecodeHeader | packet/response.go:6-15 | the 16-byte reply header is read from any 16 bytes; no field is checked |
| Response.DecodeEncodeHeader | packet/response.go:6-15 | encoding then decoding a header gives it back |
| Response.EncodeDecodeHeader | packet/response.go:6-15 | decoding then encoding gives back the 16 header bytes |
| Response.HeaderOffsets | packet/response.go:6-15 | flag u32@0, compression@4, index u16@5, command u16@7, unknown@9, event u16@10, body length u16@12, max length u16@14 |
| Response.DecodeMarketInit | packet/response.go:28-40 | the 107-byte market record is read exactly when 107 bytes are present |
| Response.DecodeEncodeMarketInit | packet/response.go:28-40 | encode then decode is the identity on market records |
| Response.EncodeDecodeMarketInit | packet/response.go:28-40 | decode then encode gives back the record's 107 bytes |
| Response.MarketInitOffsets | packet/response.go:28-40 | Shenzhen date@42, flag@46, Shanghai date@50, flag@54, server name[21]@68, domain[18]@89 |
| Response.DecodeEncodeStockBase | packet/response.go:45-54 | encode then decode is the identity on 29-byte instrument records |
| Response.EncodeDecodeStockBase | packet/response.go:45-54 | decode then encode gives back the record's 29 bytes |
| Response.StockBaseOffsets | packet/response.go:45-54 | code[6]@0, u16@6, name[8]@8, u32@16, u8@20, price@21, bonus1@25, bonus2@27 |
| Response.DecodeEncodeStockBonus | packet/response.go:59-69 | encode then decode is the identity on 29-byte corporate-action records |
| Response.EncodeDecodeStockBonus | packet/response.go:59-69 | decode then encode gives back the record's 29 bytes |
| Response.StockBonusOffsets | packet/response.go:59-69 | market@0, code[6]@1, terminator@7, signed date@8, type@12, four 4-byte fields @13..28 |
| Response.KindRoundTrip | packet/response.go:64 | the nine documented action kinds are the type bytes 1 to 9, one to one |
| Response.DecodeEncodeStockDay | packet/response.go:78-87 | encode then decode is the identity on 32-byte day bars |
| Response.EncodeDecodeStockDay | packet/response.go:78-87 | decode then encode gives back the bar's 32 bytes |
| Response.StockDayOffsets | packet/response.go:78-87 | eight u32 fields: date, open, high, low, close, amount, volume, unknown at 0, 4, …, 28 |
| Response.SampleDayRow | packet/response.go:74 | the sample row reads as date 20161201 with open 957, high 963, low 955 and close 960 hundredths |
| Response.DecodeEncodeStockMins | packet/response.go:95-105 | encode then decode is the identity on 32-byte minute bars |
| Response.EncodeDecodeStockMins | packet/response.go:95-105 | decode then encode gives back the bar's 32 bytes |
| Response.StockMinsOffsets | packet/response.go:95-105 | date u16@0, time u16@2, five 4-byte fields @4..23, volume@24, unknown@28 |
| Response.SampleMinsRow | packet/response.go:92 | the sample row's packed date is 0x6397 and its time 0x023F |
| Interceptor.Deliver | packet/interceptor.go:73-82 | the header is kept; the body is inflated when bit 0x10 of the compression byte is set and passed on unchanged when it is clear |
| Interceptor.FrameLength | packet/interceptor.go:55-63 | a frame is the 16 header bytes plus the `BodyLength` read at header offset 12, so never more than 16 + 65535 bytes |
| Interceptor.Deframe | packet/interceptor.go:55-80 | no frame and the buffer unchanged while fewer than 16 + BodyLength bytes are buffered; otherwise the header, the next BodyLength bytes as body, and the remainder in order |
| Interceptor.ReadPacket | packet/interceptor.go:40-83 | the result is one framing attempt on the buffer after the reads: the first read only when less than a header is buffered, the second only when the frame is still incomplete; without a frame nothing buffered is lost or consumed |
| Interceptor.Received | packet/interceptor.go:46-69 | the reads only append: what was buffered stays a prefix, and at most what the two reads delivered is added |
| Interceptor.ReadPacketWith | packet/interceptor.go:55-69 | after the peek, a missing body leaves the buffer (plus what arrived) unconsumed |
| Interceptor.HeaderPeek | packet/interceptor.go:55-60 | the header depends only on the first 16 bytes, so peeking then receiving more does not change it |
| Interceptor.ReadPacketBuffered | packet/interceptor.go:44-69 | a buffer already holding a whole frame is framed without any read |
| Interceptor.ReadPacketStarved | packet/interceptor.go:44-52 | with nothing arriving, an incomplete buffer yields no frame and is kept as it is |
| Interceptor.DeframeEncodeFrame | packet/interceptor.go:72-80 | framing an encoded reply delivers it and leaves exactly the bytes after it |
| Interceptor.DeframeAll | packet/interceptor.go:40-83 | framing repeatedly stops only at a buffer that holds no whole frame |
| Interceptor.DeframeAllEncodeFrames | packet/interceptor.go:40-83 | concatenated frames come out one by one, in order, none lost or duplicated |
| Interceptor.BuildPacket | packet/interceptor.go:88-94 | the output is the 12-byte header followed by the payload |
| Interceptor.ParseBuildPacket | packet/interceptor.go:88-94 | a server reading back a built request recovers event, command, raw flag, payload and index (the drawn one for index 0) |
| Dispatcher.AddHandler | dispatcher.go:33 | registering puts the handler under the id and keeps every other entry |
| Dispatcher.DelHandler | handler.go:125 | removing drops the id and keeps every other entry |
| Dispatcher.AddHandlerOverwrites | client.go:99 | a later registration for the same id replaces the earlier one |
| Dispatcher.DelHandlerIdempotent | handler.go:185-190 | removing twice is removing once |
| Dispatcher.DelAddHandler | handler.go:125 | removing what was just added restores the table |
| Dispatcher.HandleProc | dispatcher.go:26-40 | event 0 is dropped; a registered event goes to exactly its handler; any other goes to the unknown-packet handler |
| Dispatcher.RouteByEventOnly | dispatcher.go:33 | routing depends on the event id alone, not on command, index or body |
| Dispatcher.RegisteredHandlerRuns | dispatcher.go:33-39 | after registering a handler for an event, that event's replies reach it |
| Stocks.CategoryHitsExact | comm/stocks.go:180-249 | within one category at most one prefix test succeeds, and one does exactly when the category's table for the row's market lists a prefix of the code |
| Stocks.AtMostOneTest | comm/stocks.go:177-251 | the prefix tables are disjoint, so with every category requested a row is appended at most once |
| Stocks.AppendsSelected | comm/stocks.go:180-250 | a row is appended once if some requested category's table matches it, and never otherwise |
| Stocks.RecordIdx | comm/stocks.go:177-250 | the appended positions are strictly increasing, and a position is among them exactly when its row is selected |
| Stocks.Subset | comm/stocks.go:251 | the rows at the given positions, in that order |
| Stocks.RecordIdxFilter | comm/stocks.go:177-251 | the collected subset equals the filter of the list by the selection predicate |
| Stocks.GetFinanceIsFilter | comm/stocks.go:168-252 | the selection is an ordered subsequence holding each selected row exactly once |
| Stocks.GetFinanceDataFrame | comm/stocks.go:168-252 | every returned row is a listed row of a requested category, and every listed row of a requested category is returned |
| Stocks.NoCategoryNoRows | comm/stocks.go:180-251 | an empty category list selects nothing |
| Stocks.StockARule | comm/stocks.go:187-196 | an A-share is market 0 with code "00…" or "30…", or market 1 with code "6…" |
| Stocks.Atoi | comm/stocks.go:78 | `strconv.Atoi` succeeds exactly when the text after an optional sign is a non-empty run of decimal digits whose signed value is within Go's 64-bit range, and then yields that signed value |
| Stocks.AtoiSignDigits | comm/stocks.go:78 | no sign, `+` or `-` before a run of digits reads as the digits' value with that sign, or an error when it leaves the 64-bit range |
| Stocks.AtoiRejectsNonDigit | comm/stocks.go:78 | any character that is not a digit, other than a leading sign, makes the text an error |
| Stocks.AtoiItoa | comm/stocks.go:78-85 | reading back what `%d` prints gives the number |
| Stocks.FirstOpenAfter | comm/stocks.go:81-87 | the first row in stored order that is open and dated after the day, or none |
| Stocks.NextDay | comm/stocks.go:77-90 | the first open day later than the given one, printed in decimal; an error for non-numeric text or when there is none |
| Stocks.NextDaySample | comm/stocks_test.go:20-22 | with the 2017 National Day calendar, the day after "20170931" is "20171009" |
| Stocks.DefaultStockCalendar | comm/stocks.go:37-54 | a cached calendar is returned whatever the path; otherwise an empty path or a failed load is an error that leaves no cache, and a load that succeeds is cached |
| Stocks.CalendarLoadedOnce | comm/stocks.go:38-40 | once a calendar has been returned, every later call returns the same one |
| Handler.RecordLoop | handler.go:92-104 | the loop appends exactly `count` records, each of the record size once the shared record is |
| Handler.RecordLoopAt | handler.go:92-96 | record i is the body's i-th record when the bytes hold it whole, otherwise a repeat of the last whole record, or the starting zero record when there is none |
| Handler.RecordLoopConcat | handler.go:92-96 | records laid back to back are read back in order, and the loop goes on over what follows with the last of them as the shared record |
| Handler.RecordLoopStarved | handler.go:92-96 | once fewer bytes than a record remain, every further round repeats the shared record and consumes nothing |
| Handler.BaseModel | handler.go:98-101 | a row carries the record's code, name, three unknown fields, price and both bonus fields, tagged with the reply's market |
| Handler.BonusModel | handler.go:157-161 | a row carries the record's market, code, kind and four amounts, with the date read as a signed 32-bit number |
| Handler.DayModel | handler.go:210-213 | a day row carries the bar's date, open, low, high, close, volume and amount |
| Handler.MinsDateFields | handler.go:240-244 | the packed minute date is year = D/2048 + 2004, month = D%2048/100, day = D%2048%100 |
| Handler.MinsDatePack | handler.go:240-244 | packing year, month and day is undone by the decoding when month·100 + day < 2048 |
| Handler.MinsDateSplit | handler.go:240-244 | the yyyymmdd date splits back into the year, month and day decoded from the packed date |
| Handler.MinsModel | handler.go:240-250 | the minute row's hour and minute give back the time field, the minute below 60; its date packs back to the wire date; prices, volume and amount are carried |
| Handler.MinsTimeRoundTrip | handler.go:245 | the time field is hour·60 + minute, and below 1440 the hour is below 24 |
| Handler.SampleMinsModel | handler.go:240-245 | the sample minute row decodes to 2016-09-19 at 09:35 |
| Handler.ParseStockBaseReply | handler.go:88-104 | as many rows as the body's first u16 (0 on a shorter body); row i is the body's record i when it is there whole, else a repeat of the last whole record, or of the zero record |
| Handler.ParseEncodeStockBaseReply | handler.go:88-104 | a reply carrying records yields exactly their rows, in order |
| Handler.StaleBaseRows | handler.go:90-104 | a page declaring more records than it carries yields the declared number of rows, the extra ones repeating the last carried record |
| Handler.ParseBonusReply | handler.go:141-165 | the stock count is the body's first u16 (0 on a shorter body), and a count of 0 yields no rows |
| Handler.ParseEncodeBonusGroups | handler.go:147-165 | per-stock groups (7 skipped bytes, u16 sub-count, records) yield all their records in order |
| Handler.ParseEncodeBonusReply | handler.go:143-165 | a reply of groups yields its stock count and as many rows as the sub-counts add up to |
| Handler.StaleBonusRows | handler.go:147-164 | a stock whose group declares more records than the reply carries gets its carried records, then repeats of the last one |
| Handler.ParseHistoryReply | handler.go:295-298 | after a skipped u16 and a u32 byte length (0 bars on a body under 6 bytes), `length / 32` bars; bar i is the i-th 32-byte record after the six-byte head when it is there whole, else a repeat of the last whole one, or of the zero record |
| Handler.ParseEncodeHistoryReply | handler.go:202-208 | a reply laid out as a tag, the bars' byte length and the bars gives back exactly its bars, whatever follows |
| Handler.UnknownPkg | handler.go:19-31 | event 0x0B logs the device registration; 0x0FDB logs `noticeTmp[:70]` of the text after the 0xB2-byte preamble: its first 70 runes, or a shorter text padded with zero runes out of the slice's spare capacity; it panics (no result) exactly when the body is shorter than the preamble or 70 exceeds both the text's length and its rune slice's capacity; anything else is dumped |
| Handler.NoticeCut | handler.go:25-26 | the 70 runes `noticeTmp[:70]` holds: rune i of the text where there is one, else the zero rune |
| Handler.OnMarketInitInfo | handler.go:37-57 | a short body changes nothing; otherwise both markets' dates and flags, the server name and the domain are taken at their offsets, and nothing else changes |
| Handler.OnStockCount | handler.go:62-71 | command 0x6B sets the Shenzhen count and 0x6C the Shanghai count to the body's first u16; any other command changes nothing |
| Handler.OnStockBase | handler.go:76-129 | exactly the page's declared number of rows are appended, as the reply parse gives them; once a non-empty page brings the rows to the sum of both counts the handler removes itself, saves the list and signals Finished, and otherwise stays registered |
| Handler.OnStockBaseRows | handler.go:86-117 | a page adds exactly its records, in order, with market 1 exactly for command 0x6E |
| Handler.OnStockBonus | handler.go:134-194 | the reply's rows are appended as the reply parse gives them; a reply yielding rows is acknowledged with its stock count unless tagged 0x1100, in which case the handler removes itself, saves and signals Finished; a reply yielding no rows changes nothing |
| Handler.OnStockBonusRows | handler.go:143-178 | a reply adds as many records as its sub-counts add up to, in order |
| Handler.HistoryRowOfTag | handler.go:300-303 | the reply tagged position + 1 is attributed to the row at that position |
| Handler.OnStockHistory | handler.go:277-333 | index 0xFFFF removes the handler and signals Finished; otherwise at most one save, for the instrument at row Index-1, as day bars exactly for command 0x87 |
| Handler.OnStockHistoryCount | handler.go:196-260 | a reply announcing `length` bytes saves `length / 32` bars and nothing when that is 0; bar i is the day or minute row of the body's i-th record after the six-byte head, or a repeat of the last whole one |
| Handler.OnStockHistoryDays | handler.go:196-222 | a reply carrying day bars saves exactly their rows, in order, under the instrument its index names |
| Handler.OnStockHistoryMins | handler.go:226-259 | a reply carrying minute bars saves exactly their rows, in order, under the instrument its index names |
| Handler.Step | dispatcher.go:26-40 | a reply with event 0 changes nothing; a registered event runs exactly its registered handler on the reply; an unregistered event adds the unknown-packet handler's log line, or a panic record when it panics; the table changes only when a handler removes its own entry |
| Handler.HistoryRepliesShareHandler | dispatcher.go:33 | day and minute replies share event 0x0FCD and reach the one history handler |
| Handler.Run | dispatcher.go:39 | each registered handler name runs its own reply handler |
| Client.PageOffsets | client.go:101-104 | offsets 0, 1000, 2000, … strictly below the count, and enough of them to reach it |
| Client.StockBasePages | client.go:101-111 | ⌈count/1000⌉ page requests; page k asks for offset 1000k, cut to 16 bits, and 1000k is below the count |
| Client.MarketPages | client.go:101-111 | the Shenzhen pages come first with market word 0, then the Shanghai pages with market word 1, each counting its offsets from 0 |
| Client.UpdateStockBase | client.go:96-112 | registers the list handler and changes nothing else; then ⌈SZ/1000⌉ Shenzhen pages and ⌈SH/1000⌉ Shanghai pages, each with its command, market word and offset 1000k cut to 16 bits |
| Client.PageCount | client.go:101-111 | a count takes ⌈count/1000⌉ pages, none for 0 |
| Client.BonusBatches | client.go:114-155 | full batches hold exactly 200 symbols with index 0 and are sent only when more than 200 rows remain; the last batch (index 0x1100) carries all remaining rows, and only when the last-batch test admits them |
| Client.BonusLeftoverLost | client.go:127-152 | as written, 201 rows acknowledged 200 at a time send only the first 200 and never the 0x1100 batch |
| Client.BonusExample450 | client.go:124-152 | 450 rows go out as rows 0–199, 200–399 and the last batch 400–449 |
| Client.BonusBatchesCover | client.go:124-152 | corrected, every row is sent once, in order, in ⌈n/200⌉ batches, the last carrying 0x1100 |
| Client.Symbol | client.go:129-133 | the market cut to a byte and the code copied into six zeroed bytes, cut when longer |
| Client.WithBonus | client.go:172 | the filter never lengthens the list |
| Client.WithBonusKeeps | client.go:172 | a row is kept exactly when it is in the list and has bonus2 > 0 |
| Client.WithBonusAppend | client.go:172 | filtering a concatenation filters each part, so list order and repeated rows are kept |
| Client.BonusWorkflow | client.go:160-175 | nothing when the list cannot be read; otherwise registers the bonus handler and sends exactly the batches of the selected rows with bonus2 > 0, all but the last with index 0 |
| Client.UpdateStockBonusAsWritten | client.go:160-175 | as written: the batches of the selected rows with bonus2 > 0, the last batch only when at least two rows remain |
| Client.UpdateStockBonus | client.go:160-175 | corrected: nothing when the list cannot be read; otherwise registers the bonus handler and sends the batches of the selected rows with bonus2 > 0, the last batch whenever a row remains |
| Client.UpdateStockBonusSendsAll | client.go:124-152 | corrected, with every batch acknowledged in full, every picked instrument is asked about once, in order, in ⌈n/200⌉ requests, the last carrying 0x1100 |
| Client.UpdateStockBonusAsWrittenStalls | client.go:149-152 | as written, 201 picked instruments acknowledged 200 at a time go out as one request for the first 200 only |
| Client.Chunks | client.go:237-250 | ranges start at the start date, each ends gap later or today, whichever is earlier, the next begins one after, and the last ends today |
| Client.ChunksCover | client.go:237-250 | every date from the start to today lies in some range |
| Client.ChunksOrdered | client.go:237-250 | the ranges follow one another without overlap |
| Client.FindString | client.go:229 | the first position of the name, or -1 when absent |
| Client.LastCell | client.go:230 | the last row's cell in a column, absent for a column outside the row |
| Client.UniverseHasNoDate | client.go:308 | the instrument list's columns have no "date" |
| Client.ResumeFrom | client.go:215-235 | without a stored file the download starts at the fresh start |
| Client.ResumeFromUniverseNames | client.go:306-311 | looking "date" up among the instrument list's names never finds a stored minute file's date |
| Client.ResumeFromOwnNames | client.go:227-234 | with the file's own names, a file without a `date` column or whose last row is too short for it ends the workflow; otherwise the download resumes at the next trading day after the stored date, and ends the workflow when there is none |
| Client.DateColumnFirst | handler.go:316 | day and minute files keep `date` in their first column |
| Client.Plan | client.go:207-251 | planned positions lie between the first planned instrument and the end of the list |
| Client.PlanOrdered | client.go:207 | planned positions never decrease: instruments are requested in list order |
| Client.PlanHead | client.go:237-250 | one instrument's ranges: none when today ≤ 0, otherwise from its start to today, each within the gap |
| Client.PlanRanges | client.go:240-244 | every planned range ends at most gap after it starts |
| Client.DayRangesBounded | client.go:240-244 | a day range spans at most 40000 |
| Client.PlanCoversAll | client.go:207-239 | with every start known and today positive, every instrument gets at least one request |
| Client.PlanStopsAtFailure | client.go:230-234 | an instrument whose start cannot be found ends the download: nothing from it onwards is requested |
| Client.PlanRequestsTagged | client.go:246 | each request carries market and code of the instrument it names and its 0-based position plus one as index |
| Client.HistoryRequest | client.go:246 | event 0x0FCD, the day or minute command, index position + 1 cut to 16 bits, and 18 bytes: market u16, code in 6 bytes, start and end as u32, trailing word 4 for days and 0 for minutes |
| Client.Sentinel | client.go:186-189 | the closing request has index 0xFFFF and the history event |
| Client.History | client.go:180-252 | the sentinel goes out last in every case; without a calendar only the sentinel goes out; an unreadable list clears the instruments and only the sentinel goes out; otherwise the selected instruments are kept, the history handler is registered, and the requests are exactly those of the plan from each instrument's start, then the sentinel |
| Client.UpdateDays | client.go:180-252 | only day-bar requests for listed instruments, exactly those of the plan with fresh start 19901219, ranges of at most 40000 and the stored file's own names, then the sentinel |
| Client.UpdateMinsAsWritten | client.go:257-327 | as written: only minute-bar requests for listed instruments, exactly those of the plan with the date column looked up among the instrument list's names, then the sentinel |
| Client.UpdateMinsAsWrittenStalls | client.go:306-311 | as written, when the first instrument has a stored minute file, only the sentinel goes out |
| Client.UpdateMins | client.go:257-327 | corrected: only minute-bar requests for listed instruments, exactly those of the plan with the date column looked up in the stored file, then the sentinel |
| Client.UpdateMinsResumes | client.go:306-321 | corrected, the first instrument's first minute request starts the day after its last stored bar |
| Client.ReplyAttributed | handler.go:300-303 | a reply carrying a history request's index is saved under the instrument that request named |
| Client.HistoryReplyAttributed | client.go:246 | after a download, every request's reply but the sentinel's is saved under the instrument it asked for |

## Left out

- **Socket I/O:** `recvToBuffer`, `SendPacket`, the sessions, connect and close. `ReadPacket` takes what each read would deliver as parameters.
- **Compression and encryption:** zlib inflation and the device record's Blowfish encryption are opaque function parameters. The random MAC address is a parameter.
- **Character sets:** GBK transcoding of names and notices. The model keeps the vendor bytes.
- TGear.BufferToDouble: the model sums the magnitude exactly, while Go accumulates it in float64. The two agree only below 2^53. Above that Go rounds: the bytes 81 80 80 80 80 80 80 20 give 2^53 in Go and 2^53+1 in the model. After about 146 continuation bytes Go's weight overflows to +Inf, so a following zero group gives NaN. A lone 0x40 gives -0.0 in Go and 0 in the model. IEEE-754 arithmetic is not part of this model.
- **Float conversions:** the `/100.0` price conversions and float32 fields are kept as raw integers or bit patterns.
- **Dataframes and CSV:**
  - reading and writing are replaced by sequences of records, with saving logged as an output;
  - the loader's refusal of an empty list is modelled as "no change";
  - an unreadable stored bar file is modelled as no stored file.
- **Concurrency:** the `Finished` and `bonusFinishedChan` channels become output entries and a list of acknowledged counts. The read–write lock is left out.
- Handler.UnknownPkg: the capacity Go's runtime gives the rune slice of a converted notice is the parameter `runeCap`; the runtime's allocation rounding, and the small stack buffer it may use instead, are not part of this model.
- **Panics:** `recover()` is modelled by its effect. In UpdateDays and UpdateMins a column outside the stored frame ends the loop and the deferred sentinel still goes out; in OnStockHistory a row outside the list saves nothing. The unknown-packet handler has no `recover`; its panic on a short notice is recorded as a `Panicked` output, and what the network layer then does is not part of this model.
- **Not in the model:**
  - comm/conf.go, `StockCalendar.PrevDay` and `StockCalendar.Each`;
  - reports_test.go, whose `ReportList` is not part of this model;
  - the report structs at packet/response.go:110-124.
- **Clock:** the current date, read from the clock, is the `today` parameter. The sentinel and the loop are given the same value.
- **Date helpers:** `utils.AddDays(today, -100)` is the `freshStart` parameter. `utils.AddDaysExceptWeekend(start, 15)` is the `gap` function, taken as a non-negative step. The Go loop ends only if that helper never returns a date earlier than its input; it is fed `tmpEnd+1`, which can be an invalid date such as 20170132, and the non-negative `gap` takes that on trust. These date helpers are not part of this model.
- **Other unseen helpers:** these are not part of this model, and are taken to be:
  - `utils.SizeStruct`: the packed size of the struct;
  - `FindInIntegerSlice`: list membership;
  - `FindInStringSlice`: the first matching position, or -1;
  - `ReIndex`: positions 0..n-1;
  - `utils.ReadCSV`: a file read that fails or yields the stored rows; `utils.WriteCSV`: a save, logged as an output;
  - `gbytes.BytesToString`: left out with the character sets, so names and codes stay raw bytes;
  - gcom's little-endian stream (`ReadUint16`, `ReadUint32`, `ReadBuff`): as described under "Reply streams" above.
- **Transport limits:** when reading a frame, the 5 MiB buffer limit and the 5 KiB read size are left out.
- Client.UpdateStockBonus: sends the batches of the corrected last-batch test. The source's test is modelled and shown wrong separately, under Findings.
- Client.UpdateStockBonus: the batches are given by a list of acknowledged counts, so the model does not state that the source waits forever when a reply never comes.
- Stocks.DefaultStockCalendar: the calendar file's contents are a parameter (`loaded`); the CSV parsing is not modelled.
- Client.WithBonus: its own contract states only that the filter never lengthens the list. Which rows it keeps, and in what order, is stated by Client.WithBonusKeeps and Client.WithBonusAppend.
- Client.Plan: its own contract states only where positions lie. Their order is stated by Client.PlanOrdered.
- Client.ResumeFrom: its contract states only the no-file case. The stored-file cases are stated by Client.ResumeFromOwnNames and Client.ResumeFromUniverseNames.

## Findings

| source | as written | input that shows it | evidently intended | confidence | as-written member | corrected member |
|---|---|---|---|---|---|---|
| client.go:149 | the last bonus batch is sent only if `idx > 0`, and `idx` is the 0-based index of the last row seen, so a single remaining row gives `idx == 0` | 201 selected rows, first batch acknowledged with 200: the final pass sees one row, so neither it nor the 0x1100 batch is sent and the handler never signals Finished | send the last batch whenever at least one row remains | not executed | Client.UpdateStockBonusAsWrittenStalls | Client.UpdateStockBonusSendsAll |
| client.go:308 | the date column of a stored minute file is looked up in the instrument list's column names | a list whose first selected instrument has a stored minute file: the list has no "date" column, the lookup gives -1, the last-row read panics, and only the sentinel goes out. When the first stored file belongs to a later instrument, the instruments before it are requested and the loop stops there | look the column up in the stored file's own names, as UpdateDays does at client.go:229 | not executed | Client.UpdateMinsAsWrittenStalls | Client.UpdateMinsResumes |

=== FILE: bytes.dfy ===
/** Fixed-width integers, little-endian encoders/decoders and the Option/Result
    wrappers shared by every wire layout of the protocol. */
module Bytes {

  type byte = x: int | 0 <= x < 0x100
  type u16 = x: int | 0 <= x < 0x1_0000
  type u32 = x: int | 0 <= x < 0x1_0000_0000

  datatype Option<+T> = None | Some(value: T)

  /** A decode or lookup that can fail, with a human-readable reason. */
  datatype Result<+T> = Ok(value: T) | Err(reason: string)

  /** Go's `byte(x)`, `uint16(x)` and `uint32(x)` conversions keep the low bits
      (two's complement for negative values); Dafny's `%` is Euclidean, which
      gives exactly those bits for a positive modulus. */
  function Wrap8(x: int): byte { x % 0x100 }
  function Wrap16(x: int): u16 { x % 0x1_0000 }
  function Wrap32(x: int): u32 { x % 0x1_0000_0000 }

  /** Go's `int32(x)` reinterpretation of 32 raw bits. */
  function Signed32(x: u32): int
  {
    if x < 0x8000_0000 then x else x - 0x1_0000_0000
  }

  function U8(x: int): (r: seq<byte>)
    ensures |r| == 1
  {
    [Wrap8(x)]
  }

  function U16(x: int): (r: seq<byte>)
    ensures |r| == 2
  {
    var v := Wrap16(x);
    [v % 0x100, v / 0x100]
  }

  function U32(x: int): (r: seq<byte>)
    ensures |r| == 4
  {
    var v := Wrap32(x);
    U16(v % 0x1_0000) + U16(v / 0x1_0000)
  }

  function ReadU16(s: seq<byte>, off: nat): u16
    requires off + 2 <= |s|
  {
    s[off] as int + 0x100 * s[off + 1] as int
  }

  function ReadU32(s: seq<byte>, off: nat): u32
    requires off + 4 <= |s|
  {
    ReadU16(s, off) as int + 0x1_0000 * ReadU16(s, off + 2) as int
  }

  /** `n` zero bytes, as Go's zero-valued arrays. */
  function Zeros(n: nat): (r: seq<byte>)
    ensures |r| == n
    ensures forall i :: 0 <= i < n ==> r[i] == 0
  {
    seq(n, _ => 0)
  }

  /** Go's `copy(dst[:], src)` into a zeroed `[n]byte`: the first `n` bytes of
      `src`, padded with zeros when `src` is shorter. */
  function CopyInto(src: seq<byte>, n: nat): (r: seq<byte>)
    ensures |r| == n
    ensures forall i :: 0 <= i < n ==> r[i] == (if i < |src| then src[i] else 0)
  {
    if |src| >= n then src[..n] else src + Zeros(n - |src|)
  }

  predicate IsPrefix(p: seq<byte>, s: seq<byte>)
  {
    |p| <= |s| && s[..|p|] == p
  }

  /** Bytes of an ASCII literal (Go's `[]byte("...")` on ASCII text). */
  function Ascii(s: string): (r: seq<byte>)
    requires forall i :: 0 <= i < |s| ==> s[i] as int < 0x80
    ensures |r| == |s|
    ensures forall i :: 0 <= i < |s| ==> r[i] == s[i] as int
  {
    seq(|s|, i requires 0 <= i < |s| => s[i] as int)
  }

  lemma ReadU16OfU16(pre: seq<byte>, x: int, post: seq<byte>)
    ensures ReadU16(pre + U16(x) + post, |pre|) == Wrap16(x)
  {
    var s := pre + U16(x) + post;
    assert s[|pre|] == U16(x)[0] && s[|pre| + 1] == U16(x)[1];
  }

  lemma ReadU32OfU32(pre: seq<byte>, x: int, post: seq<byte>)
    ensures ReadU32(pre + U32(x) + post, |pre|) == Wrap32(x)
  {
    var v := Wrap32(x);
    assert pre + U32(x) + post == pre + U16(v % 0x1_0000) + (U16(v / 0x1_0000) + post);
    ReadU16OfU16(pre, v % 0x1_0000, U16(v / 0x1_0000) + post);
    assert pre + U32(x) + post == (pre + U16(v % 0x1_0000)) + U16(v / 0x1_0000) + post;
    ReadU16OfU16(pre + U16(v % 0x1_0000), v / 0x1_0000, post);
  }

  /** A u16 count in front of a payload reads back, and the payload follows. */
  lemma CountPrefix(n: int, post: seq<byte>)
    requires 0 <= n < 0x1_0000
    ensures ReadU16(U16(n) + post, 0) == n && (U16(n) + post)[2..] == post
  {
    ReadU16OfU16([], n, post);
    assert [] + U16(n) + post == U16(n) + post;
  }

  /** Reading past a prefix is reading the rest. */
  lemma ReadU32Shift(p: seq<byte>, t: seq<byte>, off: nat)
    requires off + 4 <= |t|
    ensures ReadU32(p + t, |p| + off) == ReadU32(t, off)
  {
    assert (p + t)[|p| + off..|p| + off + 4] == t[off..off + 4];
    assert (p + t)[|p| + off] == t[off] && (p + t)[|p| + off + 1] == t[off + 1];
    assert (p + t)[|p| + off + 2] == t[off + 2] && (p + t)[|p| + off + 3] == t[off + 3];
  }

  /** 32-bit words laid end to end, as `binary.Write` lays out a run of
      uint32 fields. */
  function Words(ws: seq<u32>): (r: seq<byte>)
    ensures |r| == 4 * |ws|
  {
    if |ws| == 0 then [] else U32(ws[0]) + Words(ws[1..])
  }

  lemma {:induction false} ReadWords(ws: seq<u32>, i: nat)
    requires i < |ws|
    ensures ReadU32(Words(ws), 4 * i) == ws[i]
  {
    var rest := Words(ws[1..]);
    if i == 0 {
      ReadU32OfU32([], ws[0], rest);
      assert Words(ws) == [] + U32(ws[0]) + rest;
    } else {
      ReadWords(ws[1..], i - 1);
      ReadU32Shift(U32(ws[0]), rest, 4 * (i - 1));
    }
  }

  /** The encoders are also left inverses of the decoders: re-encoding a read
      field gives back the bytes it was read from. */
  lemma U16OfReadU16(s: seq<byte>, off: nat)
    requires off + 2 <= |s|
    ensures U16(ReadU16(s, off)) == s[off..off + 2]
  {
  }

  lemma U32OfReadU32(s: seq<byte>, off: nat)
    requires off + 4 <= |s|
    ensures U32(ReadU32(s, off)) == s[off..off + 4]
  {
    var lo: int := ReadU16(s, off);
    var hi: int := ReadU16(s, off + 2);
    assert (lo + 0x1_0000 * hi) % 0x1_0000 == lo;
    assert (lo + 0x1_0000 * hi) / 0x1_0000 == hi;
    U16OfReadU16(s, off);
    U16OfReadU16(s, off + 2);
  }

  lemma Signed32OfWrap32(d: int)
    requires -0x8000_0000 <= d < 0x8000_0000
    ensures Signed32(Wrap32(d)) == d
  {
  }

  /** Regrouping a concatenation, stated once for any element type. */
  lemma AppendAssoc<T>(a: seq<T>, b: seq<T>, c: seq<T>)
    ensures a + b + c == a + (b + c)
  {
  }

  /** A reply laid out as count, market, code, sub-count, records, rest is
      the count before one group. */
  lemma RegroupReply<T>(a: seq<T>, m: seq<T>, k: seq<T>, n: seq<T>, c: seq<T>, t: seq<T>)
    ensures a + m + k + n + c + t == a + (m + k + (n + (c + t)))
  {
    var r := n + (c + t);
    AppendAssoc(a + m + k + n, c, t);
    AppendAssoc(a + m + k, n, c + t);
    AppendAssoc(a + m, k, r);
    AppendAssoc(a, m, k + r);
    AppendAssoc(m, k, r);
  }
}

=== FILE: client.dfy ===
/** The request workflows of the client (client.go), each a function from
    the client's state and its inputs to the requests it sends, in order,
    and the state it leaves behind.

    What the source obtains from files, the clock or the server while a
    workflow runs is a parameter: the instrument list (or the error reading
    it), the stored bar files, today's date, the cached trading calendar, the
    acknowledged counts of bonus batches. */
module Client {
  import opened Bytes
  import opened Models
  import opened Request
  import Stocks
  import Dispatcher
  import Handler
  import Response

  /** The requests a workflow sends and the client state afterwards. */
  datatype Sent = Sent(state: Handler.ClientState, requests: seq<RequestNode>)

  // ---------------------------------------------------------------------
  // Stock-base paging (UpdateStockBase)

  const PageStride: nat := 1000

  /** The page offsets `from`, `from + 1000`, … strictly below `count`. */
  function PageOffsets(count: nat, from: nat): (r: seq<nat>)
    decreases if from < count then count - from else 0
    ensures forall k :: 0 <= k < |r| ==> r[k] == from + PageStride * k && r[k] < count
    ensures from + PageStride * |r| >= count
  {
    if from >= count then [] else [from] + PageOffsets(count, from + PageStride)
  }

  /** One page request per offset; the offset is sent as a 16-bit word. */
  function StockBasePages(market: u16, count: u32): (r: seq<RequestNode>)
    ensures |r| == (count + 999) / 1000
    ensures forall k :: 0 <= k < |r| ==>
      PageStride * k < count && r[k] == GenerateMarketStockBase(market, Wrap16(PageStride * k))
  {
    PageCount(count);
    var offs := PageOffsets(count, 0);
    seq(|offs|, k requires 0 <= k < |offs| => GenerateMarketStockBase(market, Wrap16(offs[k])))
  }

  /** The page requests of UpdateStockBase: ⌈szCount / 1000⌉ Shenzhen pages
      at offsets 0, 1000, ..., then the Shanghai pages likewise. */
  predicate MarketPagesFor(r: seq<RequestNode>, szCount: nat, shCount: nat)
  {
    var sz := (szCount + 999) / 1000;
    |r| == sz + (shCount + 999) / 1000 &&
    forall k :: 0 <= k < |r| ==>
      r[k].eventId == EventStockBase && |r[k].rawData| == 4 &&
      (k < sz ==> r[k].cmdId == CmdStockBaseSZ && ReadU16(r[k].rawData, 0) == 0 &&
                  ReadU16(r[k].rawData, 2) == Wrap16(PageStride * k)) &&
      (k >= sz ==> r[k].cmdId == CmdStockBaseSH && ReadU16(r[k].rawData, 0) == 1 &&
                   ReadU16(r[k].rawData, 2) == Wrap16(PageStride * (k - sz)))
  }

  /** UpdateStockBase: registers the stock-base handler, then asks for the
      Shenzhen list in pages of 1000 below the Shenzhen count and the
      Shanghai list likewise. */
  function UpdateStockBase(s: Handler.ClientState): (r: Sent)
    ensures r.state == s.(table := Dispatcher.AddHandler(s.table, EventStockBase, Dispatcher.OnStockBase))
    ensures MarketPagesFor(r.requests, s.lastTrade.szCount, s.lastTrade.shCount)
  {
    MarketPages(s.lastTrade.szCount, s.lastTrade.shCount);
    Sent(s.(table := Dispatcher.AddHandler(s.table, EventStockBase, Dispatcher.OnStockBase)),
         StockBasePages(0, s.lastTrade.szCount) + StockBasePages(1, s.lastTrade.shCount))
  }

  /** The Shenzhen pages, then the Shanghai pages. */
  lemma MarketPages(szCount: u32, shCount: u32)
    ensures MarketPagesFor(StockBasePages(0, szCount) + StockBasePages(1, shCount), szCount, shCount)
  {
    var a: seq<RequestNode> := StockBasePages(0, szCount);
    var b: seq<RequestNode> := StockBasePages(1, shCount);
    forall k | 0 <= k < |a + b|
      ensures var n := (a + b)[k];
        n.eventId == EventStockBase && |n.rawData| == 4 &&
        (k < |a| ==> n.cmdId == CmdStockBaseSZ && ReadU16(n.rawData, 0) == 0 &&
                     ReadU16(n.rawData, 2) == Wrap16(PageStride * k)) &&
        (k >= |a| ==> n.cmdId == CmdStockBaseSH && ReadU16(n.rawData, 0) == 1 &&
                      ReadU16(n.rawData, 2) == Wrap16(PageStride * (k - |a|)))
    {
      ConcatAt(a, b, k);
    }
  }

  /** A count of `c` rows takes ⌈c / 1000⌉ pages, none for zero. */
  lemma PageCount(count: nat)
    ensures |PageOffsets(count, 0)| == (count + 999) / 1000
  {
    var r := PageOffsets(count, 0);
    if |r| > 0 {
      assert r[|r| - 1] == PageStride * (|r| - 1) < count;
    }
  }

  // ---------------------------------------------------------------------
  // Bonus batching (updateBonus)

  const BatchSize: nat := 200

  /** What one GenerateStockBonus call is given. */
  datatype Batch = Batch(symbols: seq<StockBonus>, index: u16)

  /** A row as a bonus symbol: market narrowed to a byte, code copied into
      six bytes. */
  function Symbol(row: StockBaseModel): (r: StockBonus)
    ensures r.market == row.market % 0x100 && |r.code| == 6
    ensures forall i :: 0 <= i < 6 ==> r.code[i] == (if i < |row.code| then row.code[i] else 0)
  {
    StockBonus(Wrap8(row.market), CopyInto(row.code, 6))
  }

  function Symbols(rows: seq<StockBaseModel>): (r: seq<StockBonus>)
    ensures |r| == |rows|
    ensures forall i :: 0 <= i < |rows| ==> r[i] == Symbol(rows[i])
  {
    seq(|rows|, i requires 0 <= i < |rows| => Symbol(rows[i]))
  }

  lemma SymbolsAppend(a: seq<StockBaseModel>, b: seq<StockBaseModel>)
    ensures Symbols(a + b) == Symbols(a) + Symbols(b)
  {
  }

  /** All symbols of a list of batches, in sending order. */
  function Flatten(bs: seq<Batch>): (r: seq<StockBonus>)
  {
    if |bs| == 0 then [] else bs[0].symbols + Flatten(bs[1..])
  }

  /** The batches updateBonus sends. A pass looks at the rows from position
      `cursor` on. With more than 200 of them it sends the first 200 with
      index 0, waits for the reply's acknowledged count and advances the
      cursor by it; `acks` are those counts in arrival order, and when they
      run out the client is still waiting. With 200 or fewer it sends them
      all as the last batch, index 0x1100, provided at least `lastMin`
      remain: the source's `idx > 0` test admits 2 or more
      (`lastMin == 2`), the corrected test 1 or more. */
  function BonusBatches(rows: seq<StockBaseModel>, cursor: nat, acks: seq<nat>, lastMin: nat): (r: seq<Batch>)
    decreases |acks|
    ensures |r| <= |acks| + 1
    ensures forall k :: 0 <= k < |r| ==> |r[k].symbols| <= BatchSize
    ensures forall k :: 0 <= k < |r| - 1 ==> r[k].index == 0 && |r[k].symbols| == BatchSize
    ensures forall k :: 0 <= k < |r| && r[k].index == Handler.StockBonusFinishedIdx ==> k == |r| - 1
    ensures |r| > 0 && r[0].index == 0 <==> cursor + BatchSize < |rows|
    ensures |r| > 0 && r[0].index == 0 ==> r[0].symbols == Symbols(rows[cursor..cursor + BatchSize])
    ensures |r| > 0 && r[0].index != 0 ==>
      cursor + lastMin <= |rows| && cursor < |rows| && |r| == 1 &&
      r[0] == Batch(Symbols(rows[cursor..]), Handler.StockBonusFinishedIdx)
  {
    var pending := if cursor <= |rows| then rows[cursor..] else [];
    if |pending| > BatchSize then
      var full := Batch(Symbols(pending[..BatchSize]), 0);
      assert pending[..BatchSize] == rows[cursor..cursor + BatchSize];
      if |acks| == 0 then [full]
      else [full] + BonusBatches(rows, cursor + acks[0], acks[1..], lastMin)
    else if |pending| >= lastMin && |pending| > 0 then
      [Batch(Symbols(pending), Handler.StockBonusFinishedIdx)]
    else []
  }

  /** Two rows too few (the source as written): 201 rows acknowledged 200 at
      a time. The first batch takes rows 0 to 199; the last pass finds one
      row, `idx` stays 0, and neither that row nor the 0x1100 batch is ever
      sent, so the bonus handler never signals Finished. */
  lemma BonusLeftoverLost(rows: seq<StockBaseModel>)
    requires |rows| == 201
    ensures BonusBatches(rows, 0, [200], 2) == [Batch(Symbols(rows[..200]), 0)]
    ensures |Flatten(BonusBatches(rows, 0, [200], 2))| == 200
    ensures forall b | b in BonusBatches(rows, 0, [200], 2) :: b.index != Handler.StockBonusFinishedIdx
  {
    var r := BonusBatches(rows, 0, [200], 2);
    assert BonusBatches(rows, 200, [], 2) == [];
    assert r == [Batch(Symbols(rows[..200]), 0)];
    assert Flatten(r) == Symbols(rows[..200]) + Flatten([]);
  }

  /** The worked example: 450 rows acknowledged 200 at a time go out as rows
      0-199, 200-399 and the last batch 400-449; the source and the
      corrected test agree here. */
  lemma BonusExample450(rows: seq<StockBaseModel>, lastMin: nat)
    requires |rows| == 450
    requires lastMin == 1 || lastMin == 2
    ensures BonusBatches(rows, 0, [200, 200], lastMin) ==
      [Batch(Symbols(rows[0..200]), 0), Batch(Symbols(rows[200..400]), 0),
       Batch(Symbols(rows[400..]), Handler.StockBonusFinishedIdx)]
  {
    assert [200, 200][1..] == [200];
    assert BonusBatches(rows, 400, [], lastMin) ==
      [Batch(Symbols(rows[400..]), Handler.StockBonusFinishedIdx)];
    assert BonusBatches(rows, 200, [200], lastMin) ==
      [Batch(Symbols(rows[200..400]), 0), Batch(Symbols(rows[400..]), Handler.StockBonusFinishedIdx)];
  }

  lemma FlattenCons(b: Batch, bs: seq<Batch>)
    ensures Flatten([b] + bs) == b.symbols + Flatten(bs)
  {
    assert ([b] + bs)[1..] == bs;
  }

  /** A full batch, then whatever the acknowledgement leads to. */
  lemma BonusBatchesFull(rows: seq<StockBaseModel>, cursor: nat, acks: seq<nat>, lastMin: nat)
    requires cursor + BatchSize < |rows| && |acks| > 0
    ensures BonusBatches(rows, cursor, acks, lastMin) ==
      [Batch(Symbols(rows[cursor..cursor + BatchSize]), 0)] + BonusBatches(rows, cursor + acks[0], acks[1..], lastMin)
  {
  }

  /** The corrected batching sends every row once, in order, in ⌈n / 200⌉
      batches of which only the last carries 0x1100, when every batch is
      acknowledged in full. */
  lemma {:induction false} BonusBatchesCover(rows: seq<StockBaseModel>, cursor: nat, acks: seq<nat>)
    requires cursor < |rows|
    requires forall k :: 0 <= k < |acks| ==> acks[k] == BatchSize
    requires BatchSize * |acks| + 1 >= |rows| - cursor
    ensures var r := BonusBatches(rows, cursor, acks, 1);
      |r| == (|rows| - cursor + BatchSize - 1) / BatchSize &&
      Flatten(r) == Symbols(rows[cursor..]) &&
      r[|r| - 1].index == Handler.StockBonusFinishedIdx
    decreases |acks|
  {
    if cursor + BatchSize < |rows| {
      var next := cursor + BatchSize;
      assert acks[0] == BatchSize;
      BatchCountStep(|rows| - cursor);
      SliceSplit(rows, cursor, next);
      SymbolsAppend(rows[cursor..next], rows[next..]);
      var head := Batch(Symbols(rows[cursor..next]), 0);
      var tail := BonusBatches(rows, next, acks[1..], 1);
      BonusBatchesFull(rows, cursor, acks, 1);
      BonusBatchesCover(rows, next, acks[1..]);
      FlattenCons(head, tail);
      var r := [head] + tail;
      assert BonusBatches(rows, cursor, acks, 1) == r;
      assert r[|r| - 1] == tail[|tail| - 1];
    } else {
      BatchCountOne(|rows| - cursor);
      var r := BonusBatches(rows, cursor, acks, 1);
      assert r == [Batch(Symbols(rows[cursor..]), Handler.StockBonusFinishedIdx)];
      FlattenCons(r[0], []);
      assert [r[0]] + [] == r;
    }
  }

  lemma SliceSplit<T>(s: seq<T>, a: nat, b: nat)
    requires a <= b <= |s|
    ensures s[a..] == s[a..b] + s[b..]
  {
  }

  /** ⌈m / 200⌉ drops by one when a full batch is taken. */
  lemma BatchCountStep(m: nat)
    requires m > BatchSize
    ensures (m + BatchSize - 1) / BatchSize == 1 + (m - BatchSize + BatchSize - 1) / BatchSize
    ensures (m - BatchSize + BatchSize - 1) / BatchSize >= 1
  {
  }

  lemma BatchCountOne(m: nat)
    requires 0 < m <= BatchSize
    ensures (m + BatchSize - 1) / BatchSize == 1
  {
  }

  function BatchRequests(bs: seq<Batch>): (r: seq<RequestNode>)
    ensures |r| == |bs|
    ensures forall k :: 0 <= k < |bs| ==> r[k] == GenerateStockBonus(bs[k].symbols, bs[k].index)
  {
    seq(|bs|, k requires 0 <= k < |bs| => GenerateStockBonus(bs[k].symbols, bs[k].index))
  }

  /** `df.Filter(bonus2 > 0)`; WithBonusKeeps and WithBonusAppend state
      which rows it keeps and in what order. */
  function WithBonus(rows: seq<StockBaseModel>): (r: seq<StockBaseModel>)
    ensures |r| <= |rows|
  {
    if |rows| == 0 then []
    else (if rows[0].bonus2 > 0 then [rows[0]] else []) + WithBonus(rows[1..])
  }

  /** The filter keeps exactly the rows that have bonus records. */
  lemma {:induction false} WithBonusKeeps(rows: seq<StockBaseModel>)
    ensures forall x | x in WithBonus(rows) :: x in rows && x.bonus2 > 0
    ensures forall x | x in rows && x.bonus2 > 0 :: x in WithBonus(rows)
    decreases |rows|
  {
    if |rows| > 0 {
      WithBonusKeeps(rows[1..]);
      var h := if rows[0].bonus2 > 0 then [rows[0]] else [];
      assert WithBonus(rows) == h + WithBonus(rows[1..]);
      assert forall x | x in rows :: x == rows[0] || x in rows[1..];
    }
  }

  /** The filter keeps the list's order and its repeats: filtering a
      concatenation filters each part (WithBonusOne: one row is kept
      exactly when it has bonus records). */
  lemma {:induction false} WithBonusAppend(a: seq<StockBaseModel>, b: seq<StockBaseModel>)
    ensures WithBonus(a + b) == WithBonus(a) + WithBonus(b)
    decreases |a|
  {
    if |a| == 0 {
      assert a + b == b;
    } else {
      var x, t := a[0], a[1..];
      WithBonusAppend(t, b);
      assert a == [x] + t;
      assert a + b == [x] + (t + b);
      WithBonusCons(x, t);
      WithBonusCons(x, t + b);
      Regroup(if x.bonus2 > 0 then [x] else [], WithBonus(t), WithBonus(b),
              WithBonus([x] + t), WithBonus([x] + (t + b)));
    }
  }

  lemma WithBonusCons(x: StockBaseModel, rest: seq<StockBaseModel>)
    ensures WithBonus([x] + rest) == (if x.bonus2 > 0 then [x] else []) + WithBonus(rest)
  {
    var s := [x] + rest;
    assert s[0] == x && s[1..] == rest;
  }

  lemma Regroup<T>(h: seq<T>, p: seq<T>, q: seq<T>, hp: seq<T>, hpq: seq<T>)
    requires hp == h + p && hpq == h + (p + q)
    ensures hpq == hp + q
  {
  }

  lemma WithBonusOne(x: StockBaseModel)
    ensures WithBonus([x]) == if x.bonus2 > 0 then [x] else []
  {
    assert [x][1..] == [];
  }

  /** The categories the bonus and history workflows download. */
  const Universe: seq<Stocks.Category> := [Stocks.StockA, Stocks.StockB, Stocks.Index, Stocks.Funds]

  /** The instruments the bonus workflow asks about: the selected ones
      that have bonus records. */
  function BonusPicked(rows: seq<StockBaseModel>): (r: seq<StockBaseModel>)
    ensures forall x | x in r :: x in rows && x.bonus2 > 0 && Stocks.Selected(x, Universe)
  {
    WithBonusKeeps(Stocks.GetFinanceDataFrame(rows, Universe));
    WithBonus(Stocks.GetFinanceDataFrame(rows, Universe))
  }

  /** UpdateStockBonus with the last-batch threshold `lastMin` (see
      BonusBatches): nothing when the instrument list cannot be read;
      otherwise registers the bonus handler and batches the picked
      instruments. */
  function BonusWorkflow(s: Handler.ClientState, list: Result<seq<StockBaseModel>>, acks: seq<nat>,
                         lastMin: nat): (r: Sent)
    ensures list.Err? ==> r == Sent(s, [])
    ensures list.Ok? ==>
      r.state == s.(table := Dispatcher.AddHandler(s.table, EventStockBonus, Dispatcher.OnStockBonus))
    ensures forall k :: 0 <= k < |r.requests| ==>
      r.requests[k].eventId == EventStockBonus && r.requests[k].cmdId == CmdStockBonus &&
      (k < |r.requests| - 1 ==> r.requests[k].index == 0)
    ensures list.Ok? ==> r.requests == BatchRequests(BonusBatches(BonusPicked(list.value), 0, acks, lastMin))
  {
    match list
    case Err(_) => Sent(s, [])
    case Ok(rows) =>
      Sent(s.(table := Dispatcher.AddHandler(s.table, EventStockBonus, Dispatcher.OnStockBonus)),
           BatchRequests(BonusBatches(BonusPicked(rows), 0, acks, lastMin)))
  }

  /** UpdateStockBonus as written: the last batch needs `idx > 0`, two or
      more rows. */
  function UpdateStockBonusAsWritten(s: Handler.ClientState, list: Result<seq<StockBaseModel>>, acks: seq<nat>): (r: Sent)
    ensures list.Err? ==> r == Sent(s, [])
    ensures forall k :: 0 <= k < |r.requests| ==>
      r.requests[k].eventId == EventStockBonus && r.requests[k].cmdId == CmdStockBonus &&
      (k < |r.requests| - 1 ==> r.requests[k].index == 0)
    ensures list.Ok? ==> r.requests == BatchRequests(BonusBatches(BonusPicked(list.value), 0, acks, 2))
  {
    BonusWorkflow(s, list, acks, 2)
  }

  /** UpdateStockBonus with the corrected last-batch test: one row or more. */
  function UpdateStockBonus(s: Handler.ClientState, list: Result<seq<StockBaseModel>>, acks: seq<nat>): (r: Sent)
    ensures list.Err? ==> r == Sent(s, [])
    ensures list.Ok? ==>
      r.state == s.(table := Dispatcher.AddHandler(s.table, EventStockBonus, Dispatcher.OnStockBonus))
    ensures forall k :: 0 <= k < |r.requests| ==>
      r.requests[k].eventId == EventStockBonus && r.requests[k].cmdId == CmdStockBonus &&
      (k < |r.requests| - 1 ==> r.requests[k].index == 0)
    ensures list.Ok? ==> r.requests == BatchRequests(BonusBatches(BonusPicked(list.value), 0, acks, 1))
  {
    BonusWorkflow(s, list, acks, 1)
  }

  /** Corrected, with every batch acknowledged in full, the workflow asks
      about every picked instrument once, in list order, in ⌈n / 200⌉
      requests, and the last request carries 0x1100. */
  lemma UpdateStockBonusSendsAll(s: Handler.ClientState, list: Result<seq<StockBaseModel>>, acks: seq<nat>)
    requires list.Ok? && |BonusPicked(list.value)| > 0
    requires forall k :: 0 <= k < |acks| ==> acks[k] == BatchSize
    requires BatchSize * |acks| + 1 >= |BonusPicked(list.value)|
    ensures var picked := BonusPicked(list.value);
      var bs := BonusBatches(picked, 0, acks, 1);
      var r := UpdateStockBonus(s, list, acks);
      r.requests == BatchRequests(bs) && Flatten(bs) == Symbols(picked) &&
      |r.requests| == (|picked| + BatchSize - 1) / BatchSize &&
      r.requests[|r.requests| - 1].index == Handler.StockBonusFinishedIdx
  {
    var picked := BonusPicked(list.value);
    var bs := BonusBatches(picked, 0, acks, 1);
    assert UpdateStockBonus(s, list, acks).requests == BatchRequests(bs);
    assert picked[0..] == picked;
    BonusBatchesCover(picked, 0, acks);
    LastRequest(bs);
  }

  /** The last request carries the last batch's index. */
  lemma LastRequest(bs: seq<Batch>)
    requires |bs| > 0
    ensures BatchRequests(bs)[|bs| - 1].index == bs[|bs| - 1].index
  {
  }

  /** As written, 201 picked instruments acknowledged 200 at a time go out
      as one request for the first 200; the last one and the 0x1100 batch
      are never sent. */
  lemma UpdateStockBonusAsWrittenStalls(s: Handler.ClientState, list: Result<seq<StockBaseModel>>)
    requires list.Ok? && |BonusPicked(list.value)| == 201
    ensures UpdateStockBonusAsWritten(s, list, [200]).requests ==
      [GenerateStockBonus(Symbols(BonusPicked(list.value)[..200]), 0)]
  {
    BonusLeftoverLost(BonusPicked(list.value));
  }

  // ---------------------------------------------------------------------
  // Date ranges

  /** The date ranges of one instrument's download. From `start`, a range
      ends `gap(start)` later or today, whichever is earlier, and the next
      begins one after it; the last ends today. Dates are yyyymmdd integers
      and the arithmetic is on those numbers. */
  function Chunks(start: int, today: int, gap: int -> nat): (r: seq<(int, int)>)
    decreases if start < today then today - start else 0
    ensures |r| >= 1 && r[0].0 == start && r[|r| - 1].1 == today
    ensures forall k :: 0 <= k < |r| ==> r[k].1 <= r[k].0 + gap(r[k].0)
    ensures forall k :: 0 <= k < |r| - 1 ==>
      r[k].1 == r[k].0 + gap(r[k].0) && r[k].1 < today && r[k + 1].0 == r[k].1 + 1
  {
    var reach := start + gap(start);
    var end := if reach > today then today else reach;
    if end < today then [(start, end)] + Chunks(end + 1, today, gap) else [(start, end)]
  }

  /** Back-to-back ranges cover everything from the first start to the last
      end. */
  lemma RangesCover(r: seq<(int, int)>, d: int)
    requires |r| >= 1
    requires forall k :: 0 <= k < |r| - 1 ==> r[k + 1].0 == r[k].1 + 1
    requires r[0].0 <= d <= r[|r| - 1].1
    ensures exists k :: 0 <= k < |r| && r[k].0 <= d <= r[k].1
  {
    var k := 0;
    while r[k].1 < d
      invariant 0 <= k < |r| && r[k].0 <= d
      decreases |r| - k
    {
      k := k + 1;
    }
  }

  /** Every date from the start to today lies in one of the ranges. */
  lemma ChunksCover(start: int, today: int, gap: int -> nat, d: int)
    requires start <= d <= today
    ensures exists k :: (0 <= k < |Chunks(start, today, gap)| &&
      Chunks(start, today, gap)[k].0 <= d <= Chunks(start, today, gap)[k].1)
  {
    RangesCover(Chunks(start, today, gap), d);
  }

  /** The ranges follow one another without overlap. */
  lemma ChunksOrdered(start: int, today: int, gap: int -> nat, k: nat, l: nat)
    requires k < l < |Chunks(start, today, gap)|
    ensures Chunks(start, today, gap)[k].1 < Chunks(start, today, gap)[l].0
  {
    var r := Chunks(start, today, gap);
    var i := k;
    while i < l - 1
      invariant k <= i < l
      invariant r[k].1 < r[i + 1].0
    {
      i := i + 1;
    }
  }

  const DaySpan: nat := 40000

  /** Day bars are asked for in ranges of at most 40000 on the yyyymmdd
      number. */
  function DayGap(d: int): nat { DaySpan }

  // ---------------------------------------------------------------------
  // Resuming from stored bars

  /** A stored bar file: its column names and the cells of its last row, as
      text. */
  datatype StoredBars = StoredBars(columns: seq<string>, lastRow: seq<string>)

  /** FindInStringSlice: the position of the first equal entry, -1 when there
      is none. */
  function FindString(x: string, xs: seq<string>): (r: int)
    ensures -1 <= r < |xs|
    ensures r >= 0 ==> xs[r] == x && forall j :: 0 <= j < r ==> xs[j] != x
    ensures r == -1 ==> x !in xs
  {
    if |xs| == 0 then -1
    else if xs[0] == x then 0
    else
      var t := FindString(x, xs[1..]);
      if t == -1 then -1 else t + 1
  }

  /** The last row's cell in column `col`; a column outside the frame is an
      index panic in the source, here None. */
  function LastCell(f: StoredBars, col: int): (r: Option<string>)
    ensures r.Some? <==> 0 <= col < |f.lastRow|
    ensures r.Some? ==> r.value == f.lastRow[col]
  {
    if 0 <= col < |f.lastRow| then Some(f.lastRow[col]) else None
  }

  /** Column names of the instrument list. */
  const UniverseColumns: seq<string> :=
    ["code", "name", "market", "unknown1", "unknown2", "unknown3", "price", "bonus1", "bonus2"]
  /** Column names of a stored day-bar file. */
  const DayColumns: seq<string> := ["date", "open", "low", "high", "close", "volume", "amount"]
  /** Column names of a stored minute-bar file. */
  const MinsColumns: seq<string> := ["date", "time", "open", "low", "high", "close", "volume", "amount"]

  /** The instrument list has no date column. */
  lemma UniverseHasNoDate()
    ensures FindString("date", UniverseColumns) == -1
  {
  }

  /** Where one instrument's download starts. Without a stored file, at
      `freshStart`; with one, at the next trading day after the date in its last
      row, the date column being looked up among the file's own column names
      or, when `namesFromUniverse`, among the instrument list's. A missing
      column or a failed calendar lookup ends the workflow: None. */
  function ResumeFrom(stored: Option<StoredBars>, namesFromUniverse: bool, freshStart: string,
                      cal: seq<Stocks.CalendarDay>): (r: Option<string>)
    ensures stored.None? ==> r == Some(freshStart)
  {
    match stored
    case None => Some(freshStart)
    case Some(f) =>
      var names := if namesFromUniverse then UniverseColumns else f.columns;
      match LastCell(f, FindString("date", names))
      case None => None
      case Some(last) =>
        match Stocks.NextDay(cal, last)
        case Ok(next) => Some(next)
        case Err(_) => None
  }

  /** `tmpStart, _ := strconv.Atoi(start)`: 0 when the text is not a
      number. */
  function AtoiOr0(s: string): int
  {
    match Stocks.Atoi(s)
    case Some(v) => v
    case None => 0
  }

  // ---------------------------------------------------------------------
  // History downloads (UpdateDays, UpdateMins)

  datatype Bars = Days | Mins

  /** What a history download needs besides the instrument list. */
  datatype Env = Env(
    bars: Bars,
    stored: StockBaseModel -> Option<StoredBars>,   // the bar file kept for an instrument, if any
    freshStart: string,                             // start date without a stored file
    namesFromUniverse: bool,                        // where the date column is looked up
    gap: int -> nat,                                // length of one date range
    today: int)

  /** A planned range ends at most one gap after it starts. */
  predicate WithinGap(p: Planned, env: Env)
  {
    p.last <= p.first + env.gap(p.first)
  }

  /** One planned request: the instrument's 0-based position and a date
      range. */
  datatype Planned = Planned(pos: nat, first: int, last: int)

  function Tagged(pos: nat, cs: seq<(int, int)>): (r: seq<Planned>)
    ensures |r| == |cs|
    ensures forall k :: 0 <= k < |cs| ==> r[k] == Planned(pos, cs[k].0, cs[k].1)
  {
    seq(|cs|, k requires 0 <= k < |cs| => Planned(pos, cs[k].0, cs[k].1))
  }

  /** Where each instrument's download starts (see ResumeFrom). */
  function Starts(rows: seq<StockBaseModel>, env: Env, cal: seq<Stocks.CalendarDay>): (r: seq<Option<string>>)
    ensures |r| == |rows|
    ensures forall i :: 0 <= i < |rows| ==>
      r[i] == ResumeFrom(env.stored(rows[i]), env.namesFromUniverse, env.freshStart, cal)
  {
    seq(|rows|, i requires 0 <= i < |rows| =>
      ResumeFrom(env.stored(rows[i]), env.namesFromUniverse, env.freshStart, cal))
  }

  /** The ranges the loop requests for instruments `from` onwards, given
      each instrument's start. The loop runs only while the range end is
      below today, starting from end 0, so a non-positive today requests
      nothing. An instrument whose start cannot be found ends the loop. */
  function Plan(starts: seq<Option<string>>, from: nat, env: Env): (r: seq<Planned>)
    decreases |starts| - from
    ensures forall k :: 0 <= k < |r| ==> from <= r[k].pos < |starts|
  {
    if from >= |starts| || starts[from].None? then []
    else
      var head: seq<Planned> := PlanHead(from, starts[from].value, env);
      var tail := Plan(starts, from + 1, env);
      PlannedConcat(head, tail, from, |starts|);
      head + tail
  }

  /** The plan goes through the instruments in list order: positions never
      decrease. */
  lemma {:induction false} PlanOrdered(starts: seq<Option<string>>, from: nat, env: Env)
    ensures var r := Plan(starts, from, env);
      forall k, l :: 0 <= k < l < |r| ==> r[k].pos <= r[l].pos
    decreases |starts| - from
  {
    if from < |starts| && starts[from].Some? {
      PlanOrdered(starts, from + 1, env);
      PlanUnfold(starts, from, env);
      PlannedOrdered(PlanHead(from, starts[from].value, env), Plan(starts, from + 1, env), from);
    }
  }

  /** The ranges planned for the instrument at `pos`, starting at `start`:
      consecutive ranges up to today, none when today is not positive. */
  function PlanHead(pos: nat, start: string, env: Env): (r: seq<Planned>)
    ensures forall k :: 0 <= k < |r| ==> r[k].pos == pos
    ensures forall k :: 0 <= k < |r| ==> WithinGap(r[k], env)
    ensures env.today <= 0 <==> |r| == 0
    ensures |r| > 0 ==> r[0].first == AtoiOr0(start) && r[|r| - 1].last == env.today
  {
    Tagged(pos, if env.today > 0 then Chunks(AtoiOr0(start), env.today, env.gap) else [])
  }

  /** One instrument's ranges followed by later instruments' keep the
      positions in range and in order. */
  lemma PlannedConcat(head: seq<Planned>, tail: seq<Planned>, from: nat, n: nat)
    requires from < n
    requires forall k :: 0 <= k < |head| ==> head[k].pos == from
    requires forall k :: 0 <= k < |tail| ==> from + 1 <= tail[k].pos < n
    ensures forall k :: 0 <= k < |head + tail| ==> from <= (head + tail)[k].pos < n
  {
  }

  lemma PlannedOrdered(head: seq<Planned>, tail: seq<Planned>, from: nat)
    requires forall k :: 0 <= k < |head| ==> head[k].pos == from
    requires forall k :: 0 <= k < |tail| ==> from + 1 <= tail[k].pos
    requires forall k, l :: 0 <= k < l < |tail| ==> tail[k].pos <= tail[l].pos
    ensures forall k, l :: 0 <= k < l < |head + tail| ==> (head + tail)[k].pos <= (head + tail)[l].pos
  {
  }

  /** The day or minute request for one planned range: market, code, the
      range, and the position plus one as the index. */
  function HistoryRequest(bars: Bars, row: StockBaseModel, p: Planned): (r: RequestNode)
    ensures r.eventId == EventHistory && r.isRaw == 1 && r.index == (p.pos + 1) % 0x1_0000
    ensures r.cmdId == (if bars == Days then CmdStockDay else CmdStockMins)
    ensures |r.rawData| == 18 && ReadU16(r.rawData, 0) == row.market % 0x1_0000
    ensures r.rawData[2..8] == CopyInto(row.code, 6)
    ensures ReadU32(r.rawData, 8) == p.first % 0x1_0000_0000 && ReadU32(r.rawData, 12) == p.last % 0x1_0000_0000
    ensures ReadU16(r.rawData, 16) == (if bars == Days then 4 else 0)
  {
    if bars == Days then
      GenerateStockDayItem(Wrap16(row.market), row.code, Wrap32(p.first), Wrap32(p.last), Wrap16(p.pos + 1))
    else GenerateStockMinsItem(Wrap16(row.market), row.code, Wrap32(p.first), Wrap32(p.last), Wrap16(p.pos + 1))
  }

  function PlanRequests(bars: Bars, rows: seq<StockBaseModel>, plan: seq<Planned>): (r: seq<RequestNode>)
    requires forall k :: 0 <= k < |plan| ==> plan[k].pos < |rows|
    ensures |r| == |plan|
    ensures forall k :: 0 <= k < |plan| ==> r[k] == HistoryRequest(bars, rows[plan[k].pos], plan[k])
  {
    seq(|plan|, k requires 0 <= k < |plan| => HistoryRequest(bars, rows[plan[k].pos], plan[k]))
  }

  /** A history request for some instrument of `rows`: it carries the
      instrument's position plus one as its index and the instrument's market
      and code in its payload. */
  predicate RequestFor(bars: Bars, n: RequestNode, rows: seq<StockBaseModel>)
  {
    exists pos :: 0 <= pos < |rows| && n.eventId == EventHistory &&
      n.cmdId == (if bars == Days then CmdStockDay else CmdStockMins) &&
      n.index == Wrap16(pos + 1) && |n.rawData| == 18 &&
      ReadU16(n.rawData, 0) == Wrap16(rows[pos].market) && n.rawData[2..8] == CopyInto(rows[pos].code, 6)
  }

  lemma PlanRequestsTagged(bars: Bars, rows: seq<StockBaseModel>, plan: seq<Planned>)
    requires forall k :: 0 <= k < |plan| ==> plan[k].pos < |rows|
    ensures forall k :: 0 <= k < |plan| ==> RequestFor(bars, PlanRequests(bars, rows, plan)[k], rows)
  {
    forall k | 0 <= k < |plan|
      ensures RequestFor(bars, PlanRequests(bars, rows, plan)[k], rows)
    {
      var pos := plan[k].pos;
      assert RequestFor(bars, HistoryRequest(bars, rows[pos], plan[k]), rows) by {
        assert 0 <= pos < |rows|;
      }
    }
  }

  /** The closing request, sent from the deferred block: instrument
      000001 on market 0, today to today, index 0xFFFF. */
  function Sentinel(bars: Bars, today: int): (r: RequestNode)
    ensures r.index == Handler.HistoryDoneIdx && r.eventId == EventHistory
  {
    var code := Ascii("000001");
    if bars == Days then GenerateStockDayItem(0, code, Wrap32(today), Wrap32(today), Handler.HistoryDoneIdx)
    else GenerateStockMinsItem(0, code, Wrap32(today), Wrap32(today), Handler.HistoryDoneIdx)
  }

  /** UpdateDays and UpdateMins. The calendar must already be cached (the
      workflow asks for it with an empty path) and the instrument list must
      load; either failure ends the workflow. On success the client keeps
      the selected instruments, registers the history handler and requests
      every instrument's ranges. In every case the sentinel goes out last. */
  function History(s: Handler.ClientState, cache: Option<seq<Stocks.CalendarDay>>,
                   list: Result<seq<StockBaseModel>>, env: Env): (r: Sent)
    ensures |r.requests| >= 1 && r.requests[|r.requests| - 1] == Sentinel(env.bars, env.today)
    ensures cache.None? ==> r == Sent(s, [Sentinel(env.bars, env.today)])
    ensures cache.Some? && list.Err? ==>
      r == Sent(s.(stockBase := []), [Sentinel(env.bars, env.today)])
    ensures cache.Some? && list.Ok? ==>
      r.state.stockBase == Stocks.GetFinanceDataFrame(list.value, Universe) &&
      r.state.table == Dispatcher.AddHandler(s.table, EventHistory, Dispatcher.OnStockHistory)
    ensures cache.Some? && list.Ok? ==>
      var u := Stocks.GetFinanceDataFrame(list.value, Universe);
      r.requests == PlanRequests(env.bars, u, Plan(Starts(u, env, cache.value), 0, env)) + [Sentinel(env.bars, env.today)]
    ensures forall k :: 0 <= k < |r.requests| - 1 ==> RequestFor(env.bars, r.requests[k], r.state.stockBase)
  {
    var done := Sentinel(env.bars, env.today);
    match Stocks.DefaultStockCalendar(cache, "", Err("no calendar file")).0
    case Err(_) => Sent(s, [done])
    case Ok(cal) =>
      match list
      case Err(_) => Sent(s.(stockBase := []), [done])
      case Ok(rows) =>
        var universe := Stocks.GetFinanceDataFrame(rows, Universe);
        var plan := Plan(Starts(universe, env, cal), 0, env);
        PlanRequestsTagged(env.bars, universe, plan);
        Sent(s.(stockBase := universe,
                table := Dispatcher.AddHandler(s.table, EventHistory, Dispatcher.OnStockHistory)),
             PlanRequests(env.bars, universe, plan) + [done])
  }

  // ---------------------------------------------------------------------
  // The two workflows and their replies

  /** UpdateDays: day bars from 1990-12-19 for instruments without a stored
      file, ranges of at most 40000 (as `yyyymmdd` numbers), the date column
      looked up in the stored file's own names. */
  function UpdateDays(s: Handler.ClientState, cache: Option<seq<Stocks.CalendarDay>>,
                      list: Result<seq<StockBaseModel>>, stored: StockBaseModel -> Option<StoredBars>,
                      today: int): (r: Sent)
    ensures |r.requests| >= 1 && r.requests[|r.requests| - 1] == Sentinel(Days, today)
    ensures forall k :: 0 <= k < |r.requests| - 1 ==>
      r.requests[k].cmdId == CmdStockDay && RequestFor(Days, r.requests[k], r.state.stockBase)
    ensures cache.Some? && list.Ok? ==>
      var u := Stocks.GetFinanceDataFrame(list.value, Universe);
      var env := Env(Days, stored, "19901219", false, DayGap, today);
      r.requests == PlanRequests(Days, u, Plan(Starts(u, env, cache.value), 0, env)) + [Sentinel(Days, today)]
  {
    History(s, cache, list, Env(Days, stored, "19901219", false, DayGap, today))
  }

  /** UpdateMins as written: the date column of a stored minute file is
      looked up among the instrument list's column names. `freshStart` is
      the date 100 days before today and `gap` the fifteen-weekday step,
      both computed by date helpers that are not part of this model. */
  function UpdateMinsAsWritten(s: Handler.ClientState, cache: Option<seq<Stocks.CalendarDay>>,
                               list: Result<seq<StockBaseModel>>, stored: StockBaseModel -> Option<StoredBars>,
                               freshStart: string, gap: int -> nat, today: int): (r: Sent)
    ensures |r.requests| >= 1 && r.requests[|r.requests| - 1] == Sentinel(Mins, today)
    ensures forall k :: 0 <= k < |r.requests| - 1 ==>
      r.requests[k].cmdId == CmdStockMins && RequestFor(Mins, r.requests[k], r.state.stockBase)
    ensures cache.Some? && list.Ok? ==>
      var u := Stocks.GetFinanceDataFrame(list.value, Universe);
      var env := Env(Mins, stored, freshStart, true, gap, today);
      r.requests == PlanRequests(Mins, u, Plan(Starts(u, env, cache.value), 0, env)) + [Sentinel(Mins, today)]
  {
    History(s, cache, list, Env(Mins, stored, freshStart, true, gap, today))
  }

  /** UpdateMins with the date column looked up in the stored file itself,
      as UpdateDays does. */
  function UpdateMins(s: Handler.ClientState, cache: Option<seq<Stocks.CalendarDay>>,
                      list: Result<seq<StockBaseModel>>, stored: StockBaseModel -> Option<StoredBars>,
                      freshStart: string, gap: int -> nat, today: int): (r: Sent)
    ensures |r.requests| >= 1 && r.requests[|r.requests| - 1] == Sentinel(Mins, today)
    ensures forall k :: 0 <= k < |r.requests| - 1 ==>
      r.requests[k].cmdId == CmdStockMins && RequestFor(Mins, r.requests[k], r.state.stockBase)
    ensures cache.Some? && list.Ok? ==>
      var u := Stocks.GetFinanceDataFrame(list.value, Universe);
      var env := Env(Mins, stored, freshStart, false, gap, today);
      r.requests == PlanRequests(Mins, u, Plan(Starts(u, env, cache.value), 0, env)) + [Sentinel(Mins, today)]
  {
    History(s, cache, list, Env(Mins, stored, freshStart, false, gap, today))
  }

  /** Every planned range ends at most `gap` after it starts. */
  lemma {:induction false} PlanRanges(starts: seq<Option<string>>, from: nat, env: Env, k: nat)
    requires k < |Plan(starts, from, env)|
    ensures WithinGap(Plan(starts, from, env)[k], env)
    decreases |starts| - from
  {
    assert from < |starts| && starts[from].Some?;
    var head: seq<Planned> := PlanHead(from, starts[from].value, env);
    var tail := Plan(starts, from + 1, env);
    PlanUnfold(starts, from, env);
    ConcatAt(head, tail, k);
    var p := if k < |head| then head[k] else tail[k - |head|];
    if k < |head| {
      HeadRange(head, from, starts[from].value, env, k);
    } else {
      PlanRanges(starts, from + 1, env, k - |head|);
    }
    assert Plan(starts, from, env)[k] == p;
  }

  lemma HeadRange(head: seq<Planned>, pos: nat, start: string, env: Env, k: nat)
    requires head == PlanHead(pos, start, env) && k < |head|
    ensures WithinGap(head[k], env)
  {
  }

  lemma ConcatAt<T>(a: seq<T>, b: seq<T>, k: nat)
    requires k < |a| + |b|
    ensures (a + b)[k] == if k < |a| then a[k] else b[k - |a|]
  {
  }

  /** A day range never spans more than 40000. */
  lemma DayRangesBounded(starts: seq<Option<string>>, stored: StockBaseModel -> Option<StoredBars>,
                         today: int, k: nat)
    requires k < |Plan(starts, 0, Env(Days, stored, "19901219", false, DayGap, today))|
    ensures var p := Plan(starts, 0, Env(Days, stored, "19901219", false, DayGap, today))[k];
      p.last - p.first <= DaySpan
  {
    PlanRanges(starts, 0, Env(Days, stored, "19901219", false, DayGap, today), k);
  }

  /** The instrument list has no `date` column, so an existing minute file
      can never be resumed from when the names come from the list. */
  lemma ResumeFromUniverseNames(f: StoredBars, freshStart: string, cal: seq<Stocks.CalendarDay>)
    ensures ResumeFrom(Some(f), true, freshStart, cal).None?
  {
    UniverseHasNoDate();
  }

  /** With the file's own names: a file without a date column, or whose
      last row is too short to hold it, ends the workflow; otherwise the
      download resumes at the next trading day after that date, and ends
      the workflow when the calendar has none. */
  lemma ResumeFromOwnNames(f: StoredBars, freshStart: string, cal: seq<Stocks.CalendarDay>)
    ensures "date" !in f.columns ==> ResumeFrom(Some(f), false, freshStart, cal).None?
    ensures var col := FindString("date", f.columns);
      col >= |f.lastRow| ==> ResumeFrom(Some(f), false, freshStart, cal).None?
    ensures var col := FindString("date", f.columns);
      0 <= col < |f.lastRow| ==>
        (ResumeFrom(Some(f), false, freshStart, cal).Some? <==> Stocks.NextDay(cal, f.lastRow[col]).Ok?) &&
        (Stocks.NextDay(cal, f.lastRow[col]).Ok? ==>
           ResumeFrom(Some(f), false, freshStart, cal) == Some(Stocks.NextDay(cal, f.lastRow[col]).value))
  {
  }

  /** Day and minute files keep the date in their first column. */
  lemma DateColumnFirst()
    ensures FindString("date", DayColumns) == 0 && FindString("date", MinsColumns) == 0
  {
  }

  /** As written, once the first selected instrument has a stored minute
      file, no minute bars are requested at all: only the sentinel goes out. */
  lemma UpdateMinsAsWrittenStalls(s: Handler.ClientState, cache: Option<seq<Stocks.CalendarDay>>,
                                  list: Result<seq<StockBaseModel>>, stored: StockBaseModel -> Option<StoredBars>,
                                  freshStart: string, gap: int -> nat, today: int)
    requires cache.Some? && list.Ok?
    requires |Stocks.GetFinanceDataFrame(list.value, Universe)| >= 1
    requires stored(Stocks.GetFinanceDataFrame(list.value, Universe)[0]).Some?
    ensures UpdateMinsAsWritten(s, cache, list, stored, freshStart, gap, today).requests == [Sentinel(Mins, today)]
  {
    var universe := Stocks.GetFinanceDataFrame(list.value, Universe);
    var env := Env(Mins, stored, freshStart, true, gap, today);
    ResumeFromUniverseNames(stored(universe[0]).value, freshStart, cache.value);
    var starts := Starts(universe, env, cache.value);
    assert starts[0].None?;
    assert Plan(starts, 0, env) == [];
  }

  /** Corrected, the same situation requests the first instrument's minute
      bars from the day after its last stored bar. */
  lemma UpdateMinsResumes(s: Handler.ClientState, cache: Option<seq<Stocks.CalendarDay>>,
                          list: Result<seq<StockBaseModel>>, stored: StockBaseModel -> Option<StoredBars>,
                          freshStart: string, gap: int -> nat, today: int)
    requires cache.Some? && list.Ok? && today > 0
    requires |Stocks.GetFinanceDataFrame(list.value, Universe)| >= 1
    requires var f := stored(Stocks.GetFinanceDataFrame(list.value, Universe)[0]);
      f.Some? && f.value.columns == MinsColumns && |f.value.lastRow| >= 1 &&
      Stocks.NextDay(cache.value, f.value.lastRow[0]).Ok?
    ensures var r := UpdateMins(s, cache, list, stored, freshStart, gap, today);
      var row := r.state.stockBase[0];
      var next := Stocks.NextDay(cache.value, stored(row).value.lastRow[0]).value;
      |r.requests| >= 2 &&
      r.requests[0] == HistoryRequest(Mins, row, Planned(0, AtoiOr0(next), Chunks(AtoiOr0(next), today, gap)[0].1))
  {
    var universe := Stocks.GetFinanceDataFrame(list.value, Universe);
    var env := Env(Mins, stored, freshStart, false, gap, today);
    var f := stored(universe[0]).value;
    DateColumnFirst();
    ResumeFromOwnNames(f, freshStart, cache.value);
    var next := Stocks.NextDay(cache.value, f.lastRow[0]).value;
    var starts := Starts(universe, env, cache.value);
    assert starts[0] == Some(next);
    var head: seq<Planned> := PlanHead(0, next, env);
    var plan := Plan(starts, 0, env);
    assert plan == head + Plan(starts, 1, env);
    assert plan[0] == Planned(0, AtoiOr0(next), Chunks(AtoiOr0(next), today, gap)[0].1);
  }

  /** When every instrument's start is found and today is positive, every
      instrument gets at least one request. */
  lemma {:induction false} PlanCoversAll(starts: seq<Option<string>>, from: nat, env: Env, pos: nat)
    requires env.today > 0
    requires forall j :: from <= j < |starts| ==> starts[j].Some?
    requires from <= pos < |starts|
    ensures exists k :: 0 <= k < |Plan(starts, from, env)| && Plan(starts, from, env)[k].pos == pos
    decreases |starts| - from
  {
    var head: seq<Planned> := PlanHead(from, starts[from].value, env);
    var tail := Plan(starts, from + 1, env);
    PlanUnfold(starts, from, env);
    if pos != from {
      PlanCoversAll(starts, from + 1, env, pos);
    }
    PositionInConcat(head, tail, pos);
  }

  /** The plan from an instrument with a known start is its own ranges
      followed by the plan for the rest. */
  lemma PlanUnfold(starts: seq<Option<string>>, from: nat, env: Env)
    requires from < |starts| && starts[from].Some?
    ensures Plan(starts, from, env) == PlanHead(from, starts[from].value, env) + Plan(starts, from + 1, env)
  {
  }

  lemma PositionInConcat(head: seq<Planned>, tail: seq<Planned>, pos: nat)
    requires (|head| > 0 && head[0].pos == pos) || exists k :: 0 <= k < |tail| && tail[k].pos == pos
    ensures exists k :: 0 <= k < |head + tail| && (head + tail)[k].pos == pos
  {
    if |head| > 0 && head[0].pos == pos {
      assert (head + tail)[0].pos == pos;
    } else {
      var k :| 0 <= k < |tail| && tail[k].pos == pos;
      assert (head + tail)[|head| + k].pos == pos;
    }
  }

  /** An instrument whose start cannot be found ends the download: no
      instrument from it onwards is requested. */
  lemma {:induction false} PlanStopsAtFailure(starts: seq<Option<string>>, from: nat, env: Env, j: nat)
    requires from <= j < |starts| && starts[j].None?
    ensures forall k :: 0 <= k < |Plan(starts, from, env)| ==> Plan(starts, from, env)[k].pos < j
    decreases |starts| - from
  {
    if starts[from].Some? {
      var head: seq<Planned> := PlanHead(from, starts[from].value, env);
      var tail := Plan(starts, from + 1, env);
      PlanUnfold(starts, from, env);
      PlanStopsAtFailure(starts, from + 1, env, j);
      PositionsBelow(head, tail, from, j);
    }
  }

  lemma PositionsBelow(head: seq<Planned>, tail: seq<Planned>, from: nat, j: nat)
    requires from < j
    requires forall k :: 0 <= k < |head| ==> head[k].pos == from
    requires forall k :: 0 <= k < |tail| ==> tail[k].pos < j
    ensures forall k :: 0 <= k < |head + tail| ==> (head + tail)[k].pos < j
  {
  }

  /** A reply that carries a history request's index is saved under the
      instrument that request named, as long as the list is shorter than
      0xFFFF rows and the history handler is registered. */
  lemma ReplyAttributed(st: Handler.ClientState, bars: Bars, req: RequestNode, n: Response.ResponseNode,
                        gbk: seq<byte> -> string, runeCap: nat -> nat)
    requires |st.stockBase| < 0xFFFF
    requires EventHistory in st.table && st.table[EventHistory] == Dispatcher.OnStockHistory
    requires RequestFor(bars, req, st.stockBase)
    requires n.header.eventId == EventHistory && n.header.index == req.index
    ensures var t := Handler.Step(st, n, gbk, runeCap);
      exists pos :: (0 <= pos < |st.stockBase| &&
        ReadU16(req.rawData, 0) == Wrap16(st.stockBase[pos].market) &&
        req.rawData[2..8] == CopyInto(st.stockBase[pos].code, 6) &&
        (|t.out| > |st.out| ==>
          var o := t.out[|st.out|];
          (o.DaysSaved? || o.MinsSaved?) &&
          o.market == st.stockBase[pos].market && o.code == st.stockBase[pos].code))
  {
    var pos :| 0 <= pos < |st.stockBase| && req.index == Wrap16(pos + 1) &&
      ReadU16(req.rawData, 0) == Wrap16(st.stockBase[pos].market) &&
      |req.rawData| == 18 && req.rawData[2..8] == CopyInto(st.stockBase[pos].code, 6);
    Handler.HistoryRowOfTag(pos);
    assert Handler.Step(st, n, gbk, runeCap) == Handler.OnStockHistory(st, n);
  }

  /** After a successful History call, every request but the sentinel is
      answered under the instrument it asked for. */
  lemma HistoryReplyAttributed(s: Handler.ClientState, cache: Option<seq<Stocks.CalendarDay>>,
                               list: Result<seq<StockBaseModel>>, env: Env, r: Sent, k: nat,
                               n: Response.ResponseNode, gbk: seq<byte> -> string, runeCap: nat -> nat)
    requires r == History(s, cache, list, env)
    requires cache.Some? && list.Ok?
    requires |Stocks.GetFinanceDataFrame(list.value, Universe)| < 0xFFFF
    requires k < |r.requests| - 1
    requires n.header.eventId == EventHistory && n.header.index == r.requests[k].index
    ensures var t := Handler.Step(r.state, n, gbk, runeCap);
      exists pos :: (0 <= pos < |r.state.stockBase| &&
        ReadU16(r.requests[k].rawData, 0) == Wrap16(r.state.stockBase[pos].market) &&
        r.requests[k].rawData[2..8] == CopyInto(r.state.stockBase[pos].code, 6) &&
        (|t.out| > |r.state.out| ==>
          var o := t.out[|r.state.out|];
          (o.DaysSaved? || o.MinsSaved?) &&
          o.market == r.state.stockBase[pos].market && o.code == r.state.stockBase[pos].code))
  {
    ReplyAttributed(r.state, env.bars, r.requests[k], n, gbk, runeCap);
  }
}

=== FILE: dispatcher.dfy ===
/** Routing of replies (dispatcher.go): a table from event id to handler, and
    `HandleProc`, which drops replies with event 0, runs the registered
    handler for the reply's event, or falls back to the unknown-packet
    handler. The table is a map, so registering an id again replaces the
    earlier handler. */
module Dispatcher {
  import opened Bytes
  import opened Response

  /** The handlers the client registers. */
  datatype Handler = OnMarketInitInfo | OnStockCount | OnStockBase | OnStockBonus | OnStockHistory

  /** Handlers keyed by `uint32(EventId)`. */
  type Table = map<nat, Handler>

  function AddHandler(t: Table, id: nat, h: Handler): (r: Table)
    ensures id in r && r[id] == h
    ensures r.Keys == t.Keys + {id}
    ensures forall k :: k in t && k != id ==> r[k] == t[k]
  {
    t[id := h]
  }

  function DelHandler(t: Table, id: nat): (r: Table)
    ensures id !in r
    ensures r.Keys == t.Keys - {id}
    ensures forall k :: k in r ==> r[k] == t[k]
  {
    t - {id}
  }

  /** A later registration for the same id replaces the earlier one. */
  lemma AddHandlerOverwrites(t: Table, id: nat, h1: Handler, h2: Handler)
    ensures AddHandler(AddHandler(t, id, h1), id, h2) == AddHandler(t, id, h2)
  {
  }

  /** Removing a handler twice is removing it once. */
  lemma DelHandlerIdempotent(t: Table, id: nat)
    ensures DelHandler(DelHandler(t, id), id) == DelHandler(t, id)
  {
  }

  /** Removing what was just added leaves the table without that id. */
  lemma DelAddHandler(t: Table, id: nat, h: Handler)
    requires id !in t
    ensures DelHandler(AddHandler(t, id, h), id) == t
  {
  }

  /** Where HandleProc sends a reply. */
  datatype Route = Dropped | Dispatch(handler: Handler) | Unknown

  /** HandleProc's choice; it reads the table and never changes it. */
  function HandleProc(t: Table, n: ResponseNode): (r: Route)
    ensures r.Dropped? <==> n.header.eventId == 0
    ensures r.Dispatch? <==> n.header.eventId != 0 && n.header.eventId in t
    ensures r.Dispatch? ==> r.handler == t[n.header.eventId]
  {
    if n.header.eventId <= 0 then Dropped
    else if n.header.eventId in t then Dispatch(t[n.header.eventId])
    else Unknown
  }

  /** Routing looks at the event id only: command, index and body play no
      part. */
  lemma RouteByEventOnly(t: Table, n: ResponseNode, m: ResponseNode)
    requires n.header.eventId == m.header.eventId
    ensures HandleProc(t, n) == HandleProc(t, m)
  {
  }

  /** A handler registered for an event receives that event's replies. */
  lemma RegisteredHandlerRuns(t: Table, h: Handler, n: ResponseNode)
    requires n.header.eventId != 0
    ensures HandleProc(AddHandler(t, n.header.eventId, h), n) == Dispatch(h)
  {
  }
}

=== FILE: handler.dfy ===
/** The reply handlers (handler.go) as functions on the client's state. Each
    takes the state and one reply and returns the new state; what the source
    writes to a channel or a file is appended to an output log instead.
    `Step` puts routing and handlers together: one reply through
    `HandleProc`.

    The handlers read bodies through gcom's little-endian stream, which is
    not part of this model. The model takes a read that asks for more bytes
    than remain to yield nothing (zero for a number) and to leave the stream
    where it was; the handlers ignore those errors. */
module Handler {
  import opened Bytes
  import opened Response
  import opened Models
  import opened Dispatcher
  import Request

  /** Index of the last bonus batch (client.go). */
  const StockBonusFinishedIdx: u16 := 0x1100
  /** Index of the request that closes a history download. */
  const HistoryDoneIdx: u16 := 0xFFFF

  /** What the client emits. */
  datatype Output =
    | Finished                                                    // a value on `Finished`
    | BonusAck(stocks: nat)                                       // a value on `bonusFinishedChan`
    | StockListSaved(base: seq<StockBaseModel>)                   // the instrument list file
    | BonusSaved(bonus: seq<StockBonusModel>)                     // the corporate-action file
    | DaysSaved(market: int, code: seq<byte>, days: seq<StockDayModel>)
    | MinsSaved(market: int, code: seq<byte>, mins: seq<StockMinsModel>)
    | DeviceRegistered                                            // log line for event 0x0B
    | Notice(text: string)                                        // log line for event 0x0FDB
    | Unrecognised(raw: seq<byte>)                                // hex dump of anything else
    | Panicked                                                    // a handler panicked

  datatype ClientState = ClientState(
    table: Table,
    lastTrade: LastTradeModel,
    stockBase: seq<StockBaseModel>,
    stockBonus: seq<StockBonusModel>,
    out: seq<Output>)

  // ---------------------------------------------------------------------
  // The record loops

  function Concat(cs: seq<seq<byte>>): seq<byte>
  {
    if |cs| == 0 then [] else cs[0] + Concat(cs[1..])
  }

  /** The count a handler reads first with `ReadUint16`: the body's first
      u16, or 0 when the body is shorter. */
  function Count16(body: seq<byte>): u16
  {
    if |body| < 2 then 0 else ReadU16(body, 0)
  }

  /** The bytes left unread after that count. */
  function After16(body: seq<byte>): seq<byte>
  {
    if |body| < 2 then body else body[2..]
  }

  /** `count` rounds of a handler's record loop over the unread bytes `s`.
      Each round asks `ReadBuff` for `size` bytes and decodes them with
      `binary.Read` into one record variable shared by all rounds. When
      fewer than `size` bytes are left the read yields nothing, the decode
      fails, and the round appends the shared record as the previous round
      left it (`last`). Gives the records appended and the bytes left
      unread. */
  function RecordLoop(s: seq<byte>, count: nat, size: nat, last: seq<byte>): (r: (seq<seq<byte>>, seq<byte>))
    decreases count
    ensures |r.0| == count
    ensures |last| == size ==> forall i :: 0 <= i < count ==> |r.0[i]| == size
  {
    if count == 0 then ([], s)
    else if size <= |s| then
      var next := RecordLoop(s[size..], count - 1, size, s[..size]);
      ([s[..size]] + next.0, next.1)
    else
      var next := RecordLoop(s, count - 1, size, last);
      ([last] + next.0, next.1)
  }

  /** `m` copies of one value. */
  function Repeat<T>(m: nat, x: T): (r: seq<T>)
    ensures |r| == m && forall i :: 0 <= i < m ==> r[i] == x
  {
    seq(m, _ => x)
  }

  /** How many whole runs of `size` bytes `n` bytes hold. */
  function Whole(n: nat, size: nat): (w: nat)
    requires size > 0
    decreases n
    ensures w * size <= n < w * size + size
  {
    if n < size then 0
    else
      var w := Whole(n - size, size);
      assert (1 + w) * size == w * size + size;
      1 + w
  }

  /** Record `i` of the loop in closed form: the `i`-th run of `size` bytes
      when `s` holds it whole; otherwise the last whole run `s` holds, or
      `last` when it holds none. */
  function LoopRecord(s: seq<byte>, size: nat, last: seq<byte>, i: nat): (r: seq<byte>)
    requires size > 0
    ensures |last| == size ==> |r| == size
  {
    var w := Whole(|s|, size);
    assert (i + 1) * size == i * size + size;
    if (i + 1) * size <= |s| then s[i * size .. (i + 1) * size]
    else if w > 0 then
      assert w * size == (w - 1) * size + size;
      s[(w - 1) * size .. w * size]
    else last
  }

  /** One round later, on the bytes after the first record, with that
      record shared, the closed form names the same record. */
  lemma LoopRecordShift(s: seq<byte>, size: nat, last: seq<byte>, i: nat)
    requires 0 < size <= |s| && i > 0
    ensures LoopRecord(s[size..], size, s[..size], i - 1) == LoopRecord(s, size, last, i)
  {
    var w := Whole(|s|, size);
    assert Whole(|s[size..]|, size) == w - 1;
    assert (i + 1) * size == i * size + size;
    if (i + 1) * size <= |s| {
      ShiftInside(s, size, last, i);
    } else if w > 1 {
      ShiftPast(s, size, last, i);
    } else {
      assert LoopRecord(s[size..], size, s[..size], i - 1) == s[..size];
    }
  }

  /** LoopRecordShift when record `i` is there in full. */
  lemma ShiftInside(s: seq<byte>, size: nat, last: seq<byte>, i: nat)
    requires 0 < size <= |s| && i > 0 && (i + 1) * size <= |s|
    ensures LoopRecord(s[size..], size, s[..size], i - 1) == LoopRecord(s, size, last, i)
  {
    assert i * size == (i - 1) * size + size;
    assert (i + 1) * size == i * size + size;
    assert s[size..][(i - 1) * size .. i * size] == s[i * size .. (i + 1) * size];
  }

  /** LoopRecordShift when record `i` is past the end and more than one
      whole record remains. */
  lemma ShiftPast(s: seq<byte>, size: nat, last: seq<byte>, i: nat)
    requires 0 < size <= |s| && i > 0 && |s| < (i + 1) * size
    requires Whole(|s|, size) > 1 && Whole(|s[size..]|, size) == Whole(|s|, size) - 1
    ensures LoopRecord(s[size..], size, s[..size], i - 1) == LoopRecord(s, size, last, i)
  {
    var w := Whole(|s|, size);
    assert i * size == (i - 1) * size + size;
    assert (w - 1) * size == (w - 2) * size + size;
    assert w * size == (w - 1) * size + size;
    assert s[size..][(w - 2) * size .. (w - 1) * size] == s[(w - 1) * size .. w * size];
  }


  /** The loop's records are the closed-form ones. */
  /** The first round reads the first whole record, when there is one. */
  lemma LoopRecordFirst(s: seq<byte>, size: nat, last: seq<byte>)
    requires 0 < size <= |s|
    ensures LoopRecord(s, size, last, 0) == s[..size]
  {
    assert (0 + 1) * size == size;
  }

  /** Without a whole record every round yields the carried record. */
  lemma LoopRecordNone(s: seq<byte>, size: nat, last: seq<byte>, i: nat)
    requires 0 < size && |s| < size
    ensures LoopRecord(s, size, last, i) == last
  {
    assert Whole(|s|, size) == 0;
    assert size <= (i + 1) * size;
  }

  lemma {:induction false} RecordLoopAt(s: seq<byte>, count: nat, size: nat, last: seq<byte>, i: nat)
    requires size > 0 && i < count
    ensures RecordLoop(s, count, size, last).0[i] == LoopRecord(s, size, last, i)
    decreases count
  {
    var rounds := RecordLoop(s, count, size, last).0;
    if size <= |s| {
      var next := RecordLoop(s[size..], count - 1, size, s[..size]);
      assert rounds == [s[..size]] + next.0;
      if i > 0 {
        RecordLoopAt(s[size..], count - 1, size, s[..size], i - 1);
        LoopRecordShift(s, size, last, i);
      } else {
        LoopRecordFirst(s, size, last);
      }
    } else {
      var next := RecordLoop(s, count - 1, size, last);
      assert rounds == [last] + next.0;
      if i > 0 {
        RecordLoopAt(s, count - 1, size, last, i - 1);
        LoopRecordNone(s, size, last, i - 1);
      }
      LoopRecordNone(s, size, last, i);
    }
  }

  lemma RecordLoopRecords(s: seq<byte>, count: nat, size: nat, last: seq<byte>)
    requires size > 0
    ensures forall i :: 0 <= i < count ==> RecordLoop(s, count, size, last).0[i] == LoopRecord(s, size, last, i)
  {
    forall i | 0 <= i < count
      ensures RecordLoop(s, count, size, last).0[i] == LoopRecord(s, size, last, i)
    {
      RecordLoopAt(s, count, size, last, i);
    }
  }

  /** A round that finds a whole record appends it and shares it with the
      next. */
  lemma RecordLoopCons(b: seq<byte>, count: nat, size: nat, last: seq<byte>)
    requires size <= |b|
    ensures var next := RecordLoop(b[size..], count, size, b[..size]);
      RecordLoop(b, count + 1, size, last) == ([b[..size]] + next.0, next.1)
  {
  }

  /** Records laid back to back are read back in order, and the loop then
      goes on over what follows with the last of them as the shared record. */
  lemma {:induction false} RecordLoopConcat(cs: seq<seq<byte>>, rest: seq<byte>, m: nat, size: nat, last: seq<byte>)
    requires forall i :: 0 <= i < |cs| ==> |cs[i]| == size
    ensures var after := RecordLoop(rest, m, size, if |cs| == 0 then last else cs[|cs| - 1]);
      RecordLoop(Concat(cs) + rest, |cs| + m, size, last) == (cs + after.0, after.1)
    decreases |cs|
  {
    if |cs| == 0 {
      assert Concat(cs) + rest == rest;
      assert cs + RecordLoop(rest, m, size, last).0 == RecordLoop(rest, m, size, last).0;
    } else {
      var b := Concat(cs) + rest;
      var t := Concat(cs[1..]) + rest;
      ConcatHead(cs, rest, size);
      var after := RecordLoop(rest, m, size, cs[|cs| - 1]);
      RecordLoopCons(b, |cs| - 1 + m, size, last);
      RecordLoopConcat(cs[1..], rest, m, size, cs[0]);
      LastOfTail(cs);
      assert RecordLoop(t, |cs| - 1 + m, size, cs[0]) == (cs[1..] + after.0, after.1);
      AppendAssoc([cs[0]], cs[1..], after.0);
      assert [cs[0]] + cs[1..] == cs;
    }
  }

  lemma ConcatHead(cs: seq<seq<byte>>, rest: seq<byte>, size: nat)
    requires |cs| > 0 && |cs[0]| == size
    ensures var b := Concat(cs) + rest;
      size <= |b| && b[..size] == cs[0] && b[size..] == Concat(cs[1..]) + rest
  {
    assert Concat(cs) + rest == cs[0] + (Concat(cs[1..]) + rest);
  }

  lemma LastOfTail<T>(cs: seq<T>)
    requires |cs| > 0
    ensures (if |cs[1..]| == 0 then cs[0] else cs[1..][|cs[1..]| - 1]) == cs[|cs| - 1]
  {
  }

  /** Once fewer than `size` bytes are left, every further round repeats the
      shared record. */
  lemma {:induction false} RecordLoopStarved(s: seq<byte>, m: nat, size: nat, last: seq<byte>)
    requires |s| < size
    ensures RecordLoop(s, m, size, last) == (Repeat(m, last), s)
    decreases m
  {
    if m == 0 {
      assert Repeat(m, last) == [];
    } else {
      RecordLoopStarved(s, m - 1, size, last);
      assert RecordLoop(s, m, size, last).0 == [last] + RecordLoop(s, m - 1, size, last).0;
      assert [last] + Repeat(m - 1, last) == Repeat(m, last);
    }
  }

  // ---------------------------------------------------------------------
  // Record to model mappings

  function BaseModel(x: StockBaseItem, market: int): (r: StockBaseModel)
    ensures r.market == market
    ensures r.code == x.code && r.name == x.name && r.priceBits == x.priceBits
    ensures r.unknown1 == x.unknown1 && r.unknown2 == x.unknown2 && r.unknown3 == x.unknown3
    ensures r.bonus1 == x.bonus1 && r.bonus2 == x.bonus2
  {
    StockBaseModel(x.code, x.name, market, x.unknown1, x.unknown2, x.unknown3, x.priceBits, x.bonus1, x.bonus2)
  }

  function BonusModel(x: StockBonusItem): (r: StockBonusModel)
    ensures -0x8000_0000 <= r.date < 0x8000_0000 && r.date % 0x1_0000_0000 == x.dateBits
    ensures r.market == x.market && r.code == x.code && r.kind == x.kind
    ensures r.moneyBits == x.moneyBits && r.priceBits == x.priceBits && r.countBits == x.countBits &&
      r.rateBits == x.rateBits
  {
    StockBonusModel(x.code, x.Date(), x.market, x.kind, x.moneyBits, x.priceBits, x.countBits, x.rateBits)
  }

  /** The day file keeps the columns in the order date, open, low, high,
      close, volume, amount; the wire order is open, high, low, close,
      amount, volume. */
  function DayModel(x: StockDayItem): (r: StockDayModel)
    ensures r.date == x.date && r.open == x.open && r.low == x.low && r.high == x.high && r.close == x.close
    ensures r.volume == x.volume && r.amount == x.amount
  {
    StockDayModel(x.date, x.open, x.low, x.high, x.close, x.volume, x.amount)
  }

  /** The packed minute date: the year offset from 2004 times 2048, plus
      month times 100 plus day. Gives the decimal yyyymmdd. */
  function MinsDate(d: u16): int
  {
    (d / 2048 + 2004) * 10000 + (d % 2048 / 100) * 100 + d % 2048 % 100
  }

  function PackMinsDate(year: int, month: int, day: int): int
  {
    (year - 2004) * 2048 + month * 100 + day
  }

  /** Every packed date is the packing of the year, month and day read from
      it, and month and day fit the packing. */
  lemma MinsDateFields(d: u16)
    ensures var y, m, dd := d / 2048 + 2004, d % 2048 / 100, d % 2048 % 100;
      PackMinsDate(y, m, dd) == d && MinsDate(d) == y * 10000 + m * 100 + dd &&
      0 <= dd < 100 && m * 100 + dd < 2048 && 2004 <= y < 2036
  {
  }
  /** The yyyymmdd date splits back into the year, month and day it was
      built from. */
  lemma MinsDateSplit(d: u16)
    ensures var y, m, dd := d / 2048 + 2004, d % 2048 / 100, d % 2048 % 100;
      MinsDate(d) / 10000 == y && MinsDate(d) / 100 % 100 == m && MinsDate(d) % 100 == dd
  {
    MinsDateFields(d);
    SplitDate(d / 2048 + 2004, d % 2048 / 100, d % 2048 % 100);
  }

  lemma SplitDate(y: int, m: int, dd: int)
    requires 0 <= y && 0 <= m < 100 && 0 <= dd < 100
    ensures var date := y * 10000 + m * 100 + dd;
      date / 10000 == y && date / 100 % 100 == m && date % 100 == dd
  {
  }




  /** Packing is inverted by MinsDate when month and day fit the 11 low bits
      and the year the 5 high ones. */
  lemma MinsDatePack(year: int, month: int, day: int)
    requires 2004 <= year < 2036 && 0 <= month && 0 <= day < 100 && month * 100 + day < 2048
    ensures 0 <= PackMinsDate(year, month, day) < 0x1_0000
    ensures MinsDate(PackMinsDate(year, month, day)) == year * 10000 + month * 100 + day
  {
    var p := PackMinsDate(year, month, day);
    var lo := month * 100 + day;
    assert p == (year - 2004) * 2048 + lo;
    assert p / 2048 == year - 2004 && p % 2048 == lo;
    assert lo / 100 == month && lo % 100 == day;
  }

  /** The minute of the day: `Time / 60` hours and `Time % 60` minutes. */
  function MinsModel(x: StockMinsItem): (r: StockMinsModel)
    ensures 0 <= r.minute < 60 && r.hour * 60 + r.minute == x.time
    ensures PackMinsDate(r.date / 10000, r.date / 100 % 100, r.date % 100) == x.date
    ensures r.openBits == x.openBits && r.lowBits == x.lowBits && r.highBits == x.highBits &&
      r.closeBits == x.closeBits && r.volume == x.volume && r.amountBits == x.amountBits
  {
    MinsDateFields(x.date);
    MinsDateSplit(x.date);
    StockMinsModel(MinsDate(x.date), x.time / 60, x.time % 60, x.openBits, x.lowBits, x.highBits,
                   x.closeBits, x.volume, x.amountBits)
  }

  /** Hour and minute give the time field back; a time below 1440 is a
      clock time of one day. */
  lemma MinsTimeRoundTrip(t: u16, hour: nat, minute: nat)
    ensures (t / 60) * 60 + t % 60 == t && 0 <= t % 60 < 60
    ensures t < 1440 ==> t / 60 < 24
    ensures minute < 60 ==> (hour * 60 + minute) / 60 == hour && (hour * 60 + minute) % 60 == minute
  {
  }

  /** The sample minute row of the reply format: 2016-09-19, 09:35. */
  lemma SampleMinsModel(b: seq<byte>)
    requires |b| == 32
    requires b[0] == 0x97 && b[1] == 0x63 && b[2] == 0x3F && b[3] == 0x02
    ensures DecodeStockMins(b).Some?
    ensures var m := MinsModel(DecodeStockMins(b).value);
      m.date == 20160919 && m.hour == 9 && m.minute == 35
  {
    SampleMinsRow(b);
  }

  // ---------------------------------------------------------------------
  // Count-prefixed lists

  function BaseRows(cs: seq<seq<byte>>, market: int): (r: seq<StockBaseModel>)
    requires forall i :: 0 <= i < |cs| ==> |cs[i]| == StockBaseSize
    ensures |r| == |cs|
  {
    seq(|cs|, i requires 0 <= i < |cs| => BaseModel(DecodeStockBase(cs[i]).value, market))
  }

  /** The instrument-list reply: a u16 count, then the record loop over
      29-byte records. Row `i` is the body's record `i` when the body holds
      it whole, otherwise a repeat of the last whole record, or of the zero
      record when there is none. */
  function ParseStockBaseReply(body: seq<byte>, market: int): (r: seq<StockBaseModel>)
    ensures |r| == Count16(body)
    ensures forall i :: 0 <= i < |r| ==>
      r[i] == BaseModel(DecodeStockBase(LoopRecord(After16(body), StockBaseSize, Zeros(StockBaseSize), i)).value, market)
  {
    var recs := RecordLoop(After16(body), Count16(body), StockBaseSize, Zeros(StockBaseSize)).0;
    RecordLoopRecords(After16(body), Count16(body), StockBaseSize, Zeros(StockBaseSize));
    BaseRows(recs, market)
  }

  function EncodeStockBaseReply(items: seq<StockBaseItem>): (r: seq<byte>)
    requires |items| < 0x1_0000
    requires forall i :: 0 <= i < |items| ==> items[i].Valid()
  {
    U16(|items|) + Concat(BaseRecords(items))
  }

  function BaseRecords(items: seq<StockBaseItem>): (cs: seq<seq<byte>>)
    requires forall i :: 0 <= i < |items| ==> items[i].Valid()
    ensures |cs| == |items|
    ensures forall i :: 0 <= i < |items| ==> |cs[i]| == StockBaseSize && DecodeStockBase(cs[i]) == Some(items[i])
  {
    var cs := seq(|items|, i requires 0 <= i < |items| => EncodeStockBase(items[i]));
    forall i | 0 <= i < |items|
      ensures DecodeStockBase(cs[i]) == Some(items[i])
    {
      DecodeEncodeStockBase(items[i], []);
      assert cs[i] + [] == cs[i];
    }
    cs
  }

  /** The rows of a page whose records are `cs`, then `tail`, when the page
      declares `|cs| + m` records: the records in order, then `m` repeats of
      the last one. */
  lemma BaseReplyRows(cs: seq<seq<byte>>, tail: seq<byte>, m: nat, market: int)
    requires |cs| + m < 0x1_0000 && |cs| > 0 && (m > 0 ==> |tail| < StockBaseSize)
    requires forall i :: 0 <= i < |cs| ==> |cs[i]| == StockBaseSize
    ensures ParseStockBaseReply(U16(|cs| + m) + (Concat(cs) + tail), market) ==
      BaseRows(cs + Repeat(m, cs[|cs| - 1]), market)
  {
    var body := U16(|cs| + m) + (Concat(cs) + tail);
    CountPrefix(|cs| + m, Concat(cs) + tail);
    RecordLoopConcat(cs, tail, m, StockBaseSize, Zeros(StockBaseSize));
    if m > 0 {
      RecordLoopStarved(tail, m, StockBaseSize, cs[|cs| - 1]);
    } else {
      assert Repeat(m, cs[|cs| - 1]) == [];
      assert RecordLoop(tail, 0, StockBaseSize, cs[|cs| - 1]).0 == [];
    }
  }

  /** A reply carrying these records yields exactly their rows, in order. */
  lemma ParseEncodeStockBaseReply(items: seq<StockBaseItem>, market: int, rest: seq<byte>)
    requires |items| < 0x1_0000
    requires forall i :: 0 <= i < |items| ==> items[i].Valid()
    ensures ParseStockBaseReply(EncodeStockBaseReply(items) + rest, market) ==
      seq(|items|, i requires 0 <= i < |items| => BaseModel(items[i], market))
  {
    var cs := BaseRecords(items);
    assert EncodeStockBaseReply(items) + rest == U16(|items|) + (Concat(cs) + rest);
    BaseReplyWhole(cs, rest, market);
    assert BaseRows(cs, market) == seq(|items|, i requires 0 <= i < |items| => BaseModel(items[i], market));
  }

  /** A reply holding exactly its counted records reads back as their rows. */
  lemma BaseReplyWhole(cs: seq<seq<byte>>, rest: seq<byte>, market: int)
    requires |cs| < 0x1_0000
    requires forall i :: 0 <= i < |cs| ==> |cs[i]| == StockBaseSize
    ensures ParseStockBaseReply(U16(|cs|) + (Concat(cs) + rest), market) == BaseRows(cs, market)
  {
    CountPrefix(|cs|, Concat(cs) + rest);
    RecordLoopConcat(cs, rest, 0, StockBaseSize, Zeros(StockBaseSize));
    assert cs + [] == cs;
  }

  /** A page that declares more records than it carries whole repeats the
      last record it carries: three declared, two sent, gives the two rows
      and the second once more. */
  lemma StaleBaseRows(items: seq<StockBaseItem>, m: nat, tail: seq<byte>, market: int)
    requires 0 < |items| && |items| + m < 0x1_0000 && |tail| < StockBaseSize
    requires forall i :: 0 <= i < |items| ==> items[i].Valid()
    ensures var r := ParseStockBaseReply(U16(|items| + m) + Concat(BaseRecords(items)) + tail, market);
      |r| == |items| + m &&
      forall i :: 0 <= i < |items| + m ==> r[i] == BaseModel(items[if i < |items| then i else |items| - 1], market)
  {
    var cs := BaseRecords(items);
    assert U16(|items| + m) + Concat(cs) + tail == U16(|cs| + m) + (Concat(cs) + tail);
    BaseReplyRows(cs, tail, m, market);
    StaleBaseDecoded(items, m, market);
  }

  /** The rows of StaleBaseRows, record by record. */
  lemma StaleBaseDecoded(items: seq<StockBaseItem>, m: nat, market: int)
    requires 0 < |items| && forall i :: 0 <= i < |items| ==> items[i].Valid()
    ensures var cs := BaseRecords(items);
      var r := BaseRows(cs + Repeat(m, cs[|cs| - 1]), market);
      forall i :: 0 <= i < |items| + m ==> r[i] == BaseModel(items[if i < |items| then i else |items| - 1], market)
  {
    var cs := BaseRecords(items);
    var all := cs + Repeat(m, cs[|cs| - 1]);
    forall i | 0 <= i < |items| + m
      ensures BaseRows(all, market)[i] == BaseModel(items[if i < |items| then i else |items| - 1], market)
    {
      var j := if i < |items| then i else |items| - 1;
      assert all[i] == cs[j];
    }
  }

  // ---------------------------------------------------------------------
  // The nested corporate-action list

  function BonusRows(cs: seq<seq<byte>>): (r: seq<StockBonusModel>)
    requires forall i :: 0 <= i < |cs| ==> |cs[i]| == StockBonusSize
    ensures |r| == |cs|
  {
    seq(|cs|, i requires 0 <= i < |cs| => BonusModel(DecodeStockBonus(cs[i]).value))
  }

  lemma BonusRowsAppend(a: seq<seq<byte>>, b: seq<seq<byte>>)
    requires forall i :: 0 <= i < |a| ==> |a[i]| == StockBonusSize
    requires forall i :: 0 <= i < |b| ==> |b[i]| == StockBonusSize
    ensures BonusRows(a + b) == BonusRows(a) + BonusRows(b)
  {
  }

  /** `k` rounds of OnStockBonus's outer loop over the unread bytes `s`:
      skip the 7 bytes of market and code, read the u16 record count, then
      run the record loop. The record variable is shared by all stocks.
      Gives the records, the bytes left unread and the shared record as the
      last round left it. */
  function BonusLoop(s: seq<byte>, k: nat, last: seq<byte>): (r: (seq<seq<byte>>, seq<byte>, seq<byte>))
    decreases k
    ensures |last| == StockBonusSize ==>
      |r.2| == StockBonusSize && forall i :: 0 <= i < |r.0| ==> |r.0[i]| == StockBonusSize
    ensures k == 0 ==> r == ([], s, last)
  {
    if k == 0 then ([], s, last)
    else
      var skipped := if 7 <= |s| then s[7..] else s;
      var recs := RecordLoop(After16(skipped), Count16(skipped), StockBonusSize, last);
      var shared := if |recs.0| == 0 then last else recs.0[|recs.0| - 1];
      var more := BonusLoop(recs.1, k - 1, shared);
      (recs.0 + more.0, more.1, more.2)
  }

  /** The corporate-action reply: a u16 stock count, then one group per
      stock. Gives the stock count and all records. */
  function ParseBonusReply(body: seq<byte>): (r: (nat, seq<StockBonusModel>))
    ensures r.0 == Count16(body)
    ensures r.0 == 0 ==> r.1 == []
  {
    var recs := BonusLoop(After16(body), Count16(body), Zeros(StockBonusSize)).0;
    (Count16(body), BonusRows(recs))
  }

  /** One stock's group as the server sends it. */
  datatype BonusGroup = BonusGroup(market: byte, code: Request.Code, items: seq<StockBonusItem>)
  {
    predicate Valid()
    {
      |items| < 0x1_0000 && forall i :: 0 <= i < |items| ==> items[i].Valid()
    }
  }

  /** A group's records as the server encodes them. */
  function GroupRecords(g: BonusGroup): (cs: seq<seq<byte>>)
    requires g.Valid()
    ensures |cs| == |g.items|
    ensures forall i :: 0 <= i < |cs| ==> |cs[i]| == StockBonusSize
  {
    seq(|g.items|, i requires 0 <= i < |g.items| => EncodeStockBonus(g.items[i]))
  }

  /** A group's records as the client keeps them. */
  function ItemRows(g: BonusGroup): (r: seq<StockBonusModel>)
    ensures |r| == |g.items|
  {
    seq(|g.items|, i requires 0 <= i < |g.items| => BonusModel(g.items[i]))
  }

  function EncodeBonusGroup(g: BonusGroup): (r: seq<byte>)
    requires g.Valid()
  {
    [g.market] + g.code + U16(|g.items|) + Concat(GroupRecords(g))
  }

  function EncodeBonusGroups(gs: seq<BonusGroup>): (r: seq<byte>)
    requires forall i :: 0 <= i < |gs| ==> gs[i].Valid()
  {
    if |gs| == 0 then [] else EncodeBonusGroup(gs[0]) + EncodeBonusGroups(gs[1..])
  }

  /** All records of the groups, group by group. */
  function GroupRows(gs: seq<BonusGroup>): (r: seq<StockBonusModel>)
    ensures |r| == TotalItems(gs)
  {
    if |gs| == 0 then [] else ItemRows(gs[0]) + GroupRows(gs[1..])
  }

  function TotalItems(gs: seq<BonusGroup>): nat
  {
    if |gs| == 0 then 0 else |gs[0].items| + TotalItems(gs[1..])
  }

  lemma BonusRowsOfGroup(g: BonusGroup)
    requires g.Valid()
    ensures BonusRows(GroupRecords(g)) == ItemRows(g)
  {
    var cs := GroupRecords(g);
    forall i | 0 <= i < |g.items|
      ensures DecodeStockBonus(cs[i]).value == g.items[i]
    {
      DecodeEncodeStockBonus(g.items[i], []);
      assert cs[i] + [] == cs[i];
    }
  }

  /** Where an encoded group keeps its sub-count and its records. */
  lemma GroupHead(g: BonusGroup, tail: seq<byte>)
    requires g.Valid()
    ensures var b := EncodeBonusGroup(g) + tail;
      7 <= |b| && var skipped := b[7..];
      Count16(skipped) == |g.items| && After16(skipped) == Concat(GroupRecords(g)) + tail
  {
    var pre := [g.market] + g.code;
    var post := Concat(GroupRecords(g)) + tail;
    var b := EncodeBonusGroup(g) + tail;
    assert b == pre + (U16(|g.items|) + post);
    assert b[7..] == U16(|g.items|) + post;
    CountPrefix(|g.items|, post);
  }

  /** One encoded group followed by more bytes gives that group's records,
      then whatever the remaining rounds read from the rest. */
  lemma BonusLoopCons(g: BonusGroup, tail: seq<byte>, k: nat, last: seq<byte>)
    requires g.Valid()
    ensures var cs := GroupRecords(g);
      var more := BonusLoop(tail, k, if |cs| == 0 then last else cs[|cs| - 1]);
      BonusLoop(EncodeBonusGroup(g) + tail, k + 1, last) == (cs + more.0, more.1, more.2)
  {
    GroupHead(g, tail);
    var cs := GroupRecords(g);
    RecordLoopConcat(cs, tail, 0, StockBonusSize, last);
    assert cs + [] == cs;
  }

  /** The groups' records come out in order, as many as the sub-counts add
      up to, and the rest is left unread. */
  lemma {:induction false} ParseEncodeBonusGroups(gs: seq<BonusGroup>, rest: seq<byte>, last: seq<byte>)
    requires |last| == StockBonusSize
    requires forall i :: 0 <= i < |gs| ==> gs[i].Valid()
    ensures var r := BonusLoop(EncodeBonusGroups(gs) + rest, |gs|, last);
      BonusRows(r.0) == GroupRows(gs) && r.1 == rest
    decreases |gs|
  {
    if |gs| == 0 {
      assert EncodeBonusGroups(gs) + rest == rest;
    } else {
      var g := gs[0];
      var cs := GroupRecords(g);
      var shared := if |cs| == 0 then last else cs[|cs| - 1];
      var tail := EncodeBonusGroups(gs[1..]) + rest;
      assert EncodeBonusGroups(gs) + rest == EncodeBonusGroup(g) + tail;
      BonusLoopCons(g, tail, |gs| - 1, last);
      ParseEncodeBonusGroups(gs[1..], rest, shared);
      var more := BonusLoop(tail, |gs| - 1, shared);
      BonusRowsAppend(cs, more.0);
      BonusRowsOfGroup(g);
    }
  }

  lemma ParseEncodeBonusReply(gs: seq<BonusGroup>, rest: seq<byte>)
    requires |gs| < 0x1_0000
    requires forall i :: 0 <= i < |gs| ==> gs[i].Valid()
    ensures ParseBonusReply(U16(|gs|) + EncodeBonusGroups(gs) + rest) == (|gs|, GroupRows(gs))
  {
    var post := EncodeBonusGroups(gs) + rest;
    AppendAssoc(U16(|gs|), EncodeBonusGroups(gs), rest);
    CountPrefix(|gs|, post);
    ParseEncodeBonusGroups(gs, rest, Zeros(StockBonusSize));
  }

  /** A reply for one stock reads that stock's records and nothing more. */
  lemma BonusLoopOne(s: seq<byte>, last: seq<byte>)
    requires 7 <= |s|
    ensures BonusLoop(s, 1, last).0 == RecordLoop(After16(s[7..]), Count16(s[7..]), StockBonusSize, last).0
  {
    var recs := RecordLoop(After16(s[7..]), Count16(s[7..]), StockBonusSize, last);
    var shared := if |recs.0| == 0 then last else recs.0[|recs.0| - 1];
    assert BonusLoop(recs.1, 0, shared).0 == [];
    assert recs.0 + [] == recs.0;
  }

  /** A stock whose group declares `m` more records than the reply carries
      gets its carried records and then `m` repeats of the last one. */
  lemma StaleBonusRows(g: BonusGroup, m: nat, tail: seq<byte>)
    requires g.Valid() && |g.items| > 0 && |g.items| + m < 0x1_0000 && |tail| < StockBonusSize
    ensures var body := U16(1) + [g.market] + g.code + U16(|g.items| + m) + Concat(GroupRecords(g)) + tail;
      ParseBonusReply(body) == (1, ItemRows(g) + Repeat(m, BonusModel(g.items[|g.items| - 1])))
  {
    var cs := GroupRecords(g);
    var group := [g.market] + g.code + (U16(|g.items| + m) + (Concat(cs) + tail));
    RegroupReply(U16(1), [g.market], g.code, U16(|g.items| + m), Concat(cs), tail);
    BonusReplyOne(group);
    StaleBonusLoop(g, m, tail, group);
    StaleBonusModels(g, m);
  }

  /** A reply for one stock is that stock's group after the count. */
  lemma BonusReplyOne(group: seq<byte>)
    ensures ParseBonusReply(U16(1) + group) == (1, BonusRows(BonusLoop(group, 1, Zeros(StockBonusSize)).0))
  {
    CountPrefix(1, group);
  }

  /** The rows of StaleBonusRows: the group's own, then `m` of its last. */
  lemma StaleBonusModels(g: BonusGroup, m: nat)
    requires g.Valid() && |g.items| > 0
    ensures var cs := GroupRecords(g);
      BonusRows(cs + Repeat(m, cs[|cs| - 1])) == ItemRows(g) + Repeat(m, BonusModel(g.items[|g.items| - 1]))
  {
    var cs := GroupRecords(g);
    BonusRowsAppend(cs, Repeat(m, cs[|cs| - 1]));
    BonusRowsOfGroup(g);
    StaleDecoded(g.items[|g.items| - 1], m);
  }

  /** The loop of StaleBonusRows: the group's records, then `m` copies of
      its last one. */
  lemma StaleBonusLoop(g: BonusGroup, m: nat, tail: seq<byte>, group: seq<byte>)
    requires g.Valid() && |g.items| > 0 && |g.items| + m < 0x1_0000 && |tail| < StockBonusSize
    requires group == [g.market] + g.code + (U16(|g.items| + m) + (Concat(GroupRecords(g)) + tail))
    ensures var cs := GroupRecords(g);
      BonusLoop(group, 1, Zeros(StockBonusSize)).0 == cs + Repeat(m, cs[|cs| - 1])
  {
    var cs := GroupRecords(g);
    var skipped := U16(|cs| + m) + (Concat(cs) + tail);
    assert group[7..] == skipped;
    CountPrefix(|cs| + m, Concat(cs) + tail);
    assert Count16(skipped) == |cs| + m && After16(skipped) == Concat(cs) + tail;
    RecordLoopConcat(cs, tail, m, StockBonusSize, Zeros(StockBonusSize));
    RecordLoopStarved(tail, m, StockBonusSize, cs[|cs| - 1]);
    BonusLoopOne(group, Zeros(StockBonusSize));
  }

  /** `m` copies of one encoded record read back as `m` copies of its row. */
  lemma StaleDecoded(x: StockBonusItem, m: nat)
    requires x.Valid()
    ensures BonusRows(Repeat(m, EncodeStockBonus(x))) == Repeat(m, BonusModel(x))
  {
    DecodeEncodeStockBonus(x, []);
    assert EncodeStockBonus(x) + [] == EncodeStockBonus(x);
  }


  // ---------------------------------------------------------------------
  // Bar history replies

  /** The byte length a history reply announces: the u32 after the skipped
      u16, or 0 when the body is shorter. */
  function HistoryLength(body: seq<byte>): u32
  {
    if |body| < 6 then 0 else ReadU32(body, 2)
  }

  /** A history reply: a u16 (skipped), a u32 byte length, then the record
      loop over `length / 32` bar records. Bar `i` is the body's `i`-th
      32-byte record after the six-byte head when the body holds it whole,
      otherwise a repeat of the last whole one, or of the zero record. */
  function ParseHistoryReply(body: seq<byte>): (r: seq<seq<byte>>)
    ensures |r| == HistoryLength(body) / BarSize
    ensures forall i :: 0 <= i < |r| ==>
      |r[i]| == BarSize && r[i] == LoopRecord(body[6..], BarSize, Zeros(BarSize), i)
  {
    if |body| < 6 then []
    else
      RecordLoopRecords(body[6..], HistoryLength(body) / BarSize, BarSize, Zeros(BarSize));
      RecordLoop(body[6..], HistoryLength(body) / BarSize, BarSize, Zeros(BarSize)).0
  }

  /** A history reply as the server lays it out: a tag, the byte length of
      the bars, the bars. */
  function EncodeHistoryReply(tag: u16, bars: seq<seq<byte>>): (r: seq<byte>)
    requires BarSize * |bars| < 0x1_0000_0000
  {
    U16(tag) + U32(BarSize * |bars|) + Concat(bars)
  }

  /** Parsing such a reply gives its bars back, whatever follows them. */
  lemma ParseEncodeHistoryReply(tag: u16, bars: seq<seq<byte>>, rest: seq<byte>)
    requires BarSize * |bars| < 0x1_0000_0000
    requires forall i :: 0 <= i < |bars| ==> |bars[i]| == BarSize
    ensures ParseHistoryReply(EncodeHistoryReply(tag, bars) + rest) == bars
  {
    var body := EncodeHistoryReply(tag, bars) + rest;
    assert body == U16(tag) + U32(BarSize * |bars|) + (Concat(bars) + rest);
    ReadU32OfU32(U16(tag), BarSize * |bars|, Concat(bars) + rest);
    assert body[6..] == Concat(bars) + rest;
    assert HistoryLength(body) / BarSize == |bars|;
    RecordLoopConcat(bars, rest, 0, BarSize, Zeros(BarSize));
    assert bars + [] == bars;
  }

  function DayRows(cs: seq<seq<byte>>): (r: seq<StockDayModel>)
    requires forall i :: 0 <= i < |cs| ==> |cs[i]| == BarSize
    ensures |r| == |cs|
  {
    seq(|cs|, i requires 0 <= i < |cs| => DayModel(DecodeStockDay(cs[i]).value))
  }

  function MinsRows(cs: seq<seq<byte>>): (r: seq<StockMinsModel>)
    requires forall i :: 0 <= i < |cs| ==> |cs[i]| == BarSize
    ensures |r| == |cs|
  {
    seq(|cs|, i requires 0 <= i < |cs| => MinsModel(DecodeStockMins(cs[i]).value))
  }

  // ---------------------------------------------------------------------
  // Handlers

  /** Runes kept of a notice. */
  const NoticeRunes: nat := 70

  /** What `noticeTmp[:70]` holds: the text's first 70 runes, and after a
      shorter text the zero runes of the slice's unused capacity. */
  function NoticeCut(text: string): (r: string)
    ensures |r| == NoticeRunes
    ensures forall i :: 0 <= i < NoticeRunes ==> r[i] == if i < |text| then text[i] else '\0'
  {
    if |text| >= NoticeRunes then text[..NoticeRunes] else text + Repeat(NoticeRunes - |text|, '\0')
  }

  /** UnknownPkgHandler: the log line for a reply nobody handles. A notice is
      the text after its 0xB2-byte preamble, converted from GBK by `gbk`, cut
      to 70 runes. `runeCap(k)` is the capacity Go's runtime gives the rune
      slice of a k-rune conversion (its allocation rounding is not part of
      this model). A body shorter than the preamble, or a cut beyond both the
      length and the capacity of the rune slice, is a slice out of range, and
      the handler panics (None). */
  function UnknownPkg(n: ResponseNode, gbk: seq<byte> -> string, runeCap: nat -> nat): (r: Option<Output>)
    ensures n.header.eventId == Request.EventDevice ==> r == Some(DeviceRegistered)
    ensures n.header.eventId == Request.EventNotice ==>
      (r.Some? <==>
         (0xB2 <= |n.rawData| &&
          (NoticeRunes <= |gbk(n.rawData[0xB2..])| || NoticeRunes <= runeCap(|gbk(n.rawData[0xB2..])|)))) &&
      (r.Some? ==> r == Some(Notice(NoticeCut(gbk(n.rawData[0xB2..])))))
    ensures n.header.eventId != Request.EventDevice && n.header.eventId != Request.EventNotice ==>
      r == Some(Unrecognised(n.rawData))
  {
    if n.header.eventId == Request.EventDevice then Some(DeviceRegistered)
    else if n.header.eventId == Request.EventNotice then
      if |n.rawData| < 0xB2 then None
      else
        var text := gbk(n.rawData[0xB2..]);
        if |text| < NoticeRunes && runeCap(|text|) < NoticeRunes then None
        else Some(Notice(NoticeCut(text)))
    else Some(Unrecognised(n.rawData))
  }

  /** OnMarketInitInfo: a body shorter than the 107-byte record changes
      nothing; otherwise the server name, domain and both markets' dates and
      flags are taken from it and the counts are kept. */
  function OnMarketInitInfo(s: ClientState, n: ResponseNode): (r: ClientState)
    ensures r.table == s.table && r.stockBase == s.stockBase && r.stockBonus == s.stockBonus && r.out == s.out
    ensures |n.rawData| < MarketInitSize ==> r == s
    ensures MarketInitSize <= |n.rawData| ==>
      r.lastTrade.szCount == s.lastTrade.szCount && r.lastTrade.shCount == s.lastTrade.shCount &&
      r.lastTrade.szDate == ReadU32(n.rawData, 42) && r.lastTrade.szFlag == ReadU32(n.rawData, 46) &&
      r.lastTrade.shDate == ReadU32(n.rawData, 50) && r.lastTrade.shFlag == ReadU32(n.rawData, 54) &&
      r.lastTrade.serverName == n.rawData[68..89] && r.lastTrade.domain == n.rawData[89..107]
  {
    match DecodeMarketInit(n.rawData)
    case None => s
    case Some(m) =>
      MarketInitOffsets(n.rawData);
      s.(lastTrade := s.lastTrade.(serverName := m.serverName, domain := m.domainUrl,
                                   shDate := m.dateSH, shFlag := m.lastSHFlag,
                                   szDate := m.dateSZ, szFlag := m.lastSZFlag))
  }

  /** OnStockCount: the body's first u16 (0 when the body is shorter) is the
      count of the market the command names; other commands change nothing. */
  function OnStockCount(s: ClientState, n: ResponseNode): (r: ClientState)
    ensures r.table == s.table && r.stockBase == s.stockBase && r.stockBonus == s.stockBonus && r.out == s.out
    ensures var c := if |n.rawData| < 2 then 0 else ReadU16(n.rawData, 0);
      if n.header.cmdId == Request.CmdStockCountSZ then r.lastTrade == s.lastTrade.(szCount := c)
      else if n.header.cmdId == Request.CmdStockCountSH then r.lastTrade == s.lastTrade.(shCount := c)
      else r == s
  {
    var c: u16 := if |n.rawData| < 2 then 0 else ReadU16(n.rawData, 0);
    var lt := if n.header.cmdId == 0x6B then s.lastTrade.(szCount := c) else s.lastTrade;
    var lt' := if n.header.cmdId == 0x6C then lt.(shCount := c) else lt;
    s.(lastTrade := lt')
  }

  /** The market a stock-list reply is for: 1 for the Shanghai command. */
  function BaseMarket(cmdId: u16): int
  {
    if cmdId == Request.CmdStockBaseSH then 1 else 0
  }

  /** The list is complete once it holds as many rows as both markets
      reported; the sum is a uint32 sum. */
  predicate BaseComplete(lt: LastTradeModel, rows: nat)
  {
    rows >= Wrap32(lt.szCount + lt.shCount)
  }

  /** OnStockBase. A page declaring no records changes nothing (the empty
      list is refused by the dataframe loader); otherwise as many rows as it
      declares are appended, and once the list is complete the handler
      removes itself, saves the list and signals Finished. */
  function OnStockBase(s: ClientState, n: ResponseNode): (r: ClientState)
    ensures r.lastTrade == s.lastTrade && r.stockBonus == s.stockBonus
    ensures s.stockBase <= r.stockBase && |r.stockBase| == |s.stockBase| + Count16(n.rawData)
    ensures r.stockBase[|s.stockBase|..] == ParseStockBaseReply(n.rawData, BaseMarket(n.header.cmdId))
    ensures Count16(n.rawData) > 0 && BaseComplete(s.lastTrade, |r.stockBase|) ==>
      r.table == DelHandler(s.table, n.header.eventId) &&
      r.out == s.out + [StockListSaved(r.stockBase), Finished]
    ensures !(Count16(n.rawData) > 0 && BaseComplete(s.lastTrade, |r.stockBase|)) ==>
      r.table == s.table && r.out == s.out
  {
    var rows := ParseStockBaseReply(n.rawData, BaseMarket(n.header.cmdId));
    if |rows| == 0 then s
    else
      var all := s.stockBase + rows;
      if BaseComplete(s.lastTrade, |all|) then
        s.(stockBase := all, table := DelHandler(s.table, n.header.eventId),
           out := s.out + [StockListSaved(all), Finished])
      else s.(stockBase := all)
  }

  /** A well-formed page adds exactly its records, in order, tagged with the
      market its command names. */
  lemma OnStockBaseRows(s: ClientState, h: ResponseHeader, items: seq<StockBaseItem>, rest: seq<byte>)
    requires 0 < |items| < 0x1_0000
    requires forall i :: 0 <= i < |items| ==> items[i].Valid()
    ensures OnStockBase(s, ResponseNode(h, EncodeStockBaseReply(items) + rest)).stockBase ==
      s.stockBase + seq(|items|, i requires 0 <= i < |items| => BaseModel(items[i], BaseMarket(h.cmdId)))
  {
    ParseEncodeStockBaseReply(items, BaseMarket(h.cmdId), rest);
  }

  /** OnStockBonus. A reply without any record changes nothing (the empty
      list is refused by the dataframe loader); otherwise its records are
      appended, then a reply not tagged 0x1100 is acknowledged with its
      stock count and one tagged 0x1100 removes the handler, saves the
      records and signals Finished. */
  function OnStockBonus(s: ClientState, n: ResponseNode): (r: ClientState)
    ensures r.lastTrade == s.lastTrade && r.stockBase == s.stockBase
    ensures r.stockBonus == s.stockBonus + ParseBonusReply(n.rawData).1
    ensures r.stockBonus == s.stockBonus ==> r == s
    ensures r.stockBonus != s.stockBonus ==> Count16(n.rawData) > 0
    ensures r.stockBonus != s.stockBonus && n.header.index != StockBonusFinishedIdx ==>
      r.table == s.table && r.out == s.out + [BonusAck(Count16(n.rawData))]
    ensures r.stockBonus != s.stockBonus && n.header.index == StockBonusFinishedIdx ==>
      r.table == DelHandler(s.table, n.header.eventId) &&
      r.out == s.out + [BonusSaved(r.stockBonus), Finished]
  {
    var (count, rows) := ParseBonusReply(n.rawData);
    if |rows| == 0 then s
    else
      var all := s.stockBonus + rows;
      if n.header.index != StockBonusFinishedIdx then
        s.(stockBonus := all, out := s.out + [BonusAck(count)])
      else
        var t := DelHandler(s.table, n.header.eventId);
        DelHandlerIdempotent(s.table, n.header.eventId);
        s.(stockBonus := all, table := DelHandler(t, n.header.eventId),
           out := s.out + [BonusSaved(all), Finished])
  }

  /** A reply carrying these groups adds the records of all of them, as
      many as their sub-counts add up to. */
  lemma OnStockBonusRows(s: ClientState, h: ResponseHeader, gs: seq<BonusGroup>, rest: seq<byte>)
    requires |gs| < 0x1_0000
    requires forall i :: 0 <= i < |gs| ==> gs[i].Valid()
    ensures var r := OnStockBonus(s, ResponseNode(h, U16(|gs|) + EncodeBonusGroups(gs) + rest));
      r.stockBonus == s.stockBonus + GroupRows(gs) && |r.stockBonus| == |s.stockBonus| + TotalItems(gs)
  {
    ParseEncodeBonusReply(gs, rest);
  }

  /** The instrument row a history reply belongs to: the request was tagged
      with its 0-based position plus one, and the handler subtracts one in
      16-bit arithmetic. */
  function HistoryRow(index: u16): u16
  {
    Wrap16(index - 1)
  }

  lemma HistoryRowOfTag(pos: nat)
    requires pos + 1 < 0x1_0000
    ensures HistoryRow(Wrap16(pos + 1)) == pos
  {
  }

  /** OnStockHistory. Index 0xFFFF ends the download: the handler removes
      itself and signals Finished without reading the body. Otherwise the
      reply's bars are saved for the instrument at row `Index - 1`, as day
      bars for the day command and minute bars for any other. A row outside
      the list is an index panic that the handler recovers from, and a reply
      announcing no bars is refused; both save nothing. */
  function OnStockHistory(s: ClientState, n: ResponseNode): (r: ClientState)
    ensures r.lastTrade == s.lastTrade && r.stockBase == s.stockBase && r.stockBonus == s.stockBonus
    ensures n.header.index == HistoryDoneIdx ==>
      r.table == DelHandler(s.table, n.header.eventId) && r.out == s.out + [Finished]
    ensures n.header.index != HistoryDoneIdx ==> r.table == s.table && s.out <= r.out && |r.out| <= |s.out| + 1
    ensures n.header.index != HistoryDoneIdx && |r.out| > |s.out| ==>
      var out := r.out[|s.out|];
      var row := HistoryRow(n.header.index);
      row < |s.stockBase| &&
      (out.DaysSaved? || out.MinsSaved?) &&
      (out.DaysSaved? <==> n.header.cmdId == Request.CmdStockDay) &&
      out.market == s.stockBase[row].market && out.code == s.stockBase[row].code
  {
    if n.header.index == HistoryDoneIdx then
      s.(table := DelHandler(s.table, n.header.eventId), out := s.out + [Finished])
    else
      var row := HistoryRow(n.header.index);
      if row >= |s.stockBase| then s
      else
        var cs := ParseHistoryReply(n.rawData);
        if |cs| == 0 then s
        else
          var inst := s.stockBase[row];
          if n.header.cmdId == Request.CmdStockDay then
            s.(out := s.out + [DaysSaved(inst.market, inst.code, DayRows(cs))])
          else s.(out := s.out + [MinsSaved(inst.market, inst.code, MinsRows(cs))])
  }

  /** A reply announcing `length` bytes saves `length / 32` bars and nothing
      when that is zero; bar `i` is the body's `i`-th record after the
      six-byte head, or a repeat of the last whole one. */
  lemma OnStockHistoryCount(s: ClientState, n: ResponseNode)
    requires n.header.index != HistoryDoneIdx
    requires HistoryRow(n.header.index) < |s.stockBase|
    ensures var count := HistoryLength(n.rawData) / BarSize;
      var r := OnStockHistory(s, n);
      var inst := s.stockBase[HistoryRow(n.header.index)];
      (count == 0 ==> r == s) &&
      (count > 0 ==>
         6 <= |n.rawData| && |r.out| == |s.out| + 1 &&
         (n.header.cmdId == Request.CmdStockDay ==>
            r.out[|s.out|] == DaysSaved(inst.market, inst.code,
              seq(count, i requires 0 <= i < count =>
                DayModel(DecodeStockDay(LoopRecord(n.rawData[6..], BarSize, Zeros(BarSize), i)).value)))) &&
         (n.header.cmdId != Request.CmdStockDay ==>
            r.out[|s.out|] == MinsSaved(inst.market, inst.code,
              seq(count, i requires 0 <= i < count =>
                MinsModel(DecodeStockMins(LoopRecord(n.rawData[6..], BarSize, Zeros(BarSize), i)).value)))))
  {
  }

  /** A reply carrying these day bars saves exactly their rows, in order,
      under the instrument its index names. */
  lemma OnStockHistoryDays(s: ClientState, h: ResponseHeader, items: seq<StockDayItem>, tag: u16, rest: seq<byte>)
    requires h.index != HistoryDoneIdx && HistoryRow(h.index) < |s.stockBase|
    requires h.cmdId == Request.CmdStockDay
    requires 0 < |items| && BarSize * |items| < 0x1_0000_0000
    ensures var bars := seq(|items|, i requires 0 <= i < |items| => EncodeStockDay(items[i]));
      var inst := s.stockBase[HistoryRow(h.index)];
      OnStockHistory(s, ResponseNode(h, EncodeHistoryReply(tag, bars) + rest)).out ==
        s.out + [DaysSaved(inst.market, inst.code, seq(|items|, i requires 0 <= i < |items| => DayModel(items[i])))]
  {
    var bars := seq(|items|, i requires 0 <= i < |items| => EncodeStockDay(items[i]));
    ParseEncodeHistoryReply(tag, bars, rest);
    forall i | 0 <= i < |items|
      ensures DecodeStockDay(bars[i]) == Some(items[i])
    {
      DecodeEncodeStockDay(items[i], []);
      assert bars[i] + [] == bars[i];
    }
    assert DayRows(bars) == seq(|items|, i requires 0 <= i < |items| => DayModel(items[i]));
  }

  /** The same for minute bars. */
  lemma OnStockHistoryMins(s: ClientState, h: ResponseHeader, items: seq<StockMinsItem>, tag: u16, rest: seq<byte>)
    requires h.index != HistoryDoneIdx && HistoryRow(h.index) < |s.stockBase|
    requires h.cmdId != Request.CmdStockDay
    requires 0 < |items| && BarSize * |items| < 0x1_0000_0000
    ensures var bars := seq(|items|, i requires 0 <= i < |items| => EncodeStockMins(items[i]));
      var inst := s.stockBase[HistoryRow(h.index)];
      OnStockHistory(s, ResponseNode(h, EncodeHistoryReply(tag, bars) + rest)).out ==
        s.out + [MinsSaved(inst.market, inst.code, seq(|items|, i requires 0 <= i < |items| => MinsModel(items[i])))]
  {
    var bars := seq(|items|, i requires 0 <= i < |items| => EncodeStockMins(items[i]));
    ParseEncodeHistoryReply(tag, bars, rest);
    forall i | 0 <= i < |items|
      ensures DecodeStockMins(bars[i]) == Some(items[i])
    {
      DecodeEncodeStockMins(items[i], []);
      assert bars[i] + [] == bars[i];
    }
    assert MinsRows(bars) == seq(|items|, i requires 0 <= i < |items| => MinsModel(items[i]));
  }

  // ---------------------------------------------------------------------
  // One reply through the dispatcher

  /** The registered handler applied to one reply. */
  function Run(h: Handler, s: ClientState, n: ResponseNode): (r: ClientState)
    ensures h == Dispatcher.OnMarketInitInfo ==> r == OnMarketInitInfo(s, n)
    ensures h == Dispatcher.OnStockCount ==> r == OnStockCount(s, n)
    ensures h == Dispatcher.OnStockBase ==> r == OnStockBase(s, n)
    ensures h == Dispatcher.OnStockBonus ==> r == OnStockBonus(s, n)
    ensures h == Dispatcher.OnStockHistory ==> r == OnStockHistory(s, n)
  {
    match h
    case OnMarketInitInfo => OnMarketInitInfo(s, n)
    case OnStockCount => OnStockCount(s, n)
    case OnStockBase => OnStockBase(s, n)
    case OnStockBonus => OnStockBonus(s, n)
    case OnStockHistory => OnStockHistory(s, n)
  }

  /** HandleProc followed by the chosen handler. The table changes only when
      a handler removes its own registration. A panic of the unknown-packet
      handler is recorded as `Panicked`; the network layer that calls the
      dispatcher is not part of this model. */
  function Step(s: ClientState, n: ResponseNode, gbk: seq<byte> -> string, runeCap: nat -> nat): (r: ClientState)
    ensures n.header.eventId == 0 ==> r == s
    ensures r.table == s.table ||
      (HandleProc(s.table, n).Dispatch? && r.table == DelHandler(s.table, n.header.eventId))
    ensures HandleProc(s.table, n).Dispatch? ==> r == Run(HandleProc(s.table, n).handler, s, n)
    ensures HandleProc(s.table, n).Unknown? ==>
      r == s.(out := s.out + [if UnknownPkg(n, gbk, runeCap).Some? then UnknownPkg(n, gbk, runeCap).value else Panicked])
  {
    match HandleProc(s.table, n)
    case Dropped => s
    case Unknown =>
      (match UnknownPkg(n, gbk, runeCap)
       case None => s.(out := s.out + [Panicked])
       case Some(o) => s.(out := s.out + [o]))
    case Dispatch(h) => Run(h, s, n)
  }

  /** Day and minute replies share the history event, so whenever the
      history handler is registered both reach it, whatever their command. */
  lemma HistoryRepliesShareHandler(s: ClientState, n: ResponseNode, gbk: seq<byte> -> string, runeCap: nat -> nat)
    requires Request.EventHistory in s.table && s.table[Request.EventHistory] == Dispatcher.OnStockHistory
    requires n.header.eventId == Request.EventHistory
    ensures Step(s, n, gbk, runeCap) == OnStockHistory(s, n)
  {
  }
}

=== FILE: interceptor.dfy ===
/** Framing of the byte stream (packet/interceptor.go). `ReadPacket` cuts one
    reply out of the receive buffer: the 16-byte header is peeked, the body
    length is taken from its `bodyLength` field, and the frame is consumed only
    once header and body are both buffered. `BuildPacket` puts the request
    header in front of a payload. Socket reads are modelled as the bytes each
    read delivered; zlib inflation is the parameter `inflate`. */
module Interceptor {
  import opened Bytes
  import opened Response
  import Request

  /** Bit 0x10 of the header's compression byte marks a deflated body. */
  predicate Compressed(flag: byte)
  {
    (flag / 0x10) % 2 == 1
  }

  /** What the handlers receive for a frame: the body inflated iff the
      compression bit is set. */
  function Deliver(h: ResponseHeader, body: seq<byte>, inflate: seq<byte> -> seq<byte>): (n: ResponseNode)
    ensures n.header == h
    ensures !Compressed(h.isCompress) ==> n.rawData == body
    ensures Compressed(h.isCompress) ==> n.rawData == inflate(body)
  {
    ResponseNode(h, if Compressed(h.isCompress) then inflate(body) else body)
  }

  /** Outcome of one framing attempt: either no frame yet (and the buffer,
      with whatever was received, kept whole), or one frame and the bytes
      after it. */
  datatype Framed = NeedMore(buffer: seq<byte>) | Packet(node: ResponseNode, rest: seq<byte>)

  /** The length of the frame whose header starts the buffer. */
  function FrameLength(buf: seq<byte>): (r: nat)
    requires HeaderSize <= |buf|
    ensures r == HeaderSize + ReadU16(buf, 12)
    ensures HeaderSize <= r < HeaderSize + 0x1_0000
  {
    HeaderOffsets(buf);
    HeaderSize + DecodeHeader(buf).value.bodyLength
  }

  /** One framing attempt on what is already buffered. */
  function Deframe(buf: seq<byte>, inflate: seq<byte> -> seq<byte>): (r: Framed)
    ensures r.NeedMore? <==> |buf| < HeaderSize || |buf| < FrameLength(buf)
    ensures r.NeedMore? ==> r.buffer == buf
    ensures r.Packet? ==> |r.rest| + HeaderSize <= |buf|
    ensures r.Packet? ==>
      var body := buf[HeaderSize..FrameLength(buf)];
      |body| == r.node.header.bodyLength &&
      buf == EncodeHeader(r.node.header) + body + r.rest &&
      r.node == Deliver(r.node.header, body, inflate)
  {
    if |buf| < HeaderSize then NeedMore(buf)
    else
      var h := DecodeHeader(buf).value;
      var end := HeaderSize + h.bodyLength;
      if |buf| < end then NeedMore(buf)
      else
        var body := buf[HeaderSize..end];
        EncodeDecodeHeader(buf);
        assert buf == buf[..HeaderSize] + body + buf[end..];
        Packet(Deliver(h, body, inflate), buf[end..])
  }

  /** The buffer after the reads ReadPacket issues: `first` is appended
      when less than a header is buffered, and `second` when, after that, a
      whole header but not the whole frame is buffered. */
  function Received(buf: seq<byte>, first: seq<byte>, second: seq<byte>): (b: seq<byte>)
    ensures IsPrefix(buf, b) && |b| <= |buf| + |first| + |second|
  {
    var b := if |buf| < HeaderSize then buf + first else buf;
    if HeaderSize <= |b| && |b| < FrameLength(b) then b + second else b
  }

  /** ReadPacket. `first` is what the read issued when less than a header is
      buffered delivers, `second` what the read issued when the body is
      incomplete delivers; an empty read, or a failed one, delivers nothing.
      Each read happens at most once per call, and the frame is cut from
      what the reads leave buffered. */
  function ReadPacket(buf: seq<byte>, first: seq<byte>, second: seq<byte>,
                      inflate: seq<byte> -> seq<byte>): (r: Framed)
    ensures r == Deframe(Received(buf, first, second), inflate)
    ensures r.NeedMore? ==> IsPrefix(buf, r.buffer) && |r.buffer| <= |buf| + |first| + |second|
    ensures HeaderSize <= |buf| ==> r == ReadPacketWith(buf, second, inflate)
  {
    var b := if |buf| < HeaderSize then buf + first else buf;
    if |b| < HeaderSize then NeedMore(b)
    else ReadPacketWith(b, second, inflate)
  }

  /** The part of ReadPacket after the header has been peeked. */
  function ReadPacketWith(buf: seq<byte>, second: seq<byte>, inflate: seq<byte> -> seq<byte>): (r: Framed)
    requires HeaderSize <= |buf|
    ensures r.NeedMore? ==> IsPrefix(buf, r.buffer) && |r.buffer| <= |buf| + |second|
    ensures r == Deframe(if |buf| < FrameLength(buf) then buf + second else buf, inflate)
  {
    var end := FrameLength(buf);
    var b := if |buf| < end then buf + second else buf;
    assert b[..HeaderSize] == buf[..HeaderSize];
    HeaderPeek(buf, b);
    if |b| < end then NeedMore(b) else Deframe(b, inflate)
  }

  /** The header read from a buffer depends only on its first 16 bytes. */
  lemma HeaderPeek(a: seq<byte>, b: seq<byte>)
    requires HeaderSize <= |a| && HeaderSize <= |b| && a[..HeaderSize] == b[..HeaderSize]
    ensures DecodeHeader(a) == DecodeHeader(b)
  {
    EncodeDecodeHeader(a);
    EncodeDecodeHeader(b);
    var ha := DecodeHeader(a).value;
    var hb := DecodeHeader(b).value;
    DecodeEncodeHeader(ha, []);
    DecodeEncodeHeader(hb, []);
    assert EncodeHeader(ha) + [] == EncodeHeader(hb) + [];
  }

  /** A buffer already holding a whole frame is framed without reading. */
  lemma ReadPacketBuffered(buf: seq<byte>, first: seq<byte>, second: seq<byte>,
                           inflate: seq<byte> -> seq<byte>)
    requires Deframe(buf, inflate).Packet?
    ensures ReadPacket(buf, first, second, inflate) == Deframe(buf, inflate)
  {
  }

  /** With nothing more arriving, an incomplete buffer yields no frame and is
      kept exactly as it was. */
  lemma ReadPacketStarved(buf: seq<byte>, inflate: seq<byte> -> seq<byte>)
    requires Deframe(buf, inflate).NeedMore?
    ensures ReadPacket(buf, [], [], inflate) == NeedMore(buf)
  {
    assert buf + [] == buf;
  }

  // ---------------------------------------------------------------------
  // Frames on the wire

  /** A reply as the server sends it: header and raw body, with the header's
      length field matching the body. */
  datatype Frame = Frame(header: ResponseHeader, body: seq<byte>)
  {
    predicate Valid()
    {
      header.bodyLength == |body|
    }
  }

  function EncodeFrame(f: Frame): (r: seq<byte>)
    requires f.Valid()
    ensures |r| == HeaderSize + |f.body|
  {
    EncodeHeader(f.header) + f.body
  }

  /** Framing what was sent delivers it and leaves what follows. */
  lemma DeframeEncodeFrame(f: Frame, rest: seq<byte>, inflate: seq<byte> -> seq<byte>)
    requires f.Valid()
    ensures Deframe(EncodeFrame(f) + rest, inflate) == Packet(Deliver(f.header, f.body, inflate), rest)
  {
    var buf := EncodeFrame(f) + rest;
    assert buf == EncodeHeader(f.header) + (f.body + rest);
    DecodeEncodeHeader(f.header, f.body + rest);
    assert buf[HeaderSize..HeaderSize + |f.body|] == f.body;
    assert buf[HeaderSize + |f.body|..] == rest;
  }

  function EncodeFrames(fs: seq<Frame>): (r: seq<byte>)
    requires forall i :: 0 <= i < |fs| ==> fs[i].Valid()
  {
    if |fs| == 0 then [] else EncodeFrame(fs[0]) + EncodeFrames(fs[1..])
  }

  /** Calling ReadPacket until it asks for more: the frames found, in order,
      and the bytes left buffered. */
  function DeframeAll(buf: seq<byte>, inflate: seq<byte> -> seq<byte>): (r: (seq<ResponseNode>, seq<byte>))
    ensures Deframe(r.1, inflate).NeedMore?
    decreases |buf|
  {
    match Deframe(buf, inflate)
    case NeedMore(_) => ([], buf)
    case Packet(n, rest) =>
      var (ns, left) := DeframeAll(rest, inflate);
      ([n] + ns, left)
  }

  lemma DeframeAllCons(f: Frame, rest: seq<byte>, inflate: seq<byte> -> seq<byte>)
    requires f.Valid()
    ensures DeframeAll(EncodeFrame(f) + rest, inflate) ==
      ([Deliver(f.header, f.body, inflate)] + DeframeAll(rest, inflate).0, DeframeAll(rest, inflate).1)
  {
    DeframeEncodeFrame(f, rest, inflate);
  }

  /** What the handlers receive for a run of frames. */
  function Delivered(fs: seq<Frame>, inflate: seq<byte> -> seq<byte>): (r: seq<ResponseNode>)
    ensures |r| == |fs|
    ensures forall i :: 0 <= i < |fs| ==> r[i] == Deliver(fs[i].header, fs[i].body, inflate)
  {
    if |fs| == 0 then [] else [Deliver(fs[0].header, fs[0].body, inflate)] + Delivered(fs[1..], inflate)
  }

  /** Concatenated frames come out one by one, in order, none lost or
      repeated, and an incomplete tail stays buffered. */
  lemma {:induction false} DeframeAllEncodeFrames(fs: seq<Frame>, tail: seq<byte>,
                                                  inflate: seq<byte> -> seq<byte>)
    requires forall i :: 0 <= i < |fs| ==> fs[i].Valid()
    requires Deframe(tail, inflate).NeedMore?
    ensures DeframeAll(EncodeFrames(fs) + tail, inflate) == (Delivered(fs, inflate), tail)
  {
    if |fs| == 0 {
      assert EncodeFrames(fs) + tail == tail;
    } else {
      var rest := EncodeFrames(fs[1..]) + tail;
      assert EncodeFrames(fs) + tail == EncodeFrame(fs[0]) + rest;
      DeframeAllCons(fs[0], rest, inflate);
      DeframeAllEncodeFrames(fs[1..], tail, inflate);
    }
  }

  // ---------------------------------------------------------------------
  // Requests on the wire

  /** BuildPacket; `random` is the index drawn when the request's is 0. The
      length passed to the header is the payload length cut to 16 bits. */
  function BuildPacket(n: Request.RequestNode, random: u16): (r: seq<byte>)
    requires random < 0x7fff
    ensures |r| == Request.HeaderSize + |n.rawData|
  {
    Request.GenerateHeader(n.eventId, n.cmdId, Wrap16(|n.rawData|), n.isRaw, n.index, random) + n.rawData
  }

  /** A request as the server reads it back. */
  datatype Parsed = Parsed(node: Request.RequestNode, rest: seq<byte>)

  /** The server's view of the request header: the flag byte must be 0x0C
      and the length field counts the payload plus two. */
  function ParseRequest(b: seq<byte>): (r: Option<Parsed>)
    ensures r.Some? ==> |r.value.node.rawData| + Request.HeaderSize + |r.value.rest| == |b|
  {
    if |b| < Request.HeaderSize || b[0] != Request.HeaderFlag then None
    else
      var len := ReadU16(b, 6);
      if len < 2 || |b| < Request.HeaderSize + len - 2 then None
      else
        var end := Request.HeaderSize + len - 2;
        Some(Parsed(Request.RequestNode(ReadU16(b, 10), ReadU16(b, 3), b[5], ReadU16(b, 1),
                                        b[Request.HeaderSize..end]), b[end..]))
  }

  lemma ReadU16Prefix(h: seq<byte>, t: seq<byte>, off: nat)
    requires off + 2 <= |h|
    ensures ReadU16(h + t, off) == ReadU16(h, off)
  {
    assert (h + t)[off] == h[off] && (h + t)[off + 1] == h[off + 1];
  }

  /** Reading back a built request gives the request, with the drawn index
      in place of a zero one, as long as the payload length fits the 16-bit
      length field. */
  lemma ParseBuildPacket(n: Request.RequestNode, random: u16, rest: seq<byte>)
    requires random < 0x7fff
    requires |n.rawData| + 2 < 0x1_0000
    ensures ParseRequest(BuildPacket(n, random) + rest) ==
      Some(Parsed(n.(index := if n.index == 0 then random else n.index), rest))
  {
    var size := |n.rawData|;
    assert Wrap16(Wrap16(size) + 2) == size + 2;
    var h := Request.GenerateHeader(n.eventId, n.cmdId, Wrap16(size), n.isRaw, n.index, random);
    var t := n.rawData + rest;
    var b := BuildPacket(n, random) + rest;
    assert b == h + t;
    ReadU16Prefix(h, t, 1);
    ReadU16Prefix(h, t, 3);
    ReadU16Prefix(h, t, 6);
    ReadU16Prefix(h, t, 10);
    assert ReadU16(b, 6) == size + 2;
    assert b[0] == h[0] && b[5] == h[5];
    assert b[Request.HeaderSize..Request.HeaderSize + size] == n.rawData;
    assert b[Request.HeaderSize + |n.rawData|..] == rest;
  }
}

=== FILE: layout.dfy ===
/** Go's `encoding/binary` applied to a struct of fixed-size fields, little
    endian: the struct is read in one piece (a short buffer is an error and
    nothing is decoded), then each field is taken in declaration order with
    no padding. Every reply record of the protocol, and most request
    payloads, are such structs. */
module Layout {
  import opened Bytes

  /** A field: an unsigned integer of 1, 2 or 4 bytes, or an `[n]byte` array. */
  datatype Field = F8 | F16 | F32 | Arr(n: nat)

  /** The fields of a struct in declaration order. */
  datatype Fields = End | Then(head: Field, tail: Fields)

  /** A decoded field value. */
  datatype Val = N(n: int) | A(bytes: seq<byte>)

  function Width(f: Field): nat
  {
    match f
    case F8 => 1
    case F16 => 2
    case F32 => 4
    case Arr(n) => n
  }

  function Count(l: Fields): nat
  {
    match l
    case End => 0
    case Then(_, t) => 1 + Count(t)
  }

  /** Total size of a struct: `binary.Size`. */
  function Size(l: Fields): nat
  {
    match l
    case End => 0
    case Then(f, t) => Width(f) + Size(t)
  }

  /** Field `i` of a struct. */
  function At(l: Fields, i: nat): Field
    requires i < Count(l)
  {
    if i == 0 then l.head else At(l.tail, i - 1)
  }

  /** Byte offset of field `i`. */
  function Offset(l: Fields, i: nat): nat
    requires i <= Count(l)
  {
    if i == 0 then 0 else Width(l.head) + Offset(l.tail, i - 1)
  }

  predicate Fits(f: Field, v: Val)
  {
    match f
    case F8 => v.N? && 0 <= v.n < 0x100
    case F16 => v.N? && 0 <= v.n < 0x1_0000
    case F32 => v.N? && 0 <= v.n < 0x1_0000_0000
    case Arr(n) => v.A? && |v.bytes| == n
  }

  predicate WellTyped(l: Fields, vs: seq<Val>)
  {
    |vs| == Count(l) && forall i :: 0 <= i < |vs| ==> Fits(At(l, i), vs[i])
  }

  /** The values after the first fit the fields after the first. */
  lemma WellTypedTail(l: Fields, vs: seq<Val>)
    requires l.Then? && WellTyped(l, vs)
    ensures Fits(l.head, vs[0]) && WellTyped(l.tail, vs[1..])
  {
    assert At(l, 0) == l.head;
    forall i | 0 <= i < |vs| - 1
      ensures Fits(At(l.tail, i), vs[1..][i])
    {
      assert At(l, i + 1) == At(l.tail, i);
    }
  }

  function ReadField(f: Field, b: seq<byte>, off: nat): (v: Val)
    requires off + Width(f) <= |b|
    ensures Fits(f, v)
  {
    match f
    case F8 => N(b[off])
    case F16 => N(ReadU16(b, off))
    case F32 => N(ReadU32(b, off))
    case Arr(n) => A(b[off..off + n])
  }

  function WriteField(f: Field, v: Val): (r: seq<byte>)
    requires Fits(f, v)
    ensures |r| == Width(f)
  {
    match f
    case F8 => [v.n]
    case F16 => U16(v.n)
    case F32 => U32(v.n)
    case Arr(_) => v.bytes
  }

  function DecodeFields(l: Fields, b: seq<byte>): (vs: seq<Val>)
    requires Size(l) <= |b|
    ensures WellTyped(l, vs) && |vs| == Count(l)
  {
    match l
    case End => []
    case Then(f, t) =>
      var rest := DecodeFields(t, b[Width(f)..]);
      var vs := [ReadField(f, b, 0)] + rest;
      assert forall i :: 1 <= i < |vs| ==> vs[i] == rest[i - 1] && At(l, i) == At(t, i - 1);
      vs
  }

  function EncodeFields(l: Fields, vs: seq<Val>): (r: seq<byte>)
    requires WellTyped(l, vs)
    ensures |r| == Size(l)
  {
    match l
    case End => []
    case Then(f, t) =>
      WellTypedTail(l, vs);
      WriteField(f, vs[0]) + EncodeFields(t, vs[1..])
  }

  /** `binary.Read` of a struct: fails on a buffer shorter than the struct. */
  function Read(l: Fields, b: seq<byte>): (r: Option<seq<Val>>)
    ensures r.Some? <==> Size(l) <= |b|
    ensures r.Some? ==> WellTyped(l, r.value)
  {
    if |b| < Size(l) then None else Some(DecodeFields(l, b))
  }

  /** `binary.Write` of a struct. */
  function Write(l: Fields, vs: seq<Val>): (r: seq<byte>)
    requires WellTyped(l, vs)
    ensures |r| == Size(l)
  {
    EncodeFields(l, vs)
  }

  // ---------------------------------------------------------------------
  // Field access, offsets and round trips

  lemma {:induction false} OffsetBound(l: Fields, i: nat)
    requires i < Count(l)
    ensures Offset(l, i) + Width(At(l, i)) <= Size(l)
  {
    if i > 0 {
      OffsetBound(l.tail, i - 1);
    }
  }

  lemma ReadFieldShift(f: Field, b: seq<byte>, w: nat, off: nat)
    requires w + off + Width(f) <= |b|
    ensures ReadField(f, b[w..], off) == ReadField(f, b, w + off)
  {
    match f
    case Arr(n) =>
      assert b[w..][off..off + n] == b[w + off..w + off + n];
    case _ =>
  }

  /** Field `i` of a decoded struct is the field read at its offset. */
  lemma {:induction false} DecodeFieldsAt(l: Fields, b: seq<byte>, i: nat)
    requires Size(l) <= |b|
    requires i < Count(l)
    ensures Offset(l, i) + Width(At(l, i)) <= |b|
    ensures DecodeFields(l, b)[i] == ReadField(At(l, i), b, Offset(l, i))
  {
    OffsetBound(l, i);
    if i > 0 {
      var w := Width(l.head);
      DecodeFieldsCons(l, b, i);
      DecodeFieldsAt(l.tail, b[w..], i - 1);
      ReadFieldShift(At(l.tail, i - 1), b, w, Offset(l.tail, i - 1));
    }
  }

  /** Field `i > 0` of a decoded struct is field `i - 1` of its tail. */
  lemma DecodeFieldsCons(l: Fields, b: seq<byte>, i: nat)
    requires Size(l) <= |b| && 0 < i < Count(l)
    ensures Size(l.tail) <= |b[Width(l.head)..]|
    ensures DecodeFields(l, b)[i] == DecodeFields(l.tail, b[Width(l.head)..])[i - 1]
    ensures At(l, i) == At(l.tail, i - 1)
    ensures Offset(l, i) == Width(l.head) + Offset(l.tail, i - 1)
  {
  }

  /** `DecodeFieldsAt` for a field whose kind and offset the caller knows. */
  lemma DecodedField(l: Fields, b: seq<byte>, i: nat, f: Field, off: nat)
    requires Size(l) <= |b| && i < Count(l) && At(l, i) == f && Offset(l, i) == off
    ensures off + Width(f) <= |b|
    ensures DecodeFields(l, b)[i] == ReadField(f, b, off)
  {
    DecodeFieldsAt(l, b, i);
  }

  lemma ReadWriteField(f: Field, v: Val, pre: seq<byte>, post: seq<byte>)
    requires Fits(f, v)
    ensures ReadField(f, pre + WriteField(f, v) + post, |pre|) == v
  {
    var s := pre + WriteField(f, v) + post;
    match f
    case F8 =>
    case F16 => ReadU16OfU16(pre, v.n, post);
    case F32 => ReadU32OfU32(pre, v.n, post);
    case Arr(n) => assert s[|pre|..|pre| + n] == v.bytes;
  }

  lemma WriteReadField(f: Field, b: seq<byte>, off: nat)
    requires off + Width(f) <= |b|
    ensures WriteField(f, ReadField(f, b, off)) == b[off..off + Width(f)]
  {
    match f
    case F8 =>
    case F16 => U16OfReadU16(b, off);
    case F32 => U32OfReadU32(b, off);
    case Arr(n) =>
  }

  /** Decoding what was encoded gives the values back, whatever follows. */
  lemma {:induction false} DecodeEncode(l: Fields, vs: seq<Val>, rest: seq<byte>)
    requires WellTyped(l, vs)
    ensures Size(l) <= |EncodeFields(l, vs) + rest|
    ensures DecodeFields(l, EncodeFields(l, vs) + rest) == vs
  {
    match l
    case End =>
    case Then(f, t) =>
      WellTypedTail(l, vs);
      var head := WriteField(f, vs[0]);
      var tail := EncodeFields(t, vs[1..]);
      var b := EncodeFields(l, vs) + rest;
      assert b == [] + head + (tail + rest);
      ReadWriteField(f, vs[0], [], tail + rest);
      assert b[Width(f)..] == tail + rest;
      DecodeEncode(t, vs[1..], rest);
  }

  /** Encoding what was decoded gives back the bytes the struct occupied. */
  lemma {:induction false} EncodeDecode(l: Fields, b: seq<byte>)
    requires Size(l) <= |b|
    ensures EncodeFields(l, DecodeFields(l, b)) == b[..Size(l)]
  {
    match l
    case End =>
    case Then(f, t) =>
      var w := Width(f);
      var vs := DecodeFields(l, b);
      WriteReadField(f, b, 0);
      EncodeDecode(t, b[w..]);
      assert vs[1..] == DecodeFields(t, b[w..]);
      assert b[..Size(l)] == b[..w] + b[w..][..Size(t)];
  }

  lemma ReadWrite(l: Fields, vs: seq<Val>, rest: seq<byte>)
    requires WellTyped(l, vs)
    ensures Read(l, Write(l, vs) + rest) == Some(vs)
  {
    DecodeEncode(l, vs, rest);
  }

  /** Field `i` of a written struct reads back at its offset. */
  lemma WriteFieldAt(l: Fields, vs: seq<Val>, i: nat)
    requires WellTyped(l, vs) && i < Count(l)
    ensures Offset(l, i) + Width(At(l, i)) <= Size(l)
    ensures ReadField(At(l, i), Write(l, vs), Offset(l, i)) == vs[i]
  {
    var b := Write(l, vs);
    DecodeEncode(l, vs, []);
    assert b + [] == b;
    DecodeFieldsAt(l, b, i);
  }

  /** `WriteFieldAt` for a field whose kind and offset the caller knows. */
  lemma WrittenField(l: Fields, vs: seq<Val>, i: nat, f: Field, off: nat)
    requires WellTyped(l, vs) && i < Count(l) && At(l, i) == f && Offset(l, i) == off
    ensures off + Width(f) <= Size(l)
    ensures ReadField(f, Write(l, vs), off) == vs[i]
  {
    WriteFieldAt(l, vs, i);
  }

  lemma WriteRead(l: Fields, b: seq<byte>)
    requires Size(l) <= |b|
    ensures Read(l, b).Some? && Write(l, Read(l, b).value) == b[..Size(l)]
  {
    EncodeDecode(l, b);
  }
}

=== FILE: models.dfy ===
/** The client's record shapes (models.go). Prices that the source turns into
    floats are kept as the raw integers (day bars, scaled by 100) or raw
    IEEE-754 bit patterns (32-bit float fields) they are decoded from; text is
    kept as the undecoded vendor bytes. */
module Models {
  import opened Bytes

  /** What the market-init and stock-count replies tell the client. */
  datatype LastTradeModel = LastTradeModel(
    serverName: seq<byte>,
    domain: seq<byte>,
    szDate: u32,
    szFlag: u32,
    szCount: u32,
    shDate: u32,
    shFlag: u32,
    shCount: u32)

  const NoLastTrade := LastTradeModel([], [], 0, 0, 0, 0, 0, 0)

  /** One row of the instrument master list. */
  datatype StockBaseModel = StockBaseModel(
    code: seq<byte>,
    name: seq<byte>,
    market: int,
    unknown1: int,
    unknown2: int,
    unknown3: int,
    priceBits: u32,
    bonus1: int,
    bonus2: int)

  /** One corporate-action record. */
  datatype StockBonusModel = StockBonusModel(
    code: seq<byte>,
    date: int,
    market: int,
    kind: int,
    moneyBits: u32,
    priceBits: u32,
    countBits: u32,
    rateBits: u32)

  /** One daily bar; prices are in hundredths. */
  datatype StockDayModel = StockDayModel(
    date: int,
    open: int,
    low: int,
    high: int,
    close: int,
    volume: int,
    amount: int)

  /** One intraday bar: yyyymmdd date, hour and minute, raw float prices. */
  datatype StockMinsModel = StockMinsModel(
    date: int,
    hour: int,
    minute: int,
    openBits: u32,
    lowBits: u32,
    highBits: u32,
    closeBits: u32,
    volume: int,
    amountBits: u32)
}

=== FILE: request.dfy ===
/** Outbound requests (packet/request.go): the 12-byte request header and the
    factories that build each command's payload. All integers are
    little-endian. */
module Request {
  import opened Bytes
  import opened Layout

  const HeaderFlag: byte := 0x0C
  const HeaderSize: nat := 12

  // Event ids: the field the server (and the dispatcher) routes on.
  const EventDevice: u16 := 0x000B
  const EventMarketInitInfo: u16 := 0x000D
  const EventStockBonus: u16 := 0x000F
  const EventStockCount: u16 := 0x044E
  const EventStockBase: u16 := 0x0450
  const EventHistory: u16 := 0x0FCD
  const EventNotice: u16 := 0x0FDB

  // Command ids: the sub-kind of a request within its event.
  const CmdStockCountSZ: u16 := 0x006B
  const CmdStockCountSH: u16 := 0x006C
  const CmdStockBaseSZ: u16 := 0x006D
  const CmdStockBaseSH: u16 := 0x006E
  const CmdStockBonus: u16 := 0x0076
  const CmdDevice: u16 := 0x007B
  const CmdStockDay: u16 := 0x0087
  const CmdStockMins: u16 := 0x008D
  const CmdMarketInitInfo: u16 := 0x0094
  const CmdNotice: u16 := 0x0099

  /** A request before framing. An `index` of 0 asks the framer for a random
      sequence index. */
  datatype RequestNode = RequestNode(eventId: u16, cmdId: u16, isRaw: byte, index: u16, rawData: seq<byte>)

  /** The request header struct: flag, index, command, raw flag, the body
      length twice, event. */
  const HeaderLayout: Fields :=
    Then(F8, Then(F16, Then(F16, Then(F8, Then(F16, Then(F16, Then(F16, End)))))))

  /** Field kinds and offsets of the header layout. */
  lemma HeaderLayoutFacts()
    ensures Size(HeaderLayout) == HeaderSize
    ensures At(HeaderLayout, 0) == F8 && Offset(HeaderLayout, 0) == 0
    ensures At(HeaderLayout, 1) == F16 && Offset(HeaderLayout, 1) == 1
    ensures At(HeaderLayout, 2) == F16 && Offset(HeaderLayout, 2) == 3
    ensures At(HeaderLayout, 3) == F8 && Offset(HeaderLayout, 3) == 5
    ensures At(HeaderLayout, 4) == F16 && Offset(HeaderLayout, 4) == 6
    ensures At(HeaderLayout, 5) == F16 && Offset(HeaderLayout, 5) == 8
    ensures At(HeaderLayout, 6) == F16 && Offset(HeaderLayout, 6) == 10
  {
  }

  /** Where each header field lands in the written bytes. */
  lemma HeaderWritten(vs: seq<Val>)
    requires WellTyped(HeaderLayout, vs)
    ensures var w := Write(HeaderLayout, vs);
      && |w| == HeaderSize
      && ReadField(F8, w, 0) == vs[0] && ReadField(F16, w, 1) == vs[1]
      && ReadField(F16, w, 3) == vs[2] && ReadField(F8, w, 5) == vs[3]
      && ReadField(F16, w, 6) == vs[4] && ReadField(F16, w, 8) == vs[5]
      && ReadField(F16, w, 10) == vs[6]
  {
    HeaderLayoutFacts();
    WrittenField(HeaderLayout, vs, 0, F8, 0);
    WrittenField(HeaderLayout, vs, 1, F16, 1);
    WrittenField(HeaderLayout, vs, 2, F16, 3);
    WrittenField(HeaderLayout, vs, 3, F8, 5);
    WrittenField(HeaderLayout, vs, 4, F16, 6);
    WrittenField(HeaderLayout, vs, 5, F16, 8);
    WrittenField(HeaderLayout, vs, 6, F16, 10);
  }

  /** GenerateHeader. The source draws a replacement for index 0 from
      [0, 0x7fff); `random` is that draw. */
  function GenerateHeader(eventId: u16, cmdId: u16, pkgLen: u16, isRaw: byte, idx: u16, random: u16): (r: seq<byte>)
    requires random < 0x7fff
    ensures |r| == HeaderSize
    ensures r[0] == HeaderFlag
    ensures idx != 0 ==> ReadU16(r, 1) == idx
    ensures idx == 0 ==> ReadU16(r, 1) == random < 0x7fff
    ensures ReadU16(r, 3) == cmdId
    ensures r[5] == isRaw
    ensures ReadU16(r, 6) == Wrap16(pkgLen + 2)
    ensures ReadU16(r, 8) == ReadU16(r, 6)
    ensures ReadU16(r, 10) == eventId
  {
    var index := if idx == 0 then random else idx;
    var len := Wrap16(pkgLen + 2);
    var vs := [N(HeaderFlag), N(index), N(cmdId), N(isRaw), N(len), N(len), N(eventId)];
    HeaderWritten(vs);
    Write(HeaderLayout, vs)
  }

  // ---------------------------------------------------------------------
  // Factories

  /** The middle of the device record: a constant word, a zero word, the two
      float32 version numbers (as raw bits) and another zero word. */
  function VersionWords(mainVersionBits: u32, coreVersionBits: u32): (r: seq<byte>)
    ensures |r| == 20
    ensures ReadU32(r, 0) == 0x01040000 && ReadU32(r, 4) == 0
    ensures ReadU32(r, 8) == mainVersionBits && ReadU32(r, 12) == coreVersionBits
    ensures ReadU32(r, 16) == 0
  {
    var ws := [0x01040000, 0, mainVersionBits, coreVersionBits, 0];
    ReadWords(ws, 0);
    ReadWords(ws, 1);
    ReadWords(ws, 2);
    ReadWords(ws, 3);
    ReadWords(ws, 4);
    Words(ws)
  }

  /** GenerateDeviceNode: the 278-byte plaintext device record before the
      block cipher; `mac` is the randomly generated address text. */
  function DeviceInfo(mainVersionBits: u32, coreVersionBits: u32, mac: seq<byte>): (r: seq<byte>)
    ensures |r| == 278
    ensures forall i :: 0 <= i < 110 ==> r[i] == 0
    ensures r[110..130] == VersionWords(mainVersionBits, coreVersionBits)
    ensures forall i :: 130 <= i < 177 ==> r[i] == 0
    ensures r[177..189] == CopyInto(mac, 12)
    ensures forall i :: 189 <= i < 278 ==> r[i] == 0
  {
    var words := VersionWords(mainVersionBits, coreVersionBits);
    var r := Zeros(110) + words + Zeros(47) + CopyInto(mac, 12) + Zeros(89);
    assert r[110..130] == words;
    assert r[177..189] == CopyInto(mac, 12);
    r
  }

  /** GenerateDeviceNode; `encrypt` stands for the block cipher. */
  function GenerateDeviceNode(mainVersionBits: u32, coreVersionBits: u32, mac: seq<byte>,
                              encrypt: seq<byte> -> seq<byte>): (r: RequestNode)
    ensures r.eventId == EventDevice && r.cmdId == CmdDevice && r.isRaw == 0 && r.index == 0
    ensures r.rawData == encrypt(DeviceInfo(mainVersionBits, coreVersionBits, mac))
  {
    RequestNode(EventDevice, CmdDevice, 0, 0, encrypt(DeviceInfo(mainVersionBits, coreVersionBits, mac)))
  }

  function GenerateMarketInitInfo(): (r: RequestNode)
    ensures r.eventId == EventMarketInitInfo && r.cmdId == CmdMarketInitInfo
    ensures r.isRaw == 1 && r.index == 0 && r.rawData == [0x01]
  {
    RequestNode(EventMarketInitInfo, CmdMarketInitInfo, 1, 0, [0x01])
  }

  /** GenerateMarketStockCount; `today` is the yyyymmdd integer of the
      current date, which the source reads from the clock. */
  function GenerateMarketStockCount(market: int, today: int): (r: RequestNode)
    ensures r.eventId == EventStockCount && r.isRaw == 1 && r.index == 0
    ensures r.cmdId == (if market == 0 then CmdStockCountSZ else CmdStockCountSH)
    ensures |r.rawData| == 6
    ensures ReadU16(r.rawData, 0) == Wrap16(market)
    ensures ReadU32(r.rawData, 2) == Wrap32(today)
  {
    var cmd := if market == 0 then CmdStockCountSZ else CmdStockCountSH;
    var vs := [N(Wrap16(market)), N(Wrap32(today))];
    var payload := Write(Then(F16, Then(F32, End)), vs);
    WrittenField(Then(F16, Then(F32, End)), vs, 0, F16, 0);
    WrittenField(Then(F16, Then(F32, End)), vs, 1, F32, 2);
    RequestNode(EventStockCount, cmd, 1, 0, payload)
  }

  /** The fixed notice request: "tdxlevel2" followed by vendor constants. */
  const NoticePayload: seq<byte> :=
    [0x74, 0x64, 0x78, 0x6C, 0x65, 0x76, 0x65, 0x6C, 0x32, 0x00, 0x00, 0xAE, 0x47, 0xE9, 0x40,
     0x04, 0x00, 0x00, 0x00, 0x00, 0x00, 0x00, 0x00, 0x00, 0x00, 0x00, 0x00, 0x00, 0x00, 0x03]

  function GenerateNotice(): (r: RequestNode)
    ensures r.eventId == EventNotice && r.cmdId == CmdNotice && r.isRaw == 1 && r.index == 0
    ensures |r.rawData| == 30 && r.rawData[..9] == Ascii("tdxlevel2")
  {
    RequestNode(EventNotice, CmdNotice, 1, 0, NoticePayload)
  }

  function GenerateMarketStockBase(market: u16, offset: u16): (r: RequestNode)
    ensures r.eventId == EventStockBase && r.isRaw == 1 && r.index == 0
    ensures r.cmdId == (if market == 0 then CmdStockBaseSZ else CmdStockBaseSH)
    ensures |r.rawData| == 4
    ensures ReadU16(r.rawData, 0) == market && ReadU16(r.rawData, 2) == offset
  {
    var cmd := if market == 0 then CmdStockBaseSZ else CmdStockBaseSH;
    var vs := [N(market), N(offset)];
    var payload := Write(Then(F16, Then(F16, End)), vs);
    WrittenField(Then(F16, Then(F16, End)), vs, 0, F16, 0);
    WrittenField(Then(F16, Then(F16, End)), vs, 1, F16, 2);
    RequestNode(EventStockBase, cmd, 1, 0, payload)
  }

  type Code = s: seq<byte> | |s| == 6 witness [0, 0, 0, 0, 0, 0]

  /** One symbol of a bonus batch: market byte and 6-byte code. */
  datatype StockBonus = StockBonus(market: byte, code: Code)

  function EncodeSymbols(stocks: seq<StockBonus>): (r: seq<byte>)
    ensures |r| == 7 * |stocks|
  {
    if |stocks| == 0 then [] else [stocks[0].market] + stocks[0].code + EncodeSymbols(stocks[1..])
  }

  /** Symbol `i` sits at bytes 7i..7i+7 of the encoded list. */
  lemma {:induction false} EncodeSymbolsLayout(stocks: seq<StockBonus>)
    ensures forall i :: 0 <= i < |stocks| ==>
      EncodeSymbols(stocks)[7 * i] == stocks[i].market &&
      EncodeSymbols(stocks)[7 * i + 1..7 * i + 7] == stocks[i].code
  {
    if |stocks| > 0 {
      var rest := EncodeSymbols(stocks[1..]);
      var head := [stocks[0].market] + stocks[0].code;
      assert EncodeSymbols(stocks) == head + rest;
      EncodeSymbolsLayout(stocks[1..]);
      forall i | 0 <= i < |stocks|
        ensures EncodeSymbols(stocks)[7 * i] == stocks[i].market
        ensures EncodeSymbols(stocks)[7 * i + 1..7 * i + 7] == stocks[i].code
      {
        if i == 0 {
          assert EncodeSymbols(stocks)[1..7] == stocks[0].code;
        } else {
          assert stocks[i] == stocks[1..][i - 1];
          assert EncodeSymbols(stocks)[7 * i + 1..7 * i + 7] == rest[7 * (i - 1) + 1..7 * (i - 1) + 7];
        }
      }
    }
  }

  /** GenerateStockBonus: a u16 symbol count, then 7 bytes per symbol. */
  function GenerateStockBonus(stocks: seq<StockBonus>, index: u16): (r: RequestNode)
    ensures r.eventId == EventStockBonus && r.cmdId == CmdStockBonus
    ensures r.isRaw == 1 && r.index == index
    ensures |r.rawData| == 2 + 7 * |stocks|
    ensures ReadU16(r.rawData, 0) == Wrap16(|stocks|)
    ensures forall i :: 0 <= i < |stocks| ==>
      r.rawData[2 + 7 * i] == stocks[i].market && r.rawData[2 + 7 * i + 1..2 + 7 * i + 7] == stocks[i].code
  {
    EncodeSymbolsLayout(stocks);
    var payload := U16(|stocks|) + EncodeSymbols(stocks);
    assert forall i :: 0 <= i < |stocks| ==>
      payload[2 + 7 * i + 1..2 + 7 * i + 7] == EncodeSymbols(stocks)[7 * i + 1..7 * i + 7];
    RequestNode(EventStockBonus, CmdStockBonus, 1, index, payload)
  }

  /** The 18-byte history request shared by day and minute bars: market,
      code, first and last yyyymmdd date, trailing word. */
  const HistoryLayout: Fields :=
    Then(F16, Then(Arr(6), Then(F32, Then(F32, Then(F16, End)))))

  lemma HistoryLayoutFacts()
    ensures Size(HistoryLayout) == 18
    ensures At(HistoryLayout, 0) == F16 && Offset(HistoryLayout, 0) == 0
    ensures At(HistoryLayout, 1) == Arr(6) && Offset(HistoryLayout, 1) == 2
    ensures At(HistoryLayout, 2) == F32 && Offset(HistoryLayout, 2) == 8
    ensures At(HistoryLayout, 3) == F32 && Offset(HistoryLayout, 3) == 12
    ensures At(HistoryLayout, 4) == F16 && Offset(HistoryLayout, 4) == 16
  {
  }

  function HistoryPayload(market: u16, code: seq<byte>, start: u32, end: u32, unknown: u16): (r: seq<byte>)
    ensures |r| == 18
    ensures ReadU16(r, 0) == market
    ensures r[2..8] == CopyInto(code, 6)
    ensures ReadU32(r, 8) == start && ReadU32(r, 12) == end
    ensures ReadU16(r, 16) == unknown
  {
    var vs := [N(market), A(CopyInto(code, 6)), N(start), N(end), N(unknown)];
    HistoryLayoutFacts();
    WrittenField(HistoryLayout, vs, 0, F16, 0);
    WrittenField(HistoryLayout, vs, 1, Arr(6), 2);
    WrittenField(HistoryLayout, vs, 2, F32, 8);
    WrittenField(HistoryLayout, vs, 3, F32, 12);
    WrittenField(HistoryLayout, vs, 4, F16, 16);
    Write(HistoryLayout, vs)
  }

  /** GenerateStockDayItem: trailing word 4; `index` tags the reply. */
  function GenerateStockDayItem(market: u16, code: seq<byte>, start: u32, end: u32, index: u16): (r: RequestNode)
    ensures r.eventId == EventHistory && r.cmdId == CmdStockDay && r.isRaw == 1 && r.index == index
    ensures r.rawData == HistoryPayload(market, code, start, end, 4)
  {
    RequestNode(EventHistory, CmdStockDay, 1, index, HistoryPayload(market, code, start, end, 4))
  }

  /** GenerateStockMinsItem: as the day request with trailing word 0. */
  function GenerateStockMinsItem(market: u16, code: seq<byte>, start: u32, end: u32, index: u16): (r: RequestNode)
    ensures r.eventId == EventHistory && r.cmdId == CmdStockMins && r.isRaw == 1 && r.index == index
    ensures r.rawData == HistoryPayload(market, code, start, end, 0)
  {
    RequestNode(EventHistory, CmdStockMins, 1, index, HistoryPayload(market, code, start, end, 0))
  }
}

=== FILE: response.dfy ===
/** Inbound replies (packet/response.go): the 16-byte reply header and the
    fixed-size records the handlers decode. Each record is a `Layout` struct;
    its typed view names the fields. Float32 fields are kept as raw bits. */
module Response {
  import opened Bytes
  import opened Layout

  // ---------------------------------------------------------------------
  // Reply header

  const HeaderSize: nat := 16

  const HeaderLayout: Fields :=
    Then(F32, Then(F8, Then(F16, Then(F16, Then(F8, Then(F16, Then(F16, Then(F16, End))))))))

  datatype ResponseHeader = ResponseHeader(
    packetFlag: u32,
    isCompress: byte,
    index: u16,
    cmdId: u16,
    unknown1: byte,
    eventId: u16,
    bodyLength: u16,
    bodyMaxLength: u16)

  /** A reply as handed to the handlers: its header and its (inflated) body. */
  datatype ResponseNode = ResponseNode(header: ResponseHeader, rawData: seq<byte>)

  function HeaderVals(h: ResponseHeader): (vs: seq<Val>)
    ensures WellTyped(HeaderLayout, vs)
  {
    [N(h.packetFlag), N(h.isCompress), N(h.index), N(h.cmdId), N(h.unknown1),
     N(h.eventId), N(h.bodyLength), N(h.bodyMaxLength)]
  }

  function HeaderOf(vs: seq<Val>): (h: ResponseHeader)
    requires WellTyped(HeaderLayout, vs)
    ensures HeaderVals(h) == vs
  {
    ResponseHeader(vs[0].n, vs[1].n, vs[2].n, vs[3].n, vs[4].n, vs[5].n, vs[6].n, vs[7].n)
  }

  /** Reading the header never fails on 16 bytes: no field is validated. */
  function DecodeHeader(b: seq<byte>): (r: Option<ResponseHeader>)
    ensures r.Some? <==> HeaderSize <= |b|
  {
    assert Size(HeaderLayout) == HeaderSize;
    match Read(HeaderLayout, b)
    case None => None
    case Some(vs) => Some(HeaderOf(vs))
  }

  function EncodeHeader(h: ResponseHeader): (r: seq<byte>)
    ensures |r| == HeaderSize
  {
    assert Size(HeaderLayout) == HeaderSize;
    Write(HeaderLayout, HeaderVals(h))
  }

  lemma DecodeEncodeHeader(h: ResponseHeader, rest: seq<byte>)
    ensures DecodeHeader(EncodeHeader(h) + rest) == Some(h)
  {
    ReadWrite(HeaderLayout, HeaderVals(h), rest);
  }

  lemma EncodeDecodeHeader(b: seq<byte>)
    requires HeaderSize <= |b|
    ensures DecodeHeader(b).Some? && EncodeHeader(DecodeHeader(b).value) == b[..HeaderSize]
  {
    WriteRead(HeaderLayout, b);
  }

  /** Field kinds and offsets of the layout, as binary.Size lays them out. */
  lemma HeaderLayoutFacts()
    ensures Size(HeaderLayout) == HeaderSize
    ensures At(HeaderLayout, 0) == F32 && Offset(HeaderLayout, 0) == 0
    ensures At(HeaderLayout, 1) == F8 && Offset(HeaderLayout, 1) == 4
    ensures At(HeaderLayout, 2) == F16 && Offset(HeaderLayout, 2) == 5
    ensures At(HeaderLayout, 3) == F16 && Offset(HeaderLayout, 3) == 7
    ensures At(HeaderLayout, 4) == F8 && Offset(HeaderLayout, 4) == 9
    ensures At(HeaderLayout, 5) == F16 && Offset(HeaderLayout, 5) == 10
    ensures At(HeaderLayout, 6) == F16 && Offset(HeaderLayout, 6) == 12
    ensures At(HeaderLayout, 7) == F16 && Offset(HeaderLayout, 7) == 14
  {
  }

  /** The header's byte offsets. */
  lemma HeaderOffsets(b: seq<byte>)
    requires HeaderSize <= |b|
    ensures DecodeHeader(b).Some?
    ensures var h := DecodeHeader(b).value;
      h.packetFlag == ReadU32(b, 0) && h.isCompress == b[4] && h.index == ReadU16(b, 5) &&
      h.cmdId == ReadU16(b, 7) && h.unknown1 == b[9] && h.eventId == ReadU16(b, 10) &&
      h.bodyLength == ReadU16(b, 12) && h.bodyMaxLength == ReadU16(b, 14)
  {
    HeaderLayoutFacts();
    var vs := DecodeFields(HeaderLayout, b);
    assert DecodeHeader(b) == Some(HeaderOf(vs));
    DecodedField(HeaderLayout, b, 0, F32, 0);
    DecodedField(HeaderLayout, b, 1, F8, 4);
    DecodedField(HeaderLayout, b, 2, F16, 5);
    DecodedField(HeaderLayout, b, 3, F16, 7);
    DecodedField(HeaderLayout, b, 4, F8, 9);
    DecodedField(HeaderLayout, b, 5, F16, 10);
    DecodedField(HeaderLayout, b, 6, F16, 12);
    DecodedField(HeaderLayout, b, 7, F16, 14);
  }

  // ---------------------------------------------------------------------
  // MarketInitInfo: the reply to the market-init request (107 bytes)

  /** Ten unused 32-bit words are kept as their 40 raw bytes. */
  const MarketInitLayout: Fields :=
    Then(Arr(40), Then(F16, Then(F32, Then(F32, Then(F32, Then(F32, Then(F32, Then(F16, Then(F32, Then(Arr(21), Then(Arr(18), End)))))))))))

  const MarketInitSize: nat := 107

  datatype MarketInitInfo = MarketInitInfo(
    unknown1: seq<byte>,
    unknown2: u16,
    dateSZ: u32,
    lastSZFlag: u32,
    dateSH: u32,
    lastSHFlag: u32,
    unknown3: u32,
    unknown4: u16,
    unknown5: u32,
    serverName: seq<byte>,
    domainUrl: seq<byte>)
  {
    predicate Valid()
    {
      |unknown1| == 40 && |serverName| == 21 && |domainUrl| == 18
    }
  }

  function MarketInitVals(m: MarketInitInfo): (vs: seq<Val>)
    requires m.Valid()
    ensures WellTyped(MarketInitLayout, vs)
  {
    [A(m.unknown1), N(m.unknown2), N(m.dateSZ), N(m.lastSZFlag), N(m.dateSH), N(m.lastSHFlag),
     N(m.unknown3), N(m.unknown4), N(m.unknown5), A(m.serverName), A(m.domainUrl)]
  }

  function MarketInitOf(vs: seq<Val>): (m: MarketInitInfo)
    requires WellTyped(MarketInitLayout, vs)
    ensures m.Valid() && MarketInitVals(m) == vs
  {
    MarketInitInfo(vs[0].bytes, vs[1].n, vs[2].n, vs[3].n, vs[4].n, vs[5].n, vs[6].n, vs[7].n,
                   vs[8].n, vs[9].bytes, vs[10].bytes)
  }

  function DecodeMarketInit(b: seq<byte>): (r: Option<MarketInitInfo>)
    ensures r.Some? <==> MarketInitSize <= |b|
    ensures r.Some? ==> r.value.Valid()
  {
    assert Size(MarketInitLayout) == MarketInitSize;
    match Read(MarketInitLayout, b)
    case None => None
    case Some(vs) => Some(MarketInitOf(vs))
  }

  function EncodeMarketInit(m: MarketInitInfo): (r: seq<byte>)
    requires m.Valid()
    ensures |r| == MarketInitSize
  {
    assert Size(MarketInitLayout) == MarketInitSize;
    Write(MarketInitLayout, MarketInitVals(m))
  }

  lemma DecodeEncodeMarketInit(m: MarketInitInfo, rest: seq<byte>)
    requires m.Valid()
    ensures DecodeMarketInit(EncodeMarketInit(m) + rest) == Some(m)
  {
    ReadWrite(MarketInitLayout, MarketInitVals(m), rest);
  }

  lemma EncodeDecodeMarketInit(b: seq<byte>)
    requires MarketInitSize <= |b|
    ensures DecodeMarketInit(b).Some? && EncodeMarketInit(DecodeMarketInit(b).value) == b[..MarketInitSize]
  {
    WriteRead(MarketInitLayout, b);
  }

  /** Field kinds and offsets of the layout, as binary.Size lays them out. */
  lemma MarketInitLayoutFacts()
    ensures Size(MarketInitLayout) == MarketInitSize
    ensures At(MarketInitLayout, 2) == F32 && Offset(MarketInitLayout, 2) == 42
    ensures At(MarketInitLayout, 3) == F32 && Offset(MarketInitLayout, 3) == 46
    ensures At(MarketInitLayout, 4) == F32 && Offset(MarketInitLayout, 4) == 50
    ensures At(MarketInitLayout, 5) == F32 && Offset(MarketInitLayout, 5) == 54
    ensures At(MarketInitLayout, 9) == Arr(21) && Offset(MarketInitLayout, 9) == 68
    ensures At(MarketInitLayout, 10) == Arr(18) && Offset(MarketInitLayout, 10) == 89
  {
  }

  /** The fields the client uses, at their byte offsets. */
  lemma MarketInitOffsets(b: seq<byte>)
    requires MarketInitSize <= |b|
    ensures DecodeMarketInit(b).Some?
    ensures var m := DecodeMarketInit(b).value;
      m.dateSZ == ReadU32(b, 42) && m.lastSZFlag == ReadU32(b, 46) &&
      m.dateSH == ReadU32(b, 50) && m.lastSHFlag == ReadU32(b, 54) &&
      m.serverName == b[68..89] && m.domainUrl == b[89..107]
  {
    MarketInitLayoutFacts();
    var vs := DecodeFields(MarketInitLayout, b);
    assert DecodeMarketInit(b) == Some(MarketInitOf(vs));
    DecodedField(MarketInitLayout, b, 2, F32, 42);
    DecodedField(MarketInitLayout, b, 3, F32, 46);
    DecodedField(MarketInitLayout, b, 4, F32, 50);
    DecodedField(MarketInitLayout, b, 5, F32, 54);
    DecodedField(MarketInitLayout, b, 9, Arr(21), 68);
    DecodedField(MarketInitLayout, b, 10, Arr(18), 89);
  }

  // ---------------------------------------------------------------------
  // StockBaseItem: one row of the instrument list (29 bytes)

  const StockBaseLayout: Fields :=
    Then(Arr(6), Then(F16, Then(Arr(8), Then(F32, Then(F8, Then(F32, Then(F16, Then(F16, End))))))))

  const StockBaseSize: nat := 29

  datatype StockBaseItem = StockBaseItem(
    code: seq<byte>,
    unknown1: u16,
    name: seq<byte>,
    unknown2: u32,
    unknown3: byte,
    priceBits: u32,
    bonus1: u16,
    bonus2: u16)
  {
    predicate Valid()
    {
      |code| == 6 && |name| == 8
    }
  }

  function StockBaseVals(x: StockBaseItem): (vs: seq<Val>)
    requires x.Valid()
    ensures WellTyped(StockBaseLayout, vs)
  {
    [A(x.code), N(x.unknown1), A(x.name), N(x.unknown2), N(x.unknown3), N(x.priceBits),
     N(x.bonus1), N(x.bonus2)]
  }

  function StockBaseOf(vs: seq<Val>): (x: StockBaseItem)
    requires WellTyped(StockBaseLayout, vs)
    ensures x.Valid() && StockBaseVals(x) == vs
  {
    StockBaseItem(vs[0].bytes, vs[1].n, vs[2].bytes, vs[3].n, vs[4].n, vs[5].n, vs[6].n, vs[7].n)
  }

  function DecodeStockBase(b: seq<byte>): (r: Option<StockBaseItem>)
    ensures r.Some? <==> StockBaseSize <= |b|
    ensures r.Some? ==> r.value.Valid()
  {
    assert Size(StockBaseLayout) == StockBaseSize;
    match Read(StockBaseLayout, b)
    case None => None
    case Some(vs) => Some(StockBaseOf(vs))
  }

  function EncodeStockBase(x: StockBaseItem): (r: seq<byte>)
    requires x.Valid()
    ensures |r| == StockBaseSize
  {
    assert Size(StockBaseLayout) == StockBaseSize;
    Write(StockBaseLayout, StockBaseVals(x))
  }

  lemma DecodeEncodeStockBase(x: StockBaseItem, rest: seq<byte>)
    requires x.Valid()
    ensures DecodeStockBase(EncodeStockBase(x) + rest) == Some(x)
  {
    ReadWrite(StockBaseLayout, StockBaseVals(x), rest);
  }

  lemma EncodeDecodeStockBase(b: seq<byte>)
    requires StockBaseSize <= |b|
    ensures DecodeStockBase(b).Some? && EncodeStockBase(DecodeStockBase(b).value) == b[..StockBaseSize]
  {
    WriteRead(StockBaseLayout, b);
  }

  /** Field kinds and offsets of the layout, as binary.Size lays them out. */
  lemma StockBaseLayoutFacts()
    ensures Size(StockBaseLayout) == StockBaseSize
    ensures At(StockBaseLayout, 0) == Arr(6) && Offset(StockBaseLayout, 0) == 0
    ensures At(StockBaseLayout, 1) == F16 && Offset(StockBaseLayout, 1) == 6
    ensures At(StockBaseLayout, 2) == Arr(8) && Offset(StockBaseLayout, 2) == 8
    ensures At(StockBaseLayout, 3) == F32 && Offset(StockBaseLayout, 3) == 16
    ensures At(StockBaseLayout, 4) == F8 && Offset(StockBaseLayout, 4) == 20
    ensures At(StockBaseLayout, 5) == F32 && Offset(StockBaseLayout, 5) == 21
    ensures At(StockBaseLayout, 6) == F16 && Offset(StockBaseLayout, 6) == 25
    ensures At(StockBaseLayout, 7) == F16 && Offset(StockBaseLayout, 7) == 27
  {
  }

  lemma StockBaseOffsets(b: seq<byte>)
    requires StockBaseSize <= |b|
    ensures DecodeStockBase(b).Some?
    ensures var x := DecodeStockBase(b).value;
      x.code == b[0..6] && x.unknown1 == ReadU16(b, 6) && x.name == b[8..16] &&
      x.unknown2 == ReadU32(b, 16) && x.unknown3 == b[20] && x.priceBits == ReadU32(b, 21) &&
      x.bonus1 == ReadU16(b, 25) && x.bonus2 == ReadU16(b, 27)
  {
    StockBaseLayoutFacts();
    var vs := DecodeFields(StockBaseLayout, b);
    assert DecodeStockBase(b) == Some(StockBaseOf(vs));
    DecodedField(StockBaseLayout, b, 0, Arr(6), 0);
    DecodedField(StockBaseLayout, b, 1, F16, 6);
    DecodedField(StockBaseLayout, b, 2, Arr(8), 8);
    DecodedField(StockBaseLayout, b, 3, F32, 16);
    DecodedField(StockBaseLayout, b, 4, F8, 20);
    DecodedField(StockBaseLayout, b, 5, F32, 21);
    DecodedField(StockBaseLayout, b, 6, F16, 25);
    DecodedField(StockBaseLayout, b, 7, F16, 27);
  }

  // ---------------------------------------------------------------------
  // StockBonusItem: one corporate-action record (29 bytes)

  const StockBonusLayout: Fields :=
    Then(F8, Then(Arr(6), Then(F8, Then(F32, Then(F8, Then(F32, Then(F32, Then(F32, Then(F32, End)))))))))

  const StockBonusSize: nat := 29

  /** `dateBits` holds the raw bits of the int32 date; see `Date`. */
  datatype StockBonusItem = StockBonusItem(
    market: byte,
    code: seq<byte>,
    unknown1: byte,
    dateBits: u32,
    kind: byte,
    moneyBits: u32,
    priceBits: u32,
    countBits: u32,
    rateBits: u32)
  {
    predicate Valid()
    {
      |code| == 6
    }

    /** The date field is declared int32. */
    function Date(): int
    {
      Signed32(dateBits)
    }
  }

  function StockBonusVals(x: StockBonusItem): (vs: seq<Val>)
    requires x.Valid()
    ensures WellTyped(StockBonusLayout, vs)
  {
    [N(x.market), A(x.code), N(x.unknown1), N(x.dateBits), N(x.kind), N(x.moneyBits),
     N(x.priceBits), N(x.countBits), N(x.rateBits)]
  }

  function StockBonusOf(vs: seq<Val>): (x: StockBonusItem)
    requires WellTyped(StockBonusLayout, vs)
    ensures x.Valid() && StockBonusVals(x) == vs
  {
    StockBonusItem(vs[0].n, vs[1].bytes, vs[2].n, vs[3].n, vs[4].n, vs[5].n, vs[6].n, vs[7].n, vs[8].n)
  }

  function DecodeStockBonus(b: seq<byte>): (r: Option<StockBonusItem>)
    ensures r.Some? <==> StockBonusSize <= |b|
    ensures r.Some? ==> r.value.Valid()
  {
    assert Size(StockBonusLayout) == StockBonusSize;
    match Read(StockBonusLayout, b)
    case None => None
    case Some(vs) => Some(StockBonusOf(vs))
  }

  function EncodeStockBonus(x: StockBonusItem): (r: seq<byte>)
    requires x.Valid()
    ensures |r| == StockBonusSize
  {
    assert Size(StockBonusLayout) == StockBonusSize;
    Write(StockBonusLayout, StockBonusVals(x))
  }

  lemma DecodeEncodeStockBonus(x: StockBonusItem, rest: seq<byte>)
    requires x.Valid()
    ensures DecodeStockBonus(EncodeStockBonus(x) + rest) == Some(x)
  {
    ReadWrite(StockBonusLayout, StockBonusVals(x), rest);
  }

  lemma EncodeDecodeStockBonus(b: seq<byte>)
    requires StockBonusSize <= |b|
    ensures DecodeStockBonus(b).Some? && EncodeStockBonus(DecodeStockBonus(b).value) == b[..StockBonusSize]
  {
    WriteRead(StockBonusLayout, b);
  }

  /** Field kinds and offsets of the layout, as binary.Size lays them out. */
  lemma StockBonusLayoutFacts()
    ensures Size(StockBonusLayout) == StockBonusSize
    ensures At(StockBonusLayout, 0) == F8 && Offset(StockBonusLayout, 0) == 0
    ensures At(StockBonusLayout, 1) == Arr(6) && Offset(StockBonusLayout, 1) == 1
    ensures At(StockBonusLayout, 2) == F8 && Offset(StockBonusLayout, 2) == 7
    ensures At(StockBonusLayout, 3) == F32 && Offset(StockBonusLayout, 3) == 8
    ensures At(StockBonusLayout, 4) == F8 && Offset(StockBonusLayout, 4) == 12
    ensures At(StockBonusLayout, 5) == F32 && Offset(StockBonusLayout, 5) == 13
    ensures At(StockBonusLayout, 6) == F32 && Offset(StockBonusLayout, 6) == 17
    ensures At(StockBonusLayout, 7) == F32 && Offset(StockBonusLayout, 7) == 21
    ensures At(StockBonusLayout, 8) == F32 && Offset(StockBonusLayout, 8) == 25
  {
  }

  lemma StockBonusOffsets(b: seq<byte>)
    requires StockBonusSize <= |b|
    ensures DecodeStockBonus(b).Some?
    ensures var x := DecodeStockBonus(b).value;
      x.market == b[0] && x.code == b[1..7] && x.unknown1 == b[7] &&
      x.Date() == Signed32(ReadU32(b, 8)) && x.kind == b[12] &&
      x.moneyBits == ReadU32(b, 13) && x.priceBits == ReadU32(b, 17) &&
      x.countBits == ReadU32(b, 21) && x.rateBits == ReadU32(b, 25)
  {
    StockBonusLayoutFacts();
    var vs := DecodeFields(StockBonusLayout, b);
    assert DecodeStockBonus(b) == Some(StockBonusOf(vs));
    DecodedField(StockBonusLayout, b, 0, F8, 0);
    DecodedField(StockBonusLayout, b, 1, Arr(6), 1);
    DecodedField(StockBonusLayout, b, 2, F8, 7);
    DecodedField(StockBonusLayout, b, 3, F32, 8);
    DecodedField(StockBonusLayout, b, 4, F8, 12);
    DecodedField(StockBonusLayout, b, 5, F32, 13);
    DecodedField(StockBonusLayout, b, 6, F32, 17);
    DecodedField(StockBonusLayout, b, 7, F32, 21);
    DecodedField(StockBonusLayout, b, 8, F32, 25);
  }

  /** The nine documented kinds of corporate action. */
  datatype BonusKind =
    | ExRights          // 1: ex-rights / ex-dividend
    | BonusShareListing // 2: bonus or rights shares listed
    | NonTradableListing // 3: non-tradable shares listed
    | UnknownChange     // 4: unspecified capital change
    | CapitalChange     // 5: capital change
    | NewIssue          // 6: additional issue
    | Buyback           // 7: share buyback
    | NewIssueListing   // 8: additional issue listed
    | TransferListing   // 9: transferred rights shares listed

  function KindCode(k: BonusKind): (c: byte)
    ensures 1 <= c <= 9
  {
    match k
    case ExRights => 1
    case BonusShareListing => 2
    case NonTradableListing => 3
    case UnknownChange => 4
    case CapitalChange => 5
    case NewIssue => 6
    case Buyback => 7
    case NewIssueListing => 8
    case TransferListing => 9
  }

  /** Classifies a record's type byte; the decoder itself does not check it. */
  function KindOf(c: byte): (r: Option<BonusKind>)
    ensures r.Some? <==> 1 <= c <= 9
  {
    if c == 1 then Some(ExRights)
    else if c == 2 then Some(BonusShareListing)
    else if c == 3 then Some(NonTradableListing)
    else if c == 4 then Some(UnknownChange)
    else if c == 5 then Some(CapitalChange)
    else if c == 6 then Some(NewIssue)
    else if c == 7 then Some(Buyback)
    else if c == 8 then Some(NewIssueListing)
    else if c == 9 then Some(TransferListing)
    else None
  }

  lemma KindRoundTrip(k: BonusKind, c: byte)
    ensures KindOf(KindCode(k)) == Some(k)
    ensures KindOf(c).Some? ==> KindCode(KindOf(c).value) == c
  {
  }

  // ---------------------------------------------------------------------
  // StockDayItem: one daily bar (32 bytes, eight 32-bit words)

  const StockDayLayout: Fields :=
    Then(F32, Then(F32, Then(F32, Then(F32, Then(F32, Then(F32, Then(F32, Then(F32, End))))))))

  /** Both bar records are 32 bytes; the day handler sizes its records with
      the minute record's size, which is the same number. */
  const BarSize: nat := 32

  /** Prices are in hundredths; the date is the decimal yyyymmdd. */
  datatype StockDayItem = StockDayItem(
    date: u32,
    open: u32,
    high: u32,
    low: u32,
    close: u32,
    amount: u32,
    volume: u32,
    unknown1: u32)

  function StockDayVals(x: StockDayItem): (vs: seq<Val>)
    ensures WellTyped(StockDayLayout, vs)
  {
    [N(x.date), N(x.open), N(x.high), N(x.low), N(x.close), N(x.amount), N(x.volume), N(x.unknown1)]
  }

  function StockDayOf(vs: seq<Val>): (x: StockDayItem)
    requires WellTyped(StockDayLayout, vs)
    ensures StockDayVals(x) == vs
  {
    StockDayItem(vs[0].n, vs[1].n, vs[2].n, vs[3].n, vs[4].n, vs[5].n, vs[6].n, vs[7].n)
  }

  function DecodeStockDay(b: seq<byte>): (r: Option<StockDayItem>)
    ensures r.Some? <==> BarSize <= |b|
  {
    assert Size(StockDayLayout) == BarSize;
    match Read(StockDayLayout, b)
    case None => None
    case Some(vs) => Some(StockDayOf(vs))
  }

  function EncodeStockDay(x: StockDayItem): (r: seq<byte>)
    ensures |r| == BarSize
  {
    assert Size(StockDayLayout) == BarSize;
    Write(StockDayLayout, StockDayVals(x))
  }

  lemma DecodeEncodeStockDay(x: StockDayItem, rest: seq<byte>)
    ensures DecodeStockDay(EncodeStockDay(x) + rest) == Some(x)
  {
    ReadWrite(StockDayLayout, StockDayVals(x), rest);
  }

  lemma EncodeDecodeStockDay(b: seq<byte>)
    requires BarSize <= |b|
    ensures DecodeStockDay(b).Some? && EncodeStockDay(DecodeStockDay(b).value) == b[..BarSize]
  {
    WriteRead(StockDayLayout, b);
  }

  /** Field kinds and offsets of the layout, as binary.Size lays them out. */
  lemma StockDayLayoutFacts()
    ensures Size(StockDayLayout) == BarSize
    ensures At(StockDayLayout, 0) == F32 && Offset(StockDayLayout, 0) == 0
    ensures At(StockDayLayout, 1) == F32 && Offset(StockDayLayout, 1) == 4
    ensures At(StockDayLayout, 2) == F32 && Offset(StockDayLayout, 2) == 8
    ensures At(StockDayLayout, 3) == F32 && Offset(StockDayLayout, 3) == 12
    ensures At(StockDayLayout, 4) == F32 && Offset(StockDayLayout, 4) == 16
    ensures At(StockDayLayout, 5) == F32 && Offset(StockDayLayout, 5) == 20
    ensures At(StockDayLayout, 6) == F32 && Offset(StockDayLayout, 6) == 24
    ensures At(StockDayLayout, 7) == F32 && Offset(StockDayLayout, 7) == 28
  {
  }

  lemma StockDayOffsets(b: seq<byte>)
    requires BarSize <= |b|
    ensures DecodeStockDay(b).Some?
    ensures var x := DecodeStockDay(b).value;
      x.date == ReadU32(b, 0) && x.open == ReadU32(b, 4) && x.high == ReadU32(b, 8) &&
      x.low == ReadU32(b, 12) && x.close == ReadU32(b, 16) && x.amount == ReadU32(b, 20) &&
      x.volume == ReadU32(b, 24) && x.unknown1 == ReadU32(b, 28)
  {
    StockDayLayoutFacts();
    var vs := DecodeFields(StockDayLayout, b);
    assert DecodeStockDay(b) == Some(StockDayOf(vs));
    DecodedField(StockDayLayout, b, 0, F32, 0);
    DecodedField(StockDayLayout, b, 1, F32, 4);
    DecodedField(StockDayLayout, b, 2, F32, 8);
    DecodedField(StockDayLayout, b, 3, F32, 12);
    DecodedField(StockDayLayout, b, 4, F32, 16);
    DecodedField(StockDayLayout, b, 5, F32, 20);
    DecodedField(StockDayLayout, b, 6, F32, 24);
    DecodedField(StockDayLayout, b, 7, F32, 28);
  }

  // ---------------------------------------------------------------------
  // StockMinsItem: one intraday bar (32 bytes)

  const StockMinsLayout: Fields :=
    Then(F16, Then(F16, Then(F32, Then(F32, Then(F32, Then(F32, Then(F32, Then(F32, Then(F32, End)))))))))

  /** `date` and `time` are packed; see the minute handler. */
  datatype StockMinsItem = StockMinsItem(
    date: u16,
    time: u16,
    openBits: u32,
    highBits: u32,
    lowBits: u32,
    closeBits: u32,
    amountBits: u32,
    volume: u32,
    unknown1: u32)

  function StockMinsVals(x: StockMinsItem): (vs: seq<Val>)
    ensures WellTyped(StockMinsLayout, vs)
  {
    [N(x.date), N(x.time), N(x.openBits), N(x.highBits), N(x.lowBits), N(x.closeBits),
     N(x.amountBits), N(x.volume), N(x.unknown1)]
  }

  function StockMinsOf(vs: seq<Val>): (x: StockMinsItem)
    requires WellTyped(StockMinsLayout, vs)
    ensures StockMinsVals(x) == vs
  {
    StockMinsItem(vs[0].n, vs[1].n, vs[2].n, vs[3].n, vs[4].n, vs[5].n, vs[6].n, vs[7].n, vs[8].n)
  }

  function DecodeStockMins(b: seq<byte>): (r: Option<StockMinsItem>)
    ensures r.Some? <==> BarSize <= |b|
  {
    assert Size(StockMinsLayout) == BarSize;
    match Read(StockMinsLayout, b)
    case None => None
    case Some(vs) => Some(StockMinsOf(vs))
  }

  function EncodeStockMins(x: StockMinsItem): (r: seq<byte>)
    ensures |r| == BarSize
  {
    assert Size(StockMinsLayout) == BarSize;
    Write(StockMinsLayout, StockMinsVals(x))
  }

  lemma DecodeEncodeStockMins(x: StockMinsItem, rest: seq<byte>)
    ensures DecodeStockMins(EncodeStockMins(x) + rest) == Some(x)
  {
    ReadWrite(StockMinsLayout, StockMinsVals(x), rest);
  }

  lemma EncodeDecodeStockMins(b: seq<byte>)
    requires BarSize <= |b|
    ensures DecodeStockMins(b).Some? && EncodeStockMins(DecodeStockMins(b).value) == b[..BarSize]
  {
    WriteRead(StockMinsLayout, b);
  }

  /** Field kinds and offsets of the layout, as binary.Size lays them out. */
  lemma StockMinsLayoutFacts()
    ensures Size(StockMinsLayout) == BarSize
    ensures At(StockMinsLayout, 0) == F16 && Offset(StockMinsLayout, 0) == 0
    ensures At(StockMinsLayout, 1) == F16 && Offset(StockMinsLayout, 1) == 2
    ensures At(StockMinsLayout, 2) == F32 && Offset(StockMinsLayout, 2) == 4
    ensures At(StockMinsLayout, 3) == F32 && Offset(StockMinsLayout, 3) == 8
    ensures At(StockMinsLayout, 4) == F32 && Offset(StockMinsLayout, 4) == 12
    ensures At(StockMinsLayout, 5) == F32 && Offset(StockMinsLayout, 5) == 16
    ensures At(StockMinsLayout, 6) == F32 && Offset(StockMinsLayout, 6) == 20
    ensures At(StockMinsLayout, 7) == F32 && Offset(StockMinsLayout, 7) == 24
    ensures At(StockMinsLayout, 8) == F32 && Offset(StockMinsLayout, 8) == 28
  {
  }

  lemma StockMinsOffsets(b: seq<byte>)
    requires BarSize <= |b|
    ensures DecodeStockMins(b).Some?
    ensures var x := DecodeStockMins(b).value;
      x.date == ReadU16(b, 0) && x.time == ReadU16(b, 2) && x.openBits == ReadU32(b, 4) &&
      x.highBits == ReadU32(b, 8) && x.lowBits == ReadU32(b, 12) && x.closeBits == ReadU32(b, 16) &&
      x.amountBits == ReadU32(b, 20) && x.volume == ReadU32(b, 24) && x.unknown1 == ReadU32(b, 28)
  {
    StockMinsLayoutFacts();
    var vs := DecodeFields(StockMinsLayout, b);
    assert DecodeStockMins(b) == Some(StockMinsOf(vs));
    DecodedField(StockMinsLayout, b, 0, F16, 0);
    DecodedField(StockMinsLayout, b, 1, F16, 2);
    DecodedField(StockMinsLayout, b, 2, F32, 4);
    DecodedField(StockMinsLayout, b, 3, F32, 8);
    DecodedField(StockMinsLayout, b, 4, F32, 12);
    DecodedField(StockMinsLayout, b, 5, F32, 16);
    DecodedField(StockMinsLayout, b, 6, F32, 20);
    DecodedField(StockMinsLayout, b, 7, F32, 24);
    DecodedField(StockMinsLayout, b, 8, F32, 28);
  }

  // ---------------------------------------------------------------------
  // The sample rows documented beside the bar records

  /** The first sample day row: 2016-12-01, open 9.57, high 9.63, low 9.55,
      close 9.60. Stated over any buffer holding those bytes. */
  lemma SampleDayRow(b: seq<byte>)
    requires |b| == 32
    requires b[0] == 0xB1 && b[1] == 0xA2 && b[2] == 0x33 && b[3] == 0x01
    requires b[4] == 0xBD && b[5] == 0x03 && b[6] == 0x00 && b[7] == 0x00
    requires b[8] == 0xC3 && b[9] == 0x03 && b[10] == 0x00 && b[11] == 0x00
    requires b[12] == 0xBB && b[13] == 0x03 && b[14] == 0x00 && b[15] == 0x00
    requires b[16] == 0xC0 && b[17] == 0x03 && b[18] == 0x00 && b[19] == 0x00
    ensures DecodeStockDay(b).Some?
    ensures var x := DecodeStockDay(b).value;
      x.date == 20161201 && x.open == 957 && x.high == 963 && x.low == 955 && x.close == 960
  {
    StockDayOffsets(b);
  }

  /** The sample minute row: packed date 0x6397 and time 0x023F. */
  lemma SampleMinsRow(b: seq<byte>)
    requires |b| == 32
    requires b[0] == 0x97 && b[1] == 0x63 && b[2] == 0x3F && b[3] == 0x02
    ensures DecodeStockMins(b).Some?
    ensures DecodeStockMins(b).value.date == 25495 && DecodeStockMins(b).value.time == 575
  {
    StockMinsOffsets(b);
  }
}

=== FILE: stocks.dfy ===
/** Instrument selection and the trading calendar (comm/stocks.go).

    `GetFinanceDataFrame` keeps the rows of the instrument list whose code
    starts with one of the prefixes listed for the row's market under one of
    the requested categories. The source tests every prefix separately and
    appends the row's position once per successful test; the prefix tables
    are disjoint, so a row is appended at most once and the result is the
    plain filter of the list.

    The trading calendar answers "first open day after D" and is loaded once
    and cached. */
module Stocks {
  import opened Bytes
  import opened Models

  // ---------------------------------------------------------------------
  // Categories and prefix tables

  /** The categories, in the source's numbering: STOCKA = 0, STOCKB = 1,
      FUNDS = 2, INDEX = 3, BOND = 4, INDUSTRY = 5. */
  datatype Category = StockA | StockB | Funds | Index | Bond | Industry

  /** The code prefixes a category accepts on a market (0 Shenzhen,
      1 Shanghai); industry boards are recognised on any market. */
  function Prefixes(c: Category, market: int): seq<string>
  {
    match c
    case Industry => ["88"]
    case StockA => if market == 0 then ["00", "30"] else if market == 1 then ["6"] else []
    case StockB => if market == 0 then ["200"] else if market == 1 then ["900"] else []
    case Funds => if market == 0 then ["15", "16", "18"] else if market == 1 then ["50", "51"] else []
    case Index => if market == 0 then ["399"] else if market == 1 then ["000"] else []
    case Bond =>
      if market == 0 then ["111", "120"]
      else if market == 1 then ["019", "11", "12", "13", "14", "52"]
      else []
  }

  /** `strings.Index(code, p) == 0`: the code starts with `p`. */
  predicate StartsWith(code: seq<byte>, p: string)
  {
    |p| <= |code| && forall i | 0 <= i < |p| :: code[i] == p[i] as int
  }

  predicate MatchesAny(code: seq<byte>, ps: seq<string>)
  {
    exists i | 0 <= i < |ps| :: StartsWith(code, ps[i])
  }

  /** The reference selection: some requested category lists a prefix of the
      row's code for the row's market. */
  predicate Selected(row: StockBaseModel, types: seq<Category>)
  {
    exists c | c in types :: MatchesAny(row.code, Prefixes(c, row.market))
  }

  // ---------------------------------------------------------------------
  // The selection as the source performs it

  function Hit(code: seq<byte>, p: string): nat
  {
    if StartsWith(code, p) then 1 else 0
  }

  /** How many times one category block appends a row: one per successful
      prefix test, the market-0 tests and the market-1 tests written as two
      separate `if`s. */
  function CategoryHits(c: Category, row: StockBaseModel): nat
  {
    var code := row.code;
    var m := row.market;
    match c
    case Industry => Hit(code, "88")
    case StockA =>
      (if m == 0 then Hit(code, "00") + Hit(code, "30") else 0)
      + (if m == 1 then Hit(code, "6") else 0)
    case StockB =>
      (if m == 0 then Hit(code, "200") else 0)
      + (if m == 1 then Hit(code, "900") else 0)
    case Funds =>
      (if m == 0 then Hit(code, "15") + Hit(code, "16") + Hit(code, "18") else 0)
      + (if m == 1 then Hit(code, "50") + Hit(code, "51") else 0)
    case Index =>
      (if m == 0 then Hit(code, "399") else 0)
      + (if m == 1 then Hit(code, "000") else 0)
    case Bond =>
      (if m == 0 then Hit(code, "111") + Hit(code, "120") else 0)
      + (if m == 1 then
           Hit(code, "019") + Hit(code, "11") + Hit(code, "12") + Hit(code, "13")
           + Hit(code, "14") + Hit(code, "52")
         else 0)
  }

  /** The number of times the loop appends one row's position: the blocks run
      in the order industry, A shares, B shares, funds, indices, bonds, each
      only when its category was requested. */
  function Appends(row: StockBaseModel, types: seq<Category>): nat
  {
    (if Industry in types then CategoryHits(Industry, row) else 0)
    + (if StockA in types then CategoryHits(StockA, row) else 0)
    + (if StockB in types then CategoryHits(StockB, row) else 0)
    + (if Funds in types then CategoryHits(Funds, row) else 0)
    + (if Index in types then CategoryHits(Index, row) else 0)
    + (if Bond in types then CategoryHits(Bond, row) else 0)
  }

  /** Within one category at most one test succeeds, and one does exactly
      when the category's table lists a prefix of the code. */
  lemma CategoryHitsExact(c: Category, row: StockBaseModel)
    ensures CategoryHits(c, row) == if MatchesAny(row.code, Prefixes(c, row.market)) then 1 else 0
  {
    if c.Bond? {
      BondHitsExact(row);
    } else if c.Funds? {
      FundsHitsExact(row);
    } else {
      ShortTableHitsExact(c, row);
    }
  }

  lemma BondHitsExact(row: StockBaseModel)
    ensures CategoryHits(Bond, row) == if MatchesAny(row.code, Prefixes(Bond, row.market)) then 1 else 0
  {
    var code := row.code;
    var ps := Prefixes(Bond, row.market);
    if MatchesAny(code, ps) {
      var i :| 0 <= i < |ps| && StartsWith(code, ps[i]);
      assert code[0] == ps[i][0] as int;
    }
    if |code| >= 3 {
      var a, b, d := code[0], code[1], code[2];
    } else if |code| >= 2 {
      var a, b := code[0], code[1];
    }
    if CategoryHits(Bond, row) > 0 {
      if row.market == 1 {
        if StartsWith(code, "019") { assert StartsWith(code, ps[0]); }
        else if StartsWith(code, "11") { assert StartsWith(code, ps[1]); }
        else if StartsWith(code, "12") { assert StartsWith(code, ps[2]); }
        else if StartsWith(code, "13") { assert StartsWith(code, ps[3]); }
        else if StartsWith(code, "14") { assert StartsWith(code, ps[4]); }
        else { assert StartsWith(code, ps[5]); }
      } else {
        if StartsWith(code, ps[0]) { } else { assert StartsWith(code, ps[1]); }
      }
    }
  }

  lemma FundsHitsExact(row: StockBaseModel)
    ensures CategoryHits(Funds, row) == if MatchesAny(row.code, Prefixes(Funds, row.market)) then 1 else 0
  {
    var code := row.code;
    var ps := Prefixes(Funds, row.market);
    if MatchesAny(code, ps) {
      var i :| 0 <= i < |ps| && StartsWith(code, ps[i]);
      assert code[0] == ps[i][0] as int;
    }
    if |code| >= 2 {
      var a, b := code[0], code[1];
    }
    if CategoryHits(Funds, row) > 0 {
      if row.market == 0 {
        if StartsWith(code, "15") { assert StartsWith(code, ps[0]); }
        else if StartsWith(code, "16") { assert StartsWith(code, ps[1]); }
        else { assert StartsWith(code, ps[2]); }
      } else {
        if StartsWith(code, ps[0]) { } else { assert StartsWith(code, ps[1]); }
      }
    }
  }

  /** The categories whose tables hold at most two prefixes per market. */
  lemma ShortTableHitsExact(c: Category, row: StockBaseModel)
    requires !c.Bond? && !c.Funds?
    ensures CategoryHits(c, row) == if MatchesAny(row.code, Prefixes(c, row.market)) then 1 else 0
  {
    var code := row.code;
    var ps := Prefixes(c, row.market);
    if MatchesAny(code, ps) {
      var i :| 0 <= i < |ps| && StartsWith(code, ps[i]);
      assert code[0] == ps[i][0] as int;
    }
    if |code| >= 3 {
      var a, b, d := code[0], code[1], code[2];
    } else if |code| >= 2 {
      var a, b := code[0], code[1];
    } else if |code| >= 1 {
      var a := code[0];
    }
    if CategoryHits(c, row) > 0 {
      if |ps| == 2 {
        if StartsWith(code, ps[0]) { } else { assert StartsWith(code, ps[1]); }
      } else {
        assert StartsWith(code, ps[0]);
      }
    }
  }

  const AllCategories: seq<Category> := [Industry, StockA, StockB, Funds, Index, Bond]

  /** The prefix tables are disjoint: with every category requested, at
      most one of the source's prefix tests succeeds on any row. */
  lemma AtMostOneTest(row: StockBaseModel)
    ensures Appends(row, AllCategories) <= 1
  {
    if row.market == 0 {
      AtMostOneTestSZ(row);
    } else if row.market == 1 {
      AtMostOneTestSH(row);
    }
  }

  lemma AtMostOneTestSZ(row: StockBaseModel)
    requires row.market == 0
    ensures Appends(row, AllCategories) <= 1
  {
    var code := row.code;
    if |code| >= 3 {
      var a, b, d := code[0], code[1], code[2];
    } else if |code| >= 2 {
      var a, b := code[0], code[1];
    } else if |code| >= 1 {
      var a := code[0];
    }
  }

  lemma AtMostOneTestSH(row: StockBaseModel)
    requires row.market == 1
    ensures Appends(row, AllCategories) <= 1
  {
    var code := row.code;
    if |code| >= 3 {
      var a, b, d := code[0], code[1], code[2];
    } else if |code| >= 2 {
      var a, b := code[0], code[1];
    } else if |code| >= 1 {
      var a := code[0];
    }
  }

  lemma AppendsAtMostOne(row: StockBaseModel, types: seq<Category>)
    ensures Appends(row, types) <= 1
  {
    AtMostOneTest(row);
  }

  lemma AppendsSelected(row: StockBaseModel, types: seq<Category>)
    ensures Appends(row, types) == if Selected(row, types) then 1 else 0
  {
    AppendsAtMostOne(row, types);
    if Selected(row, types) {
      var c :| c in types && MatchesAny(row.code, Prefixes(c, row.market));
      CategoryHitsExact(c, row);
      AppendsAtLeast(row, types, c);
    } else {
      forall c | c in types
        ensures CategoryHits(c, row) == 0
      {
        CategoryHitsExact(c, row);
      }
    }
  }

  /** A requested category's hits are among the row's appends. */
  lemma AppendsAtLeast(row: StockBaseModel, types: seq<Category>, c: Category)
    requires c in types
    ensures Appends(row, types) >= CategoryHits(c, row)
  {
  }

  /** Positions the loop appends, from position `from` on. */
  function RecordIdx(rows: seq<StockBaseModel>, types: seq<Category>, from: nat): (r: seq<nat>)
    decreases |rows| - from
    ensures forall k :: 0 <= k < |r| ==> from <= r[k] < |rows|
    ensures forall k, l :: 0 <= k < l < |r| ==> r[k] < r[l]
    ensures forall i :: from <= i < |rows| ==> (i in r <==> Selected(rows[i], types))
  {
    if from >= |rows| then []
    else
      AppendsSelected(rows[from], types);
      var tail := RecordIdx(rows, types, from + 1);
      var keep := Appends(rows[from], types) != 0;
      IdxPrepend(from, |rows|, tail, keep);
      if keep then [from] + tail else tail
  }

  /** Putting `from` (or nothing) in front of increasing positions above it
      keeps them increasing and changes membership at `from` only. */
  lemma IdxPrepend(from: nat, n: nat, tail: seq<nat>, keep: bool)
    requires forall k :: 0 <= k < |tail| ==> from + 1 <= tail[k] < n
    requires forall k, l :: 0 <= k < l < |tail| ==> tail[k] < tail[l]
    requires from < n
    ensures var r := if keep then [from] + tail else tail;
      (forall k :: 0 <= k < |r| ==> from <= r[k] < n) &&
      (forall k, l :: 0 <= k < l < |r| ==> r[k] < r[l]) &&
      (from in r <==> keep) &&
      (forall i :: from < i < n ==> (i in r <==> i in tail))
  {
  }

  /** `baseDF.Subset(recordIdx)`: the rows at the given positions, in that
      order. */
  function Subset(rows: seq<StockBaseModel>, idx: seq<nat>): (r: seq<StockBaseModel>)
    requires forall k :: 0 <= k < |idx| ==> idx[k] < |rows|
    ensures |r| == |idx|
    ensures forall k :: 0 <= k < |idx| ==> r[k] == rows[idx[k]]
  {
    seq(|idx|, k requires 0 <= k < |idx| => rows[idx[k]])
  }

  /** GetFinanceDataFrame on an instrument list that loaded. */
  function GetFinanceDataFrame(rows: seq<StockBaseModel>, types: seq<Category>): (r: seq<StockBaseModel>)
    ensures forall k :: 0 <= k < |r| ==> r[k] in rows && Selected(r[k], types)
    ensures forall i :: 0 <= i < |rows| && Selected(rows[i], types) ==> rows[i] in r
  {
    var idx := RecordIdx(rows, types, 0);
    forall i | 0 <= i < |rows| && Selected(rows[i], types)
      ensures rows[i] in Subset(rows, idx)
    {
      var k :| 0 <= k < |idx| && idx[k] == i;
      assert Subset(rows, idx)[k] == rows[i];
    }
    Subset(rows, idx)
  }

  /** The reference: the selected rows, in list order. */
  function Filter(rows: seq<StockBaseModel>, types: seq<Category>): (r: seq<StockBaseModel>)
  {
    if |rows| == 0 then []
    else (if Selected(rows[0], types) then [rows[0]] else []) + Filter(rows[1..], types)
  }

  lemma SubsetCons(rows: seq<StockBaseModel>, i: nat, idx: seq<nat>)
    requires i < |rows|
    requires forall k :: 0 <= k < |idx| ==> idx[k] < |rows|
    ensures Subset(rows, [i] + idx) == [rows[i]] + Subset(rows, idx)
  {
  }

  lemma {:induction false} RecordIdxFilter(rows: seq<StockBaseModel>, types: seq<Category>, from: nat)
    requires from <= |rows|
    ensures Subset(rows, RecordIdx(rows, types, from)) == Filter(rows[from..], types)
    decreases |rows| - from
  {
    if from < |rows| {
      var tail := RecordIdx(rows, types, from + 1);
      RecordIdxFilter(rows, types, from + 1);
      AppendsSelected(rows[from], types);
      assert rows[from..][1..] == rows[from + 1..];
      assert Filter(rows[from..], types) ==
        (if Selected(rows[from], types) then [rows[from]] else []) + Filter(rows[from + 1..], types);
      if Appends(rows[from], types) != 0 {
        assert RecordIdx(rows, types, from) == [from] + tail;
        SubsetCons(rows, from, tail);
      } else {
        assert RecordIdx(rows, types, from) == tail;
      }
    } else {
      assert rows[from..] == [];
    }
  }

  /** The selection is the filter of the list by `Selected`: an ordered
      subsequence, each selected row exactly once. */
  lemma GetFinanceIsFilter(rows: seq<StockBaseModel>, types: seq<Category>)
    ensures GetFinanceDataFrame(rows, types) == Filter(rows, types)
  {
    RecordIdxFilter(rows, types, 0);
    assert rows[0..] == rows;
  }

  lemma {:induction false} FilterNothing(rows: seq<StockBaseModel>)
    ensures Filter(rows, []) == []
  {
    if |rows| > 0 {
      FilterNothing(rows[1..]);
    }
  }

  /** Nothing is selected when no category is requested. */
  lemma NoCategoryNoRows(rows: seq<StockBaseModel>)
    ensures GetFinanceDataFrame(rows, []) == []
  {
    GetFinanceIsFilter(rows, []);
    FilterNothing(rows);
  }

  /** An A-share is selected exactly for the listed prefixes on its market. */
  lemma StockARule(row: StockBaseModel)
    ensures Selected(row, [StockA]) <==>
      (row.market == 0 && (StartsWith(row.code, "00") || StartsWith(row.code, "30"))) ||
      (row.market == 1 && StartsWith(row.code, "6"))
  {
    var ps := Prefixes(StockA, row.market);
    if row.market == 0 && StartsWith(row.code, "00") {
      assert StartsWith(row.code, ps[0]);
    } else if row.market == 0 && StartsWith(row.code, "30") {
      assert StartsWith(row.code, ps[1]);
    } else if row.market == 1 && StartsWith(row.code, "6") {
      assert StartsWith(row.code, ps[0]);
    }
  }

  // ---------------------------------------------------------------------
  // Decimal text (strconv.Atoi and fmt's %d)

  const MinInt64: int := -0x8000_0000_0000_0000
  const MaxInt64: int := 0x7fff_ffff_ffff_ffff

  predicate IsDigit(c: char) { '0' <= c <= '9' }

  predicate AllDigits(s: string) { forall i | 0 <= i < |s| :: IsDigit(s[i]) }

  /** The value of a run of decimal digits, most significant first. */
  function DigitsValue(s: string): nat
    requires AllDigits(s)
  {
    if |s| == 0 then 0
    else DigitsValue(s[..|s| - 1]) * 10 + (s[|s| - 1] as int - '0' as int)
  }

  /** Whether the text opens with a sign strconv.Atoi accepts. */
  predicate HasSign(s: string) { |s| > 0 && (s[0] == '+' || s[0] == '-') }

  /** The text after its optional sign. */
  function Unsigned(s: string): string { if HasSign(s) then s[1..] else s }

  /** The value a signed run of digits denotes. */
  function SignedValue(s: string): int
    requires AllDigits(Unsigned(s))
  {
    if HasSign(s) && s[0] == '-' then -(DigitsValue(Unsigned(s)) as int) else DigitsValue(Unsigned(s))
  }

  /** strconv.Atoi: an optional sign, then at least one decimal digit, and a
      value that fits Go's 64-bit int; anything else is an error. */
  function Atoi(s: string): (r: Option<int>)
    ensures r.Some? <==>
      |Unsigned(s)| > 0 && AllDigits(Unsigned(s)) && MinInt64 <= SignedValue(s) <= MaxInt64
    ensures r.Some? ==> r.value == SignedValue(s)
  {
    var signed := |s| > 0 && (s[0] == '+' || s[0] == '-');
    var body := if signed then s[1..] else s;
    if |body| == 0 || !AllDigits(body) then None
    else
      var v: int := if signed && s[0] == '-' then -(DigitsValue(body) as int) else DigitsValue(body);
      if MinInt64 <= v <= MaxInt64 then Some(v) else None
  }

  /** A sign (or none) before a run of digits reads as that run's value with
      the sign, when it fits 64 bits. */
  lemma AtoiSignDigits(sign: string, d: string)
    requires sign == "" || sign == "+" || sign == "-"
    requires |d| > 0 && AllDigits(d)
    ensures var v := if sign == "-" then -(DigitsValue(d) as int) else DigitsValue(d) as int;
      Atoi(sign + d) == if MinInt64 <= v <= MaxInt64 then Some(v) else None
  {
    var s := sign + d;
    if sign == "" {
      assert s == d && IsDigit(d[0]);
    } else {
      assert s[0] == sign[0] && s[1..] == d;
    }
  }

  /** A character that is neither a digit nor the leading sign makes the
      text unreadable. */
  lemma AtoiRejectsNonDigit(s: string, i: nat)
    requires i < |s| && !IsDigit(s[i])
    requires i > 0 || !(s[0] == '+' || s[0] == '-')
    ensures Atoi(s) == None
  {
  }

  function DigitChar(d: nat): (c: char)
    requires d < 10
    ensures IsDigit(c) && c as int - '0' as int == d
  {
    ('0' as int + d) as char
  }

  /** The shortest decimal text of a natural number. */
  function Decimal(n: nat): (r: string)
    ensures |r| > 0 && AllDigits(r)
    ensures |r| > 1 ==> r[0] != '0'
  {
    if n < 10 then [DigitChar(n)] else Decimal(n / 10) + [DigitChar(n % 10)]
  }

  /** fmt.Sprintf("%d", n). */
  function Itoa(n: int): (r: string)
  {
    if n < 0 then "-" + Decimal(-n) else Decimal(n)
  }

  lemma {:induction false} DecimalValue(n: nat)
    ensures DigitsValue(Decimal(n)) == n
  {
    if n >= 10 {
      DecimalValue(n / 10);
      var s := Decimal(n);
      assert s[..|s| - 1] == Decimal(n / 10);
    }
  }

  /** Reading back what `%d` prints gives the number again. */
  lemma AtoiItoa(n: int)
    requires MinInt64 <= n <= MaxInt64
    ensures Atoi(Itoa(n)) == Some(n)
  {
    var s := Itoa(n);
    if n < 0 {
      var d := Decimal(-n);
      DecimalValue(-n);
      assert s[0] == '-' && s[1..] == d;
      assert -(DigitsValue(d) as int) == n;
    } else {
      DecimalValue(n);
      assert IsDigit(s[0]);
      assert !(s[0] == '+' || s[0] == '-');
    }
  }

  // ---------------------------------------------------------------------
  // The trading calendar

  /** The calendar columns NextDay reads. */
  datatype CalendarDay = CalendarDay(date: int, open: bool)

  predicate OpenAfter(day: CalendarDay, d: int)
  {
    day.open && day.date > d
  }

  /** Position of the first row, from `from` on, that is open and later than
      `d`. */
  function FirstOpenAfter(cal: seq<CalendarDay>, d: int, from: nat): (r: Option<nat>)
    decreases |cal| - from
    ensures r.Some? ==> from <= r.value < |cal| && OpenAfter(cal[r.value], d)
    ensures r.Some? ==> forall j :: from <= j < r.value ==> !OpenAfter(cal[j], d)
    ensures r.None? ==> forall j :: from <= j < |cal| ==> !OpenAfter(cal[j], d)
  {
    if from >= |cal| then None
    else if OpenAfter(cal[from], d) then Some(from)
    else FirstOpenAfter(cal, d, from + 1)
  }

  /** Rows that are closed or not later than `d` can be skipped. */
  lemma {:induction false} SkipClosed(cal: seq<CalendarDay>, d: int, from: nat, to: nat)
    requires from <= to <= |cal|
    requires forall j :: from <= j < to ==> !OpenAfter(cal[j], d)
    ensures FirstOpenAfter(cal, d, from) == FirstOpenAfter(cal, d, to)
    decreases (to as int) - from
  {
    if from < to {
      SkipClosed(cal, d, from + 1, to);
    }
  }

  /** NextDay: the first row, in stored order, whose date is later than the
      given yyyymmdd text and which is a trading day, printed as decimal. It
      fails when the text is not a number or no such row exists. */
  function NextDay(cal: seq<CalendarDay>, day: string): (r: Result<string>)
    ensures Atoi(day).None? ==> r.Err?
    ensures r.Ok? ==> exists i :: (0 <= i < |cal| && OpenAfter(cal[i], Atoi(day).value) &&
      r.value == Itoa(cal[i].date) &&
      forall j :: 0 <= j < i ==> !OpenAfter(cal[j], Atoi(day).value))
    ensures Atoi(day).Some? && r.Err? ==>
      forall j :: 0 <= j < |cal| ==> !OpenAfter(cal[j], Atoi(day).value)
  {
    match Atoi(day)
    case None => Err("not a number")
    case Some(d) =>
      match FirstOpenAfter(cal, d, 0)
      case None => Err("no later trading day")
      case Some(i) => Ok(Itoa(cal[i].date))
  }

  /** The National Day week of 2017: September 29 is the last trading day
      before the holiday and trading resumes on October 9. */
  const SampleCalendar: seq<CalendarDay> := [
    CalendarDay(20170928, true), CalendarDay(20170929, true),
    CalendarDay(20170930, false), CalendarDay(20171001, false),
    CalendarDay(20171002, false), CalendarDay(20171003, false),
    CalendarDay(20171004, false), CalendarDay(20171005, false),
    CalendarDay(20171006, false), CalendarDay(20171007, false),
    CalendarDay(20171008, false), CalendarDay(20171009, true),
    CalendarDay(20171010, true)]

  lemma SampleDecimals()
    ensures Itoa(20170931) == "20170931" && Itoa(20171009) == "20171009"
  {
    assert Decimal(20) == "20";
    assert Decimal(201) == "201";
    assert Decimal(2017) == "2017";
    assert Decimal(20170) == "20170";
    assert Decimal(201709) == "201709";
    assert Decimal(2017093) == "2017093";
    assert Decimal(20171) == "20171";
    assert Decimal(201710) == "201710";
    assert Decimal(2017100) == "2017100";
  }

  /** The day after the (non-existent) 31st of September is October 9. */
  lemma NextDaySample()
    ensures NextDay(SampleCalendar, "20170931") == Ok("20171009")
  {
    var d := 20170931;
    assert Atoi("20170931") == Some(d) by {
      SampleDecimals();
      AtoiItoa(d);
    }
    assert forall j :: 0 <= j < 11 ==> !OpenAfter(SampleCalendar[j], d);
    SkipClosed(SampleCalendar, d, 0, 11);
    assert FirstOpenAfter(SampleCalendar, d, 0) == Some(11);
    SampleDecimals();
  }

  /** DefaultStockCalendar over the process-wide cache. `loaded` is what
      reading the calendar file at `path` gives. The result is the calendar
      (or an error) and the cache afterwards. */
  function DefaultStockCalendar(cache: Option<seq<CalendarDay>>, path: string,
                                loaded: Result<seq<CalendarDay>>): (r: (Result<seq<CalendarDay>>, Option<seq<CalendarDay>>))
    ensures cache.Some? ==> r.0 == Ok(cache.value) && r.1 == cache
    ensures cache.None? ==> (r.0.Ok? <==> |path| > 0 && loaded.Ok?)
    ensures r.0.Ok? ==> r.1 == Some(r.0.value)
    ensures r.0.Err? ==> r.1.None?
    ensures cache.None? && r.0.Ok? ==> r.0.value == loaded.value
  {
    if cache.Some? then (Ok(cache.value), cache)
    else if |path| == 0 then (Err("no calendar path"), None)
    else match loaded
      case Err(e) => (Err(e), None)
      case Ok(days) => (Ok(days), Some(days))
  }

  /** Once a calendar has been returned, every later call returns the same
      calendar, whatever path it names and whatever its file holds. */
  lemma CalendarLoadedOnce(cache: Option<seq<CalendarDay>>, path: string, loaded: Result<seq<CalendarDay>>,
                           path2: string, loaded2: Result<seq<CalendarDay>>)
    requires DefaultStockCalendar(cache, path, loaded).0.Ok?
    ensures var (first, after) := DefaultStockCalendar(cache, path, loaded);
      DefaultStockCalendar(after, path2, loaded2) == (first, after)
  {
  }
}

=== FILE: tgear.dfy ===
/** The vendor's legacy variable-length signed number encoding (comm/tgear.go).

    Byte 0 carries the low six bits of the magnitude, the sign in bit 0x40 and
    a continuation flag in bit 0x80; every further byte carries seven more
    magnitude bits (weight 64, 64*128, ...) and its own continuation flag.
    The source sums the groups into a float64; the model sums the same terms
    exactly over unbounded integers. The two agree while the magnitude stays
    below 2^53; above that the float64 sum rounds, a long enough run of
    continuation bytes drives it to infinity or NaN, and a lone sign bit gives
    negative zero, none of which the integer model reproduces. */
module TGear {
  import opened Bytes

  predicate Continues(b: byte) { b >= 0x80 }
  predicate Negative(b: byte) { (b / 0x40) % 2 == 1 }
  function Low6(b: byte): nat { b % 0x40 }
  function Low7(b: byte): nat { b % 0x80 }

  function Pow128(n: nat): nat
  {
    if n == 0 then 1 else 128 * Pow128(n - 1)
  }

  /** Little-endian base-128 value of the low seven bits of `g`. */
  function Groups(g: seq<byte>): nat
  {
    if |g| == 0 then 0 else Low7(g[0]) + 128 * Groups(g[1..])
  }

  lemma MulComm128(a: nat, p: nat)
    ensures a * (128 * p) == 128 * (a * p)
  {
  }

  lemma MulComm64(a: nat, p: nat)
    ensures a * (64 * p) == 64 * (a * p)
  {
  }

  /** Appending a group adds it at weight 128^|g|. */
  lemma {:induction false} GroupsSnoc(g: seq<byte>, b: byte)
    ensures Groups(g + [b]) == Groups(g) + Low7(b) * Pow128(|g|)
    decreases |g|
  {
    var s := g + [b];
    if |g| == 0 {
      assert s[1..] == [];
    } else {
      assert s[1..] == g[1..] + [b];
      GroupsSnoc(g[1..], b);
      MulComm128(Low7(b), Pow128(|g| - 1));
    }
  }

  /** Index of the first byte at or after `from` whose 0x80 bit is clear. */
  function Terminator(buf: seq<byte>, from: nat): (r: Option<nat>)
    requires from <= |buf|
    ensures r.Some? ==> from <= r.value < |buf| && !Continues(buf[r.value])
    ensures r.Some? ==> forall j :: from <= j < r.value ==> Continues(buf[j])
    ensures r.None? ==> forall j :: from <= j < |buf| ==> Continues(buf[j])
    decreases |buf| - from
  {
    if from == |buf| then None
    else if !Continues(buf[from]) then Some(from)
    else Terminator(buf, from + 1)
  }

  datatype Decoded = Decoded(consumed: nat, value: int)

  /** Closed-form meaning of one encoded number at the start of `buf`: None
      when `buf` is empty or holds no terminating byte (the source indexes
      past the end of its slice there). */
  function Decode(buf: seq<byte>): (r: Option<Decoded>)
    ensures r.Some? ==> 1 <= r.value.consumed <= |buf| && !Continues(buf[r.value.consumed - 1])
  {
    match Terminator(buf, 0)
    case None => None
    case Some(k) =>
      var mag := Low6(buf[0]) + 64 * Groups(buf[1..k + 1]);
      Some(Decoded(k + 1, if Negative(buf[0]) then -mag else mag))
  }

  /** BufferToDouble: the source's loop, step by step. */
  method BufferToDouble(buf: seq<byte>) returns (r: Option<Decoded>)
    ensures r == Decode(buf)
  {
    if |buf| == 0 {
      return None;
    }
    var idx := 0;
    var delta := 64;
    var value := Low6(buf[0]);
    while Continues(buf[idx])
      invariant 0 <= idx < |buf|
      invariant forall j :: 0 <= j < idx ==> Continues(buf[j])
      invariant delta == 64 * Pow128(idx)
      invariant value == Low6(buf[0]) + 64 * Groups(buf[1..idx + 1])
      decreases |buf| - idx
    {
      if idx + 1 == |buf| {
        // the source would read past the end of its slice here
        assert Terminator(buf, 0).None? by { TerminatorNone(buf, 0); }
        return None;
      }
      LoopStep(Low6(buf[0]), buf[1..idx + 1], buf[idx + 1], value, delta);
      assert buf[1..idx + 1] + [buf[idx + 1]] == buf[1..idx + 2];
      idx := idx + 1;
      value := value + Low7(buf[idx]) * delta;
      delta := delta * 128;
    }
    TerminatorFirst(buf, 0, idx);
    var v: int := value;
    if Negative(buf[0]) {
      v := -v;
    }
    return Some(Decoded(idx + 1, v));
  }

  /** One iteration of the decoding loop adds the next group at weight `delta`. */
  lemma LoopStep(first: nat, g: seq<byte>, b: byte, value: nat, delta: nat)
    requires value == first + 64 * Groups(g) && delta == 64 * Pow128(|g|)
    ensures value + Low7(b) * delta == first + 64 * Groups(g + [b])
    ensures delta * 128 == 64 * Pow128(|g| + 1)
  {
    GroupsSnoc(g, b);
    MulComm64(Low7(b), Pow128(|g|));
  }

  lemma TerminatorNone(buf: seq<byte>, from: nat)
    requires from <= |buf|
    requires forall j :: from <= j < |buf| ==> Continues(buf[j])
    ensures Terminator(buf, from).None?
    decreases |buf| - from
  {
    if from < |buf| {
      TerminatorNone(buf, from + 1);
    }
  }

  lemma TerminatorFirst(buf: seq<byte>, from: nat, k: nat)
    requires from <= k < |buf| && !Continues(buf[k])
    requires forall j :: from <= j < k ==> Continues(buf[j])
    ensures Terminator(buf, from) == Some(k)
    decreases k - from
  {
    if from < k {
      TerminatorFirst(buf, from + 1, k);
    }
  }

  /** One number occupies the bytes up to and including the first byte whose
      0x80 bit is clear; all earlier bytes have it set. */
  lemma {:induction false} DecodeConsumption(buf: seq<byte>)
    requires Decode(buf).Some?
    ensures 1 <= Decode(buf).value.consumed <= |buf|
    ensures !Continues(buf[Decode(buf).value.consumed - 1])
    ensures forall j :: 0 <= j < Decode(buf).value.consumed - 1 ==> Continues(buf[j])
  {
  }

  /** An empty buffer or one without a terminating byte decodes to nothing. */
  lemma DecodeNoneIff(buf: seq<byte>)
    ensures Decode(buf).None? <==> forall j :: 0 <= j < |buf| ==> Continues(buf[j])
  {
    if forall j :: 0 <= j < |buf| ==> Continues(buf[j]) {
      TerminatorNone(buf, 0);
    }
  }

  /** A single byte without the 0x80 bit is a complete number: ±(b & 0x3F). */
  lemma DecodeSingleByte(b: byte, rest: seq<byte>)
    requires !Continues(b)
    ensures Decode([b] + rest) == Some(Decoded(1, if Negative(b) then -(Low6(b) as int) else Low6(b)))
  {
    assert ([b] + rest)[1..1] == [];
  }

  /** The smallest magnitude past float64's exact integers: the exact sum is
      2^53 + 1, which Go's float64 accumulation rounds to 2^53. */
  lemma DecodePastFloat64()
    ensures Decode([0x81, 0x80, 0x80, 0x80, 0x80, 0x80, 0x80, 0x20]) == Some(Decoded(8, 0x20_0000_0000_0001))
  {
    var buf: seq<byte> := [0x81, 0x80, 0x80, 0x80, 0x80, 0x80, 0x80, 0x20];
    var t1: seq<byte> := [0x20];
    var t2: seq<byte> := [0x80] + t1;
    var t3: seq<byte> := [0x80] + t2;
    var t4: seq<byte> := [0x80] + t3;
    var t5: seq<byte> := [0x80] + t4;
    var t6: seq<byte> := [0x80] + t5;
    var t7: seq<byte> := [0x80] + t6;
    GroupsCons(0x20, []);
    GroupsCons(0x80, t1);
    GroupsCons(0x80, t2);
    GroupsCons(0x80, t3);
    GroupsCons(0x80, t4);
    GroupsCons(0x80, t5);
    GroupsCons(0x80, t6);
    assert Groups(t7) == 0x8000_0000_0000;
    assert buf[1..8] == t7;
    DecodeAt(buf, 7);
  }

  /** The sign comes from bit 0x40 of byte 0 alone and is applied once, to
      the whole magnitude. */
  lemma DecodeSign(buf: seq<byte>)
    requires Decode(buf).Some?
    ensures Negative(buf[0]) ==> Decode(buf).value.value <= 0
    ensures !Negative(buf[0]) ==> Decode(buf).value.value >= 0
    ensures Decode(buf).value.value < 0 ==> Negative(buf[0])
  {
  }

  /** Toggling bit 0x40 of byte 0 negates the decoded number. */
  lemma DecodeFirstSignFlip(buf: seq<byte>)
    requires Decode(buf).Some?
    ensures var flipped := buf[0 := FlipBit6(buf[0])];
            Decode(flipped) == Some(Decoded(Decode(buf).value.consumed, -Decode(buf).value.value))
  {
    var flipped := buf[0 := FlipBit6(buf[0])];
    var k := Decode(buf).value.consumed - 1;
    DecodeConsumption(buf);
    DecodeAt(buf, k);
    FlipBit6Continues(buf[0]);
    FlipBit6Sign(buf[0]);
    forall j | 0 <= j <= k
      ensures Continues(flipped[j]) == Continues(buf[j])
    {
    }
    DecodeAt(flipped, k);
    assert flipped[1..k + 1] == buf[1..k + 1];
  }

  /** Flipping bit 0x40 of the first byte toggles the sign and keeps the low
      six bits. */
  lemma FlipBit6Sign(b: byte)
    ensures Negative(FlipBit6(b)) == !Negative(b) && Low6(FlipBit6(b)) == Low6(b)
  {
  }

  /** Bit 0x40 of any later byte is an ordinary magnitude bit, worth
      64 * 64 * 128^(i-1) at position i; it never changes the sign. */
  lemma DecodeLaterBit6IsMagnitude(buf: seq<byte>, i: nat)
    requires Decode(buf).Some? && 1 <= i < Decode(buf).value.consumed
    ensures var flipped := buf[i := FlipBit6(buf[i])];
            var d := Decode(buf).value;
            var weight := 64 * 64 * Pow128(i - 1);
            && Decode(flipped).Some?
            && Decode(flipped).value.consumed == d.consumed
            && Abs(Decode(flipped).value.value) == Abs(d.value) + (if Bit6(buf[i]) then -weight else weight)
            && (Negative(buf[0]) ==> Decode(flipped).value.value <= 0)
            && (!Negative(buf[0]) ==> Decode(flipped).value.value >= 0)
  {
    var flipped := buf[i := FlipBit6(buf[i])];
    var k := Decode(buf).value.consumed - 1;
    DecodeConsumption(buf);
    DecodeAt(buf, k);
    FlippedDecode(buf, i, k);
    FlippedGroups(buf, i, k);
    var p: int := Pow128(i - 1);
    var delta: int := if Bit6(buf[i]) then -64 * p else 64 * p;
    SignedShift(Negative(buf[0]), Low6(buf[0]), Groups(buf[1..k + 1]), Groups(flipped[1..k + 1]), delta, p);
  }

  /** Flipping bit 0x40 of a later byte keeps the number's extent and its
      first byte. */
  lemma FlippedDecode(buf: seq<byte>, i: nat, k: nat)
    requires 1 <= i <= k < |buf| && !Continues(buf[k])
    requires forall j :: 0 <= j < k ==> Continues(buf[j])
    ensures var flipped := buf[i := FlipBit6(buf[i])];
      var mag := Low6(buf[0]) + 64 * Groups(flipped[1..k + 1]);
      Decode(flipped) == Some(Decoded(k + 1, if Negative(buf[0]) then -mag else mag))
  {
    var flipped := buf[i := FlipBit6(buf[i])];
    FlipBit6Continues(buf[i]);
    assert !Continues(flipped[k]);
    forall j | 0 <= j < k
      ensures Continues(flipped[j])
    {
    }
    DecodeAt(flipped, k);
  }

  /** ... and moves the group sum by 64 * 128^(i-1). */
  lemma FlippedGroups(buf: seq<byte>, i: nat, k: nat)
    requires 1 <= i <= k < |buf|
    ensures var flipped := buf[i := FlipBit6(buf[i])];
      Groups(flipped[1..k + 1]) == Groups(buf[1..k + 1]) +
        (if Bit6(buf[i]) then -64 * Pow128(i - 1) else 64 * Pow128(i - 1))
  {
    var g := buf[1..k + 1];
    assert buf[i := FlipBit6(buf[i])][1..k + 1] == g[i - 1 := FlipBit6(g[i - 1])];
    GroupsFlipBit6(g, i - 1);
  }

  /** Bit 0x40 and the continuation bit 0x80 are independent. */
  lemma FlipBit6Continues(b: byte)
    ensures Continues(FlipBit6(b)) == Continues(b)
  {
  }

  /** Decode in terms of the terminating byte's position. */
  lemma DecodeAt(buf: seq<byte>, k: nat)
    requires k < |buf| && !Continues(buf[k])
    requires forall j :: 0 <= j < k ==> Continues(buf[j])
    ensures var mag := Low6(buf[0]) + 64 * Groups(buf[1..k + 1]);
      Decode(buf) == Some(Decoded(k + 1, if Negative(buf[0]) then -mag else mag))
  {
    TerminatorFirst(buf, 0, k);
  }

  /** The arithmetic of DecodeLaterBit6IsMagnitude: shifting the group sum by
      `delta` shifts the signed magnitude's absolute value by `64 * delta`. */
  lemma SignedShift(neg: bool, low: nat, g: nat, g': nat, delta: int, p: int)
    requires g' == g + delta
    requires 0 <= p && (delta == 64 * p || delta == -64 * p)
    ensures var m := low + 64 * g;
            var m' := low + 64 * g';
            && Abs(if neg then -m' else m') == Abs(if neg then -m else m) + (if delta < 0 then -64 * 64 * p else 64 * 64 * p)
            && (neg ==> (if neg then -m' else m') <= 0)
            && (!neg ==> (if neg then -m' else m') >= 0)
  {
  }

  predicate Bit6(b: byte) { (b / 0x40) % 2 == 1 }

  function FlipBit6(b: byte): byte
  {
    if Bit6(b) then b - 0x40 else b + 0x40
  }

  lemma {:induction false} GroupsFlipBit6(g: seq<byte>, i: nat)
    requires i < |g|
    ensures Groups(g[i := FlipBit6(g[i])]) == Groups(g) + (if Bit6(g[i]) then -64 * Pow128(i) else 64 * Pow128(i))
    decreases |g|
  {
    var h := g[i := FlipBit6(g[i])];
    if i == 0 {
      assert h[1..] == g[1..];
    } else {
      assert h[1..] == g[1..][i - 1 := FlipBit6(g[i])];
      GroupsFlipBit6(g[1..], i - 1);
    }
  }

  // ---------------------------------------------------------------------
  // The reference encoder, transcribed in comments in DoubleToBuf.

  function Abs(x: int): nat { if x < 0 then -x else x }

  /** Seven-bit groups of `n`, least significant first, each flagged with
      0x80 when more groups follow. */
  function EncodeGroups(n: nat): (r: seq<byte>)
    decreases n
  {
    if n == 0 then []
    else [n % 0x80 + (if n / 0x80 > 0 then 0x80 else 0)] + EncodeGroups(n / 0x80)
  }

  /** DoubleToBuf on an integral input: the magnitude's low six bits and the
      sign go to byte 0; the encoder shifts a 32-bit copy of the magnitude, so
      only the magnitude's low 32 bits are encoded. */
  function DoubleToBuf(v: int): (r: seq<byte>)
    ensures |r| >= 1
  {
    var mag := Abs(v) % 0x1_0000_0000;
    var rest := mag / 0x40;
    [FirstByte(mag % 0x40, v < 0, rest > 0)] + EncodeGroups(rest)
  }

  /** Byte 0 of an encoding: six magnitude bits, the sign bit 0x40 and the
      continuation bit 0x80. */
  function FirstByte(low: nat, negative: bool, more: bool): byte
    requires low < 0x40
  {
    low + (if negative then 0x40 else 0) + (if more then 0x80 else 0)
  }

  lemma FirstByteFields(low: nat, negative: bool, more: bool)
    requires low < 0x40
    ensures Low6(FirstByte(low, negative, more)) == low
    ensures Negative(FirstByte(low, negative, more)) == negative
    ensures Continues(FirstByte(low, negative, more)) == more
  {
  }

  lemma GroupsCons(b: byte, g: seq<byte>)
    ensures Groups([b] + g) == Low7(b) + 128 * Groups(g)
  {
    assert ([b] + g)[1..] == g;
  }

  lemma {:induction false} EncodeGroupsShape(n: nat)
    ensures n > 0 ==> |EncodeGroups(n)| >= 1
    ensures forall j :: 0 <= j < |EncodeGroups(n)| - 1 ==> Continues(EncodeGroups(n)[j])
    ensures n > 0 ==> !Continues(EncodeGroups(n)[|EncodeGroups(n)| - 1])
    ensures Groups(EncodeGroups(n)) == n
    decreases n
  {
    if n > 0 {
      var b: byte := n % 0x80 + (if n / 0x80 > 0 then 0x80 else 0);
      EncodeGroupsShape(n / 0x80);
      GroupsCons(b, EncodeGroups(n / 0x80));
      assert Low7(b) == n % 0x80;
    }
  }

  /** Decoding the reference encoder's output returns the original integer,
      whatever follows it in the buffer, for every magnitude below 2^32. */
  lemma {:induction false} DecodeDoubleToBuf(v: int, rest: seq<byte>)
    requires -0x1_0000_0000 < v < 0x1_0000_0000
    ensures Decode(DoubleToBuf(v) + rest) == Some(Decoded(|DoubleToBuf(v)|, v))
  {
    var enc := DoubleToBuf(v);
    DoubleToBufShape(v);
    DecodeComplete(enc, rest);
  }

  /** Byte-level shape of the encoder's output. */
  lemma DoubleToBufShape(v: int)
    requires -0x1_0000_0000 < v < 0x1_0000_0000
    ensures var enc := DoubleToBuf(v);
            && (forall j :: 0 <= j < |enc| - 1 ==> Continues(enc[j]))
            && !Continues(enc[|enc| - 1])
            && (Negative(enc[0]) <==> v < 0)
            && Low6(enc[0]) + 64 * Groups(enc[1..]) == Abs(v)
  {
    var enc := DoubleToBuf(v);
    var mag := Abs(v);
    assert mag % 0x1_0000_0000 == mag;
    var rest := mag / 0x40;
    var g := EncodeGroups(rest);
    EncodeGroupsShape(rest);
    FirstByteFields(mag % 0x40, v < 0, rest > 0);
    assert enc == [FirstByte(mag % 0x40, v < 0, rest > 0)] + g;
    assert enc[1..] == g;
    forall j | 1 <= j < |enc| - 1
      ensures Continues(enc[j])
    {
      assert enc[j] == g[j - 1];
    }
    if |enc| > 1 {
      assert enc[|enc| - 1] == g[|g| - 1];
    }
  }

  /** A number whose bytes are exactly `enc` decodes the same with anything
      appended after it. */
  lemma DecodeComplete(enc: seq<byte>, rest: seq<byte>)
    requires |enc| >= 1 && !Continues(enc[|enc| - 1])
    requires forall j :: 0 <= j < |enc| - 1 ==> Continues(enc[j])
    ensures Decode(enc + rest) == Some(Decoded(|enc|,
              var mag := Low6(enc[0]) + 64 * Groups(enc[1..]);
              if Negative(enc[0]) then -mag else mag))
  {
    var buf := enc + rest;
    TerminatorFirst(buf, 0, |enc| - 1);
    assert buf[1..|enc|] == enc[1..];
  }

  // ---------------------------------------------------------------------
  // Sequential decoding, as the unit test walks a buffer.

  function DecodeAll(buf: seq<byte>): seq<int>
    decreases |buf|
  {
    if |buf| == 0 then []
    else match Decode(buf)
      case None => []
      case Some(d) =>
        DecodeConsumption(buf);
        [d.value] + DecodeAll(buf[d.consumed..])
  }

  function EncodeAll(vs: seq<int>): seq<byte>
  {
    if |vs| == 0 then [] else DoubleToBuf(vs[0]) + EncodeAll(vs[1..])
  }

  /** Encoded numbers are self-delimiting: decoding a concatenation of
      encodings gives back every number in order. */
  lemma {:induction false} DecodeAllEncodeAll(vs: seq<int>)
    requires forall i :: 0 <= i < |vs| ==> -0x1_0000_0000 < vs[i] < 0x1_0000_0000
    ensures DecodeAll(EncodeAll(vs)) == vs
  {
    if |vs| > 0 {
      var enc := DoubleToBuf(vs[0]);
      DecodeDoubleToBuf(vs[0], EncodeAll(vs[1..]));
      assert (enc + EncodeAll(vs[1..]))[|enc|..] == EncodeAll(vs[1..]);
      DecodeAllEncodeAll(vs[1..]);
    }
  }

  /** The buffer of the source's unit test, hex AC0E504C...4100. */
  const TestVector: seq<byte> :=
    [0xAC, 0x0E, 0x50, 0x4C, 0x24, 0x61, 0x80, 0xFD, 0xA6, 0x0E, 0xEC, 0x0E,
     0xA0, 0xBC, 0x4D, 0x97, 0x8C, 0x02, 0x04, 0x88, 0x0F, 0x4E, 0xB7, 0x90,
     0x1E, 0xA9, 0xAB, 0x2F, 0x01, 0x9C, 0x8E, 0x04, 0x41, 0x00]

  /** The unit test's expectations, for its buffer `t`: the first three
      numbers are 940, -16 and -12, and the sixth is 14999360. */
  lemma TestVectorValues(t: seq<byte>)
    requires |t| == |TestVector| && forall i | 0 <= i < |t| :: t[i] == TestVector[i]
    ensures |DecodeAll(t)| >= 6
    ensures DecodeAll(t)[0] == 940
    ensures DecodeAll(t)[1] == -16
    ensures DecodeAll(t)[2] == -12
    ensures DecodeAll(t)[5] == 14999360
  {
    DecodeTestPrefix(t);
  }

  /** Any buffer that starts with the test's first ten bytes decodes to the
      six numbers they hold, then to whatever follows. */
  lemma DecodeTestPrefix(t: seq<byte>)
    requires |t| >= 10
    requires t[0] == 0xAC && t[1] == 0x0E && t[2] == 0x50 && t[3] == 0x4C && t[4] == 0x24
    requires t[5] == 0x61 && t[6] == 0x80 && t[7] == 0xFD && t[8] == 0xA6 && t[9] == 0x0E
    ensures DecodeAll(t) == [940, -16, -12, 36, -33, 14999360] + DecodeAll(t[10..])
  {
    DecodeTestFirst(t);
    DecodeTestSingles(t);
    DecodeTestSixth(t);
  }

  lemma DecodeTestFirst(t: seq<byte>)
    requires |t| >= 10 && t[0] == 0xAC && t[1] == 0x0E
    ensures DecodeAll(t) == [940] + DecodeAll(t[2..])
  {
    assert t[0..] == t;
    assert t[1..2] == [0x0E];
    assert Groups([0x0E]) == 14 by { GroupsCons(0x0E, []); }
    DecodeStep(t, 0, 1, [0x0E], 14, 940);
  }

  lemma DecodeTestSingles(t: seq<byte>)
    requires |t| >= 10 && t[2] == 0x50 && t[3] == 0x4C && t[4] == 0x24 && t[5] == 0x61
    ensures DecodeAll(t[2..]) == [-16, -12, 36, -33] + DecodeAll(t[6..])
  {
    var tail := DecodeAll(t[6..]);
    assert !Continues(0x50) && !Continues(0x4C) && !Continues(0x24) && !Continues(0x61);
    assert Negative(0x50) && Negative(0x4C) && !Negative(0x24) && Negative(0x61);
    assert Low6(0x50) == 16 && Low6(0x4C) == 12 && Low6(0x24) == 36 && Low6(0x61) == 33;
    DecodeSingle(t, 5, 0x61, -33);
    DecodeSingle(t, 4, 0x24, 36);
    DecodeSingle(t, 3, 0x4C, -12);
    DecodeSingle(t, 2, 0x50, -16);
    Chain4(DecodeAll(t[2..]), DecodeAll(t[3..]), DecodeAll(t[4..]), DecodeAll(t[5..]), tail, -16, -12, 36, -33);
  }

  lemma Chain4(a: seq<int>, b: seq<int>, c: seq<int>, d: seq<int>, e: seq<int>, x: int, y: int, z: int, w: int)
    requires a == [x] + b && b == [y] + c && c == [z] + d && d == [w] + e
    ensures a == [x, y, z, w] + e
  {
  }

  lemma DecodeSingle(t: seq<byte>, i: nat, b: byte, v: int)
    requires i < |t| && t[i] == b && !Continues(b)
    requires v == if Negative(b) then -(Low6(b) as int) else Low6(b)
    ensures DecodeAll(t[i..]) == [v] + DecodeAll(t[i + 1..])
  {
    assert t[i..] == [b] + t[i + 1..];
    DecodeSingleByte(b, t[i + 1..]);
  }

  lemma DecodeTestSixth(t: seq<byte>)
    requires |t| >= 10 && t[6] == 0x80 && t[7] == 0xFD && t[8] == 0xA6 && t[9] == 0x0E
    ensures DecodeAll(t[6..]) == [14999360] + DecodeAll(t[10..])
  {
    assert t[7..10] == [0xFD, 0xA6, 0x0E];
    assert Groups([0xFD, 0xA6, 0x0E]) == 234365 by {
      GroupsCons(0x0E, []);
      GroupsCons(0xA6, [0x0E]);
      GroupsCons(0xFD, [0xA6, 0x0E]);
    }
    DecodeStep(t, 6, 9, [0xFD, 0xA6, 0x0E], 234365, 14999360);
  }

  /** Decoding `t[from..]` consumes bytes from..to and yields `v`. */
  lemma DecodeStep(t: seq<byte>, from: nat, to: nat, g: seq<byte>, gv: nat, v: int)
    requires from <= to < |t|
    requires !Continues(t[to]) && forall j :: from <= j < to ==> Continues(t[j])
    requires t[from + 1..to + 1] == g && Groups(g) == gv
    requires v == (var mag := Low6(t[from]) + 64 * gv; if Negative(t[from]) then -mag else mag)
    ensures DecodeAll(t[from..]) == [v] + DecodeAll(t[to + 1..])
  {
    var enc := t[from..to + 1];
    var rest := t[to + 1..];
    assert t[from..] == enc + rest;
    assert enc[1..] == g;
    forall j | 0 <= j < |enc| - 1
      ensures Continues(enc[j])
    {
      assert enc[j] == t[from + j];
    }
    DecodeComplete(enc, rest);
    assert (enc + rest)[|enc|..] == rest;
    DecodeAllCons(enc + rest, Decoded(|enc|, v));
  }

  /** One step of sequential decoding. */
  lemma DecodeAllCons(buf: seq<byte>, d: Decoded)
    requires |buf| > 0 && Decode(buf) == Some(d)
    ensures 0 < d.consumed <= |buf|
    ensures DecodeAll(buf) == [d.value] + DecodeAll(buf[d.consumed..])
  {
    DecodeConsumption(buf);
  }
}
